=== FILE: README.md ===
# Traffic-survey task editor: a Dafny model of its core

The program configures traffic-survey tasks (과업). Each task has counting
sites (지점). Each site has physical directions 1..N, grouped into input
groups (labels such as `4-5-6`). Each site also has counter rows that link a
direction to a keyboard-shortcut sheet of some vehicle-type project
(차종유형). The program also keeps the survey time slots, and it writes the
count matrices into a fixed-format task-data (`.dat`) file.

This project models that core as pure functions over immutable data. Each
operation carries a contract, and the properties that relate operations are
proved as lemmas. The modules follow the parts of the program:

- `Common` has options and results, plus the position helpers that "delete
  the selected rows" and "pick the selected rows" are built from.
- `Digits` covers ASCII digits, `str`/`int` of naturals, zero padding,
  Python's `strip` over ASCII whitespace, and the digit runs of a label
  (`re.findall(r"\d+")`, `re.split(r"[^0-9]+")`).
- `Calendar` holds the `datetime` fields the program reads.
- `TimeSegmenter` is the survey-time tab. It cuts a start..end span into
  slots, appends them to the table, keeps the duplicate-checked range list
  and deletes rows.
- `DirectionGroups` is the direction pool and the input groups, on the
  template tab and on the site tab. It also holds the direction count and
  the application of a vehicle template.
- `HotkeySheets` covers the counter sheets of one project: seeding the
  first one, add, rename, delete with renumbering, saving the editor table
  and the first-sheet mirrors.
- `CounterSheets` finds the sheet a counter row uses, through its ordered
  fallback chain and the association it writes back. It also covers the
  group dialog's default project and its OK action.
- `Preview` builds the per-direction preview tabs.
- `SiteList` is the site table and its per-row configuration store:
  `get`/`set`, applying the editor to the current row, and adding, moving
  and deleting sites.
- `Identifiers` generates the clock-based survey and job numbers, and
  renumbers jobs when a survey is duplicated.
- `DatFile` covers the Korean 12-hour timestamp and the `.dat` writer. It
  also includes a reader for the written text, so that the writer is
  proved to lose nothing.

All source references are to the single program file
`env_hotkey97_fixed_displayname_export_hotkeys_v2.py`.

Two points of the code are easy to misread:

- **The sheet lookup has four steps.** The sibling-row step (lines
  2375-2394) looks the sibling row's name up only among the chosen
  project's sheets, by exact name. It does not retry the digit step or the
  all-projects step with that name.
- **Generated time slots are appended without a duplicate check.**
  `generate` (lines 1451-1469) appends every slot, even one already in the
  table; only the range list (`add_range`) refuses duplicates.
  `TimeSegmenter.GenerateTwice` states this.

## Model

| member | source | states |
|---|---|---|
| Digits.StripIdempotent | env_hotkey97_fixed_displayname_export_hotkeys_v2.py:486-491 | stripping a cell text twice gives the same text as stripping it once, so saved names survive a reload-and-save unchanged |
| TimeSegmenter.HhmmRoundTrip | env_hotkey97_fixed_displayname_export_hotkeys_v2.py:1435-1447 | an `HH:mm` text has five characters and reads back as the same minute of the day |
| TimeSegmenter.HhmmInjective | env_hotkey97_fixed_displayname_export_hotkeys_v2.py:1422-1424 | two times print alike exactly when they are the same time, so the text key of the duplicate check compares the times themselves |
| TimeSegmenter.Segments | env_hotkey97_fixed_displayname_export_hotkeys_v2.py:1438-1449 | every slot lies within start..end, is exactly one step long and ends at most at the end |
| TimeSegmenter.SegmentsShape | env_hotkey97_fixed_displayname_export_hotkeys_v2.py:1438-1449 | no slots when start >= end; otherwise (end - start) / step slots, slot k running from start + k·step to start + (k+1)·step, with a partial last slot dropped |
| TimeSegmenter.Segment | env_hotkey97_fixed_displayname_export_hotkeys_v2.py:1438-1449 | the `while t < e` loop produces exactly the slot list above |
| TimeSegmenter.Generate | env_hotkey97_fixed_displayname_export_hotkeys_v2.py:1451-1469 | the existing rows stay in front, unchanged; each new row i is numbered i + 1 and carries the `HH:mm` texts of its slot |
| TimeSegmenter.GenerateTwice | env_hotkey97_fixed_displayname_export_hotkeys_v2.py:1451-1469 | generating twice appends the same slots twice, the second batch numbered after the first: nothing is deduplicated |
| TimeSegmenter.AddRange | env_hotkey97_fixed_displayname_export_hotkeys_v2.py:1419-1427 | an empty or reversed span is ignored; a range already listed is refused; otherwise the range is appended |
| TimeSegmenter.RangeKeyMatch | env_hotkey97_fixed_displayname_export_hotkeys_v2.py:1422-1424 | the `(HH:mm, HH:mm, step)` key is already present exactly when the same range is already listed |
| TimeSegmenter.AddRangeKeepsDistinct | env_hotkey97_fixed_displayname_export_hotkeys_v2.py:1419-1427 | the range list never holds a range twice, and an immediate second add of the same range is refused |
| TimeSegmenter.RangeRows | env_hotkey97_fixed_displayname_export_hotkeys_v2.py:1429-1436 | row i of the refreshed table is numbered i + 1, and its two texts read back as the range's start and end |
| TimeSegmenter.DelRows | env_hotkey97_fixed_displayname_export_hotkeys_v2.py:1406-1410 | the unselected rows remain, in order, renumbered 1..n |
| TimeSegmenter.DelRowsKeeps | env_hotkey97_fixed_displayname_export_hotkeys_v2.py:1406-1410 | row i after deletion is the i-th unselected row, and every unselected row is still present |
| DirectionGroups.RebuildPool | env_hotkey97_fixed_displayname_export_hotkeys_v2.py:805-825 | the pool is ascending and without repeats, and holds exactly the directions 1..N that no group label names |
| DirectionGroups.PoolPartition | env_hotkey97_fixed_displayname_export_hotkeys_v2.py:805-825 | every direction 1..N is in exactly one of the pool and the groups |
| DirectionGroups.GroupLabelNames | env_hotkey97_fixed_displayname_export_hotkeys_v2.py:830-839 | the `-`-joined label of the selected pool entries reads back as exactly those directions, in order |
| DirectionGroups.TemplateAddGroup | env_hotkey97_fixed_displayname_export_hotkeys_v2.py:830-842 | no selection changes nothing; otherwise the new label is appended and the pool is recomputed from all labels |
| DirectionGroups.TemplateAddGroupTakes | env_hotkey97_fixed_displayname_export_hotkeys_v2.py:830-842 | after grouping, none of the selected directions is still in the pool |
| DirectionGroups.TemplateRemoveGroups | env_hotkey97_fixed_displayname_export_hotkeys_v2.py:844-849 | the unselected labels remain and the pool is recomputed from them |
| DirectionGroups.ToTabs | env_hotkey97_fixed_displayname_export_hotkeys_v2.py:2646-2667 | the selected pool entries become one new group and leave the pool; the rest of the pool keeps its order |
| DirectionGroups.ToTabsAgrees | env_hotkey97_fixed_displayname_export_hotkeys_v2.py:2646-2667 | when the pool was consistent with the groups, the site tab's step-by-step update gives the same pool as a full recomputation |
| DirectionGroups.FromTabs | env_hotkey97_fixed_displayname_export_hotkeys_v2.py:2668-2712 | the selected groups go, and the directions they named go back into the pool unless it already has them |
| DirectionGroups.FromTabsSorted | env_hotkey97_fixed_displayname_export_hotkeys_v2.py:2668-2712 | ungrouping keeps the pool ascending and without repeats, holding the old pool plus the released directions |
| DirectionGroups.FromTabsAgrees | env_hotkey97_fixed_displayname_export_hotkeys_v2.py:2668-2712 | when the pool was consistent and the released directions lie within 1..N and are named by no remaining group, ungrouping gives the same pool as a full recomputation |
| DirectionGroups.DirectionCount | env_hotkey97_fixed_displayname_export_hotkeys_v2.py:2826-2840 | the site's 방향수 is the number of distinct directions its groups name, or the spin value when they name none |
| DirectionGroups.CountPlusPool | env_hotkey97_fixed_displayname_export_hotkeys_v2.py:2826-2840 | with groups naming only directions 1..N, the direction count plus the pool size is N |
| DirectionGroups.ClampSpin | env_hotkey97_fixed_displayname_export_hotkeys_v2.py:2542-2545 | the spin box keeps the value within 1..40 and takes any value already in that range |
| DirectionGroups.ApplyTemplate | env_hotkey97_fixed_displayname_export_hotkeys_v2.py:2521-2545 | the spin becomes the largest direction the template's counters and labels mention (the current spin when they mention none), clamped; the pool is all of 1..spin; labels and counters are copied |
| DirectionGroups.ApplyTemplatePoolOverlap | env_hotkey97_fixed_displayname_export_hotkeys_v2.py:2541-2550 | as written, a direction held by a template group is also offered in the pool |
| DirectionGroups.ApplyTemplateRebuilt | env_hotkey97_fixed_displayname_export_hotkeys_v2.py:2541-2550 | with the pool rebuilt, pool and groups split the directions 1..spin, as every other grouping operation keeps them |
| HotkeySheets.SeedItems | env_hotkey97_fixed_displayname_export_hotkeys_v2.py:422-425 | a fresh sheet lists every vehicle of the project in order, numbered from 1, with no shortcut |
| HotkeySheets.EnsureFirst | env_hotkey97_fixed_displayname_export_hotkeys_v2.py:416-426 | a project always ends up with at least one sheet; an empty list is seeded with sheet `1`, and an existing list is left alone |
| HotkeySheets.AddCounter | env_hotkey97_fixed_displayname_export_hotkeys_v2.py:500-510 | one sheet is appended, named by the new sheet count and seeded from the vehicles; existing sheets and mirrors are unchanged |
| HotkeySheets.AddCounterNames | env_hotkey97_fixed_displayname_export_hotkeys_v2.py:500-507 | while every sheet bears its default name, the new sheet's name differs from every existing one |
| HotkeySheets.DelCounter | env_hotkey97_fixed_displayname_export_hotkeys_v2.py:524-533 | an invalid index changes nothing; otherwise the sheet is removed, the rest keep their order and items, and all-digit names become their new position |
| HotkeySheets.DelCounterNames | env_hotkey97_fixed_displayname_export_hotkeys_v2.py:529-533 | after a delete every all-digit name equals its position, and a custom name is kept as it was |
| HotkeySheets.SelectionAfterDelete | env_hotkey97_fixed_displayname_export_hotkeys_v2.py:440-445 | the row selected after a delete is the row above the deleted one, clamped into the list: row 0 when the first row (or an index below it) was deleted, the last row when the index is past the end; there is none when the list is empty |
| HotkeySheets.DeleteThenReload | env_hotkey97_fixed_displayname_export_hotkeys_v2.py:524-537 | deleting the only sheet and reloading re-seeds sheet `1` from the vehicles; otherwise the reload keeps the list the delete left |
| HotkeySheets.Cleaned | env_hotkey97_fixed_displayname_export_hotkeys_v2.py:486-489 | every editor row reads as its stripped name and shortcut |
| HotkeySheets.Keep | env_hotkey97_fixed_displayname_export_hotkeys_v2.py:483-491 | only rows with a non-empty name are kept; their 순번 are drawn from the row numbers, strictly ascending, so gaps are possible |
| HotkeySheets.KeepFromRows | env_hotkey97_fixed_displayname_export_hotkeys_v2.py:483-491 | each kept item is the row its 순번 names, with that row's name and shortcut, and that row's name is not empty |
| HotkeySheets.ItemsOfRowsSound | env_hotkey97_fixed_displayname_export_hotkeys_v2.py:483-491 | each saved item is the editor row numbered 순번 - 1, with its stripped name (not blank) and stripped shortcut |
| HotkeySheets.ItemsOfRowsClean | env_hotkey97_fixed_displayname_export_hotkeys_v2.py:483-491 | every saved item has a non-empty stripped name and a stripped shortcut |
| HotkeySheets.ItemsOfRowsComplete | env_hotkey97_fixed_displayname_export_hotkeys_v2.py:483-491 | every editor row whose stripped name is non-empty is saved, with its row number plus one as 순번 |
| HotkeySheets.KeyMap | env_hotkey97_fixed_displayname_export_hotkeys_v2.py:496 | the shortcut mirror has exactly the saved vehicle names as keys |
| HotkeySheets.KeyMapLastWins | env_hotkey97_fixed_displayname_export_hotkeys_v2.py:496 | for a name saved more than once, the mirror holds the shortcut of its last occurrence |
| HotkeySheets.Persist | env_hotkey97_fixed_displayname_export_hotkeys_v2.py:477-497 | an invalid index changes nothing; otherwise the sheet's items are replaced, and only sheet 0 also updates the item and shortcut mirrors |
| HotkeySheets.PersistReload | env_hotkey97_fixed_displayname_export_hotkeys_v2.py:450-497 | loading clean items into the editor and saving them again returns the same items, renumbered 1..n |
| HotkeySheets.RenameCounter | env_hotkey97_fixed_displayname_export_hotkeys_v2.py:512-522 | a blank name or an invalid index changes nothing; otherwise only that sheet's name changes, to the stripped text |
| HotkeySheets.RenameThenAddCollides | env_hotkey97_fixed_displayname_export_hotkeys_v2.py:500-522 | renaming sheet 1 of one to `2` and then adding a sheet leaves two sheets both named `2` |
| CounterSheets.Get | env_hotkey97_fixed_displayname_export_hotkeys_v2.py:2309-2312 | a label has a saved project exactly when some entry of `group_projects` has that label |
| CounterSheets.Set | env_hotkey97_fixed_displayname_export_hotkeys_v2.py:2274-2280 | after the update the label maps to the new project, every other label keeps its project, and labels stay unique |
| CounterSheets.FindByName | env_hotkey97_fixed_displayname_export_hotkeys_v2.py:2359-2364 | the first sheet whose stripped name equals the counter name, or none when no sheet has it |
| CounterSheets.DigitIndex | env_hotkey97_fixed_displayname_export_hotkeys_v2.py:2366-2373 | the index comes from the first digit run n of the name, is n - 1, and is present exactly when 1 <= n <= the sheet count |
| CounterSheets.SiblingFrom | env_hotkey97_fixed_displayname_export_hotkeys_v2.py:2375-2394 | the first other row with the same direction whose name is a sheet of the chosen project, or none when no row qualifies |
| CounterSheets.AnyProject | env_hotkey97_fixed_displayname_export_hotkeys_v2.py:2404-2407 | the first project, in project order, holding a sheet with the name, and that sheet; none when no project has it |
| CounterSheets.ChosenSheets | env_hotkey97_fixed_displayname_export_hotkeys_v2.py:2307-2353 | the searched sheets are the project saved for the first `group_projects` label naming the direction when that is a valid index; else the survey-vehicle selection's project when valid; else none |
| CounterSheets.Resolve | env_hotkey97_fixed_displayname_export_hotkeys_v2.py:2291-2440 | a found sheet comes from step 1..4; `group_projects` changes only when step 4 found the sheet; the lookup stops at once exactly when the chosen sheets are empty |
| CounterSheets.ResolveStepOne | env_hotkey97_fixed_displayname_export_hotkeys_v2.py:2359-2364 | step 1 returns the first chosen sheet whose name is the stripped counter name |
| CounterSheets.ResolveStepTwo | env_hotkey97_fixed_displayname_export_hotkeys_v2.py:2366-2373 | later steps run only when no chosen sheet has the name; step 2 returns sheet n - 1 for the name's first digit run n; step 3 onward runs only when that index does not exist |
| CounterSheets.ResolveStepThree | env_hotkey97_fixed_displayname_export_hotkeys_v2.py:2375-2394 | step 3 takes the first other row, in table order, with the same direction text and a non-blank name some chosen sheet has, and returns the first chosen sheet with that name |
| CounterSheets.ResolveStepFour | env_hotkey97_fixed_displayname_export_hotkeys_v2.py:2396-2431 | step 4 runs only when no sibling row helped; it returns the first sheet with the name in the first project holding one, and records that project for the direction's first group |
| CounterSheets.ResolveMiss | env_hotkey97_fixed_displayname_export_hotkeys_v2.py:2355-2440 | "not found" means the chosen sheets were not empty, steps 1 to 3 all failed, and no project holds a sheet with the counter name |
| CounterSheets.WriteBackRecords | env_hotkey97_fixed_displayname_export_hotkeys_v2.py:2408-2420 | the direction's first group label maps to the project found, and every other label keeps its project |
| CounterSheets.TaggedSheet | env_hotkey97_fixed_displayname_export_hotkeys_v2.py:2010-2030 | the sheet name found is non-blank and is the stripped name of some counter row |
| CounterSheets.ProjectWith | env_hotkey97_fixed_displayname_export_hotkeys_v2.py:2032-2041 | a project holding a sheet with the name; none exactly when no project holds one |
| CounterSheets.DefaultProject | env_hotkey97_fixed_displayname_export_hotkeys_v2.py:1995-2066 | the default is a valid project index whenever the label names a direction and projects exist; a saved index other than 0 wins; otherwise the project holding an already-linked sheet wins; with neither, or when either gives 0, the survey-vehicle selection if valid, else 0 |
| CounterSheets.AssignDir | env_hotkey97_fixed_displayname_export_hotkeys_v2.py:2242-2270 | every row of the direction takes the chosen sheet name, other rows are unchanged, and one row is appended when the direction had none; a blank choice changes nothing |
| CounterSheets.AssignSheetsResult | env_hotkey97_fixed_displayname_export_hotkeys_v2.py:2240-2272 | after the OK action, each of the group's directions with a non-blank choice has rows, and all of them name the chosen sheet |
| CounterSheets.AssignSheetsUntouched | env_hotkey97_fixed_displayname_export_hotkeys_v2.py:2240-2272 | a row whose direction is not one of the group's directions is left as it was |
| CounterSheets.AssignSheetsAll | env_hotkey97_fixed_displayname_export_hotkeys_v2.py:2240-2272 | for distinct directions, every direction with a non-blank choice has rows, all naming the chosen sheet |
| CounterSheets.AssignSheetsOthers | env_hotkey97_fixed_displayname_export_hotkeys_v2.py:2240-2272 | every row whose direction is none of the group's is an original row, unchanged |
| CounterSheets.TemplateOk | env_hotkey97_fixed_displayname_export_hotkeys_v2.py:1020-1046 | the template tab's OK action: the table only grows; every direction with a non-blank choice has rows, all naming the chosen sheet; rows of other directions are original and unchanged |
| CounterSheets.GroupOk | env_hotkey97_fixed_displayname_export_hotkeys_v2.py:2240-2284 | the OK action records the chosen project for the group label and leaves every other label's project |
| Preview.DirToSheet | env_hotkey97_fixed_displayname_export_hotkeys_v2.py:2992-3009 | a direction is mapped exactly when some counter row with an all-digit direction links it to a non-blank sheet name |
| Preview.DirToSheetLastWins | env_hotkey97_fixed_displayname_export_hotkeys_v2.py:2992-3009 | when several rows link one direction, the last row's sheet name wins |
| Preview.DirToProject | env_hotkey97_fixed_displayname_export_hotkeys_v2.py:3032-3046 | a direction has a project exactly when some saved group label names it |
| Preview.DirToProjectLastWins | env_hotkey97_fixed_displayname_export_hotkeys_v2.py:3032-3046 | when several labels name one direction, the last label's project wins |
| Preview.DirList | env_hotkey97_fixed_displayname_export_hotkeys_v2.py:2986-3026 | the preview's directions are the ascending distinct directions the groups name, or just direction 1 |
| Preview.DirListDefault | env_hotkey97_fixed_displayname_export_hotkeys_v2.py:2986-2990 | a site without groups previews direction 1 only |
| Preview.AllSheets | env_hotkey97_fixed_displayname_export_hotkeys_v2.py:3076-3080 | the sheets searched are exactly those of all projects |
| Preview.AllSheetsAt | env_hotkey97_fixed_displayname_export_hotkeys_v2.py:3076-3080 | sheet k of project p sits at position k after all sheets of projects 0..p-1, so the list runs project by project, each project's sheets in order |
| Preview.AllSheetsLength | env_hotkey97_fixed_displayname_export_hotkeys_v2.py:3076-3080 | the list is exactly as long as all projects' sheets together, so nothing else is in it |
| Preview.FirstFilled | env_hotkey97_fixed_displayname_export_hotkeys_v2.py:3076-3085 | the first sheet with the linked name that has at least one item, or none when there is no such sheet |
| Preview.DefaultProjectIndex | env_hotkey97_fixed_displayname_export_hotkeys_v2.py:3048-3070 | a valid project index: the direction's saved project when it is in range; with no saved project, the survey-vehicle selection when in range; project 0 otherwise, including a saved index out of range (the selection is then not consulted) |
| Preview.ColsFor | env_hotkey97_fixed_displayname_export_hotkeys_v2.py:3048-3087 | the columns are the item names of the first non-empty linked sheet, else the default project's vehicle names, else the placeholder pair; never empty |
| Preview.Tab | env_hotkey97_fixed_displayname_export_hotkeys_v2.py:3104-3124 | a tab is titled by its direction, headed by the time column, the count columns and a blank column, with one row of zeros per time slot |
| Preview.PreviewShape | env_hotkey97_fixed_displayname_export_hotkeys_v2.py:2969-3124 | at least one tab; every tab has one row per time slot and at least one count column; no two tabs show the same direction |
| SiteList.GetRows | env_hotkey97_fixed_displayname_export_hotkeys_v2.py:2909-2927 | one record per table row, numbered from 1 in table order, with stripped texts |
| SiteList.SetRows | env_hotkey97_fixed_displayname_export_hotkeys_v2.py:2929-2966 | one row per record, a configuration for each row and no other key, and no `group_projects` anywhere |
| SiteList.GetSetRows | env_hotkey97_fixed_displayname_export_hotkeys_v2.py:2902-2966 | writing records and reading them back gives the records stripped and renumbered 1..n |
| SiteList.GetSetStable | env_hotkey97_fixed_displayname_export_hotkeys_v2.py:2902-2966 | reading, writing back and reading again gives what the first read gave |
| SiteList.GroupProjectsLost | env_hotkey97_fixed_displayname_export_hotkeys_v2.py:2916-2966 | a round trip through `get`/`set` keeps each row's groups but drops its `group_projects` |
| SiteList.ApplyToRow | env_hotkey97_fixed_displayname_export_hotkeys_v2.py:2811-2847 | the current row takes the editor's groups and counters and keeps its saved `group_projects`; its 방향수 reads as the direction count while its 지번, 지점명, 작업번호 and 상태 are kept; other rows are unchanged; without a current row nothing changes |
| SiteList.ApplyToRowTwice | env_hotkey97_fixed_displayname_export_hotkeys_v2.py:2902-2908 | applying the editor again, as `get` does, changes nothing more |
| SiteList.AddSite | env_hotkey97_fixed_displayname_export_hotkeys_v2.py:2740-2788 | the rows read back as before plus a new last record with the job number, the spin as 방향수, the state (대기 when blank) and an empty configuration |
| SiteList.MoveSiteIsSwap | env_hotkey97_fixed_displayname_export_hotkeys_v2.py:2856-2878 | a move within the table first stores the edited current record, then writes back the snapshot with the current record and its neighbour exchanged |
| SiteList.MoveSiteEffect | env_hotkey97_fixed_displayname_export_hotkeys_v2.py:2856-2878 | the current record and its neighbour exchange places and take their new numbers; every other record is unchanged |
| SiteList.MoveSiteOutOfRange | env_hotkey97_fixed_displayname_export_hotkeys_v2.py:2856-2866 | without a current row, or with the target outside the table, nothing changes |
| SiteList.MoveSiteTopEffect | env_hotkey97_fixed_displayname_export_hotkeys_v2.py:2880-2899 | the current record becomes record 1, the records above it shift down by one, and those below stay |
| SiteList.DelSitesEffect | env_hotkey97_fixed_displayname_export_hotkeys_v2.py:2790-2809 | the unselected records remain in their old order, renumbered by their new position (the current row when nothing is selected) |
| SiteList.DeleteBackToFront | env_hotkey97_fixed_displayname_export_hotkeys_v2.py:2803-2806 | deleting the ascending selection back to front, skipping indices past the end, removes exactly the selected positions |
| Identifiers.Centis | env_hotkey97_fixed_displayname_export_hotkeys_v2.py:1271 | the hundredths digit pair is the microseconds divided by 10000, rounded down: below 100 |
| Identifiers.FieldsRoundTrip | env_hotkey97_fixed_displayname_export_hotkeys_v2.py:1272 | zero-padded fields that fit their widths concatenate to all digits of the summed width and read back field by field |
| Identifiers.NextSn | env_hotkey97_fixed_displayname_export_hotkeys_v2.py:1265-1272 | a survey number is `SN_` followed by sixteen digits |
| Identifiers.SnRoundTrip | env_hotkey97_fixed_displayname_export_hotkeys_v2.py:1265-1272 | the sixteen digits read back as year, month, day, hour, minute, second and hundredths |
| Identifiers.SnCollides | env_hotkey97_fixed_displayname_export_hotkeys_v2.py:1265-1272 | two clock readings give the same survey number exactly when they agree down to the hundredth of a second |
| Identifiers.NextJobNo | env_hotkey97_fixed_displayname_export_hotkeys_v2.py:1902-1910 | a job number is `WN_` followed by fourteen digits |
| Identifiers.JobNoRoundTrip | env_hotkey97_fixed_displayname_export_hotkeys_v2.py:1902-1910 | the fourteen digits read back as two-digit year, month, day, hour, minute, second and hundredths |
| Identifiers.JobNoCollides | env_hotkey97_fixed_displayname_export_hotkeys_v2.py:1902-1910 | two clock readings give the same job number exactly when they agree on all of these, so readings a century apart collide |
| Identifiers.ClockJobNoNumbered | env_hotkey97_fixed_displayname_export_hotkeys_v2.py:3215-3219 | clock job numbers count as numbered `WN_` ids when a survey is duplicated |
| Identifiers.WnTail | env_hotkey97_fixed_displayname_export_hotkeys_v2.py:3215-3219 | an id has a number exactly when it starts with `WN_` followed by one or more digits, and that number is the value of those digits |
| Identifiers.WorkNo | env_hotkey97_fixed_displayname_export_hotkeys_v2.py:3226 | `WN_{n:04d}` reads back as number n |
| Identifiers.AllJobNos | env_hotkey97_fixed_displayname_export_hotkeys_v2.py:3211-3215 | every site's job number of every survey is collected |
| Identifiers.Tails | env_hotkey97_fixed_displayname_export_hotkeys_v2.py:3216-3219 | the numbers collected are exactly the numbers of the numbered ids |
| Identifiers.StartNo | env_hotkey97_fixed_displayname_export_hotkeys_v2.py:3221-3222 | the first new number is at least 1, above every number in use, and one more than a number in use when above 1 |
| Identifiers.Renumber | env_hotkey97_fixed_displayname_export_hotkeys_v2.py:3224-3227 | the copied sites keep everything but their job numbers, which run n, n+1, … in site order |
| Identifiers.DupSurvey | env_hotkey97_fixed_displayname_export_hotkeys_v2.py:3202-3236 | without a current survey nothing changes; otherwise a copy with the same survey number and as many sites is appended after the existing surveys |
| Identifiers.DupSurveyFresh | env_hotkey97_fixed_displayname_export_hotkeys_v2.py:3209-3227 | the copy's job numbers are pairwise distinct and differ from every job number already used in any survey |
| DatFile.ClockHour | env_hotkey97_fixed_displayname_export_hotkeys_v2.py:86-89 | the 12-hour clock hour is 1..12 and agrees with the hour modulo 12 |
| DatFile.FormatKoreanDateTime | env_hotkey97_fixed_displayname_export_hotkeys_v2.py:75-90 | a string passes through; a date is formatted as its midnight; a timestamp gives 22 characters with 오전 before noon, 오후 after, and the 12-hour hour |
| DatFile.FormatKoreanRoundTrip | env_hotkey97_fixed_displayname_export_hotkeys_v2.py:75-90 | the formatted timestamp reads back as the same date, 24-hour hour, minute and second |
| DatFile.ClockHourBack | env_hotkey97_fixed_displayname_export_hotkeys_v2.py:86-89 | the 12-hour hour together with the 오전/오후 marker recovers the 24-hour hour |
| DatFile.WithoutDashes | env_hotkey97_fixed_displayname_export_hotkeys_v2.py:122 | the result has no dash and only characters of the original; a text without dashes is kept whole, and only then keeps its length |
| DatFile.WithoutDashesAppend | env_hotkey97_fixed_displayname_export_hotkeys_v2.py:122 | removing dashes from a concatenation removes them from each part |
| DatFile.DateNameDigits | env_hotkey97_fixed_displayname_export_hotkeys_v2.py:118-125 | for a date value the file name's date part is the eight digits YYYYMMDD |
| DatFile.WriteSurveyDat | env_hotkey97_fixed_displayname_export_hotkeys_v2.py:93-157 | an empty survey number is an error; otherwise the file is named `<WORK_NO>_<date without dashes>_<USER_ID>.dat` and holds the header and sections, every line ended by CR LF |
| DatFile.ReadJoinCrlf | env_hotkey97_fixed_displayname_export_hotkeys_v2.py:131-157 | lines without CR, each written with CR LF, split back into the same lines |
| DatFile.CellLineRoundTrip | env_hotkey97_fixed_displayname_export_hotkeys_v2.py:156 | an `r,c=value` line reads back as the same row, column and (possibly negative) value |
| DatFile.CellEntry | env_hotkey97_fixed_displayname_export_hotkeys_v2.py:148-156 | cell (r, c) of a matrix is written in row-major position with its row, column and integer value, 0 for an unparsable value |
| DatFile.SectionLinesRoundTrip | env_hotkey97_fixed_displayname_export_hotkeys_v2.py:147-157 | the `[i]` sections read back as the cell entries of every matrix, in order |
| DatFile.ReadHeaderOf | env_hotkey97_fixed_displayname_export_hotkeys_v2.py:131-144 | an `[INFO]` block of `KEY=value` lines in key order, closed by an empty line, reads back as exactly those values |
| DatFile.ReadHeaderLines | env_hotkey97_fixed_displayname_export_hotkeys_v2.py:131-144 | the `[INFO]` block reads back as the eleven header values, in key order |
| DatFile.DatRoundTrip | env_hotkey97_fixed_displayname_export_hotkeys_v2.py:93-157 | for a non-empty survey number and header values without CR, reading the written file gives back every header value and every cell entry |

## Left out

- Qt widgets, dialogs, signals, colours and focus are not modelled. The
  model works on the data those widgets hold, with a missing table item
  read as empty text.
- CounterSheets.Resolve: the early return when the clicked row's name or
  direction item is missing (lines 2297-2298) is not modelled. A row is
  always a pair of texts here, so a missing item reads as empty text and the
  lookup goes ahead, and can reach the fourth step's write-back.
- The template tab's `persist_current` (lines 1103-1138), which the template
  tab's OK action calls after updating the counter table, is not modelled:
  saving a template's counters is outside the core. The table update
  itself is `CounterSheets.TemplateOk`, the same update as on the site tab.
- Confirmation dialogs are not modelled: only the confirmed path of a
  delete or reset is.
- Reading and writing the JSON configuration (`save_data`, `load_data`),
  NAS and data-root discovery, and folder creation are left out as I/O.
  `DatFile.WriteSurveyDat` returns the file name and text instead of
  writing them.
- DatFile.WriteSurveyDat: the two raising paths of the writer are not
  modelled. `format_korean_datetime` raises `TypeError` for a value that is
  neither a string, a date nor a datetime (lines 84-85). `int(seq_no)`,
  `int(state)` and `int(deleted)` (lines 138, 142, 143) raise on values that
  do not convert. `TimeValue` and the `int` fields cannot hold such values.
  In the source, both raises happen inside the `with open` block (line 131),
  after the `[INFO]` line and the header lines before them are written, so a
  truncated file is left behind. The model does not describe that partial file.
- The cp949 encoding of the `.dat` file and the newline translation of the
  `newline="\r\n"` stream are left out. The text is modelled as handed to
  `f.write`.
- DatFile.DatRoundTrip: requires header values without a CR, because a CR
  inside a value would split its line on reading.
- The wall clock is a parameter (`DateTime`) of `Identifiers.NextSn` and
  `Identifiers.NextJobNo`, not a call to `datetime.now()`.
- Identifiers.Centis: models `int(us / 10000)` as integer division. For
  microseconds below 10^6 the float quotient truncates to the same value.
- Identifiers.NextSn and DatFile.YmdText: `%Y` is modelled as four
  zero-padded digits. For years below 1000 the output of `strftime` depends
  on the platform.
- Python's `strip`, `isdigit` and `int` are modelled over ASCII whitespace
  and ASCII digits. Other Unicode whitespace and digits are not.
  `Digits.PyInt` also rejects the underscores that `int()` accepts between
  digits (`int("1_0") == 10`).
- The survey-vehicle selection (`veh.cb.currentIndex()`) and the current
  table row are parameters.
  - `SiteList.MoveSite` and `SiteList.MoveSiteTop` require the current
    row to be in -1..rowCount-1, the only values a table reports.
- `site_data[str(row)]` is keyed by the row number. Its `dirs` and `spin`
  entries are omitted because `get` never reads them, and so is restoring
  the editor from a row (`_load_ui`).
- A survey that is an empty dict (falsy in `dup_survey`) is not modelled.
  A survey is represented only by its 조사번호 and its sites.
- `add_survey` and the rest of the survey-info form are not modelled
  beyond the survey number.
- Hotkey capture and application (`apply_hotkey`, key sequences) are not
  modelled: only the stored shortcut text is.
- The dialog's shortcut table for a found sheet (lines 2442 onward) is not
  modelled: only which sheet is found is.

## Findings

| source | as written | input that shows it | evidently intended | confidence | as-written member | corrected member |
|---|---|---|---|---|---|---|
| env_hotkey97_fixed_displayname_export_hotkeys_v2.py:2541-2550 | applying a template fills the direction list with all of 1..spin and then adds the template's groups, without rebuilding the list | a template with the label `1-2` and spin 2: directions 1 and 2 are both offered in the list and held by the group | the list holds only directions no group holds, as `_rebuild_dir_list`, `to_tabs` and `from_tabs` keep it | medium, not executed | DirectionGroups.ApplyTemplatePoolOverlap | DirectionGroups.ApplyTemplateRebuilt |

The program also behaves as follows; none of these is a defect of the model:

- A `get`/`set` round trip drops every row's `group_projects`, so moving or
  deleting a site loses them (`SiteList.GroupProjectsLost`).
- Duplicating a survey keeps its survey number (`Identifiers.DupSurvey`).
- Clock-based numbers are unique only down to the hundredth of a second,
  although `add_site` calls its job number unique
  (`Identifiers.SnCollides`, `Identifiers.JobNoCollides`).
- Renaming a sheet to a number can make a later added sheet share its
  name (`HotkeySheets.RenameThenAddCollides`).

=== FILE: calendar.dfy ===
/** The fields of Python's `datetime.datetime` that the core reads, each
    restricted to the range the `datetime` type itself enforces. */
module Calendar {

  type Year = y: nat | 1 <= y <= 9999 witness 1
  type Month = m: nat | 1 <= m <= 12 witness 1
  type Day = d: nat | 1 <= d <= 31 witness 1
  type Hour = h: nat | h < 24
  type Minute = m: nat | m < 60
  type Second = s: nat | s < 60
  type Microsecond = u: nat | u < 1000000

  datatype DateTime = DateTime(
    year: Year, month: Month, day: Day,
    hour: Hour, minute: Minute, second: Second, microsecond: Microsecond)
}

=== FILE: common.dfy ===
/** Small shared vocabulary: an optional value, and removing or picking the
    entries of a list at a set of selected positions (the way a Qt list or
    table drops its selected rows). */
module Common {

  datatype Option<T> = None | Some(value: T)

  /** An operation that either produces a value or reports why it did not. */
  datatype Result<T, E> = Ok(value: T) | Err(error: E)

  /** The positions below `n` whose membership in `sel` is `want`, ascending. */
  function Positions(n: nat, sel: set<nat>, want: bool): (ps: seq<nat>)
    ensures forall i :: 0 <= i < |ps| ==> ps[i] < n && (ps[i] in sel) == want
    ensures forall p :: 0 <= p < n && (p in sel) == want ==> p in ps
    ensures forall i, j :: 0 <= i < j < |ps| ==> ps[i] < ps[j]
  {
    if n == 0 then []
    else Positions(n - 1, sel, want) + (if ((n - 1) in sel) == want then [n - 1] else [])
  }

  /** The entries of `s` at the given positions, in that order. */
  function At<T>(s: seq<T>, ps: seq<nat>): (r: seq<T>)
    requires forall i :: 0 <= i < |ps| ==> ps[i] < |s|
    ensures |r| == |ps|
    ensures forall i :: 0 <= i < |r| ==> r[i] == s[ps[i]]
  {
    if ps == [] then [] else [s[ps[0]]] + At(s, ps[1..])
  }

  /** `s` without the entries at the selected positions; positions beyond the
      end of `s` are ignored. */
  function RemoveAt<T>(s: seq<T>, sel: set<nat>): seq<T>
  {
    At(s, Positions(|s|, sel, false))
  }

  /** The entries of `s` at the selected positions, in list order. */
  function PickAt<T>(s: seq<T>, sel: set<nat>): seq<T>
  {
    At(s, Positions(|s|, sel, true))
  }

  /** Every entry of `s` lands in exactly one of the two halves. */
  lemma {:induction false} RemoveAtPickAtCover<T>(s: seq<T>, sel: set<nat>, i: nat)
    requires i < |s|
    ensures i in sel ==> s[i] in PickAt(s, sel)
    ensures i !in sel ==> s[i] in RemoveAt(s, sel)
  {
    var ps := Positions(|s|, sel, i in sel);
    assert i in ps;
    var k :| 0 <= k < |ps| && ps[k] == i;
    assert At(s, ps)[k] == s[i];
  }

  /** The first position holding a value, with that value. */
  function FirstSome<T>(xs: seq<Option<T>>): (r: Option<(nat, T)>)
    ensures r.Some? ==> r.value.0 < |xs| && xs[r.value.0] == Some(r.value.1)
    ensures r.Some? ==> forall p :: 0 <= p < r.value.0 ==> xs[p].None?
    ensures r.None? ==> forall p :: 0 <= p < |xs| ==> xs[p].None?
  {
    if xs == [] then None
    else match xs[0]
      case Some(v) => Some((0, v))
      case None =>
        var rest := xs[1..];
        assert forall p :: 1 <= p < |xs| ==> xs[p] == rest[p - 1];
        match FirstSome(rest)
        case None => None
        case Some(pv) => Some((pv.0 + 1, pv.1))
  }

  /** The first position whose flag is set. */
  function FirstTrue(bs: seq<bool>): (r: Option<nat>)
    ensures r.Some? ==> r.value < |bs| && bs[r.value]
    ensures r.Some? ==> forall j :: 0 <= j < r.value ==> !bs[j]
    ensures r.None? ==> forall j :: 0 <= j < |bs| ==> !bs[j]
  {
    if bs == [] then None
    else if bs[0] then Some(0)
    else
      var rest := bs[1..];
      assert forall j :: 1 <= j < |bs| ==> bs[j] == rest[j - 1];
      match FirstTrue(rest)
      case None => None
      case Some(k) => Some(k + 1)
  }

  predicate StrictlyAscending(s: seq<nat>)
  {
    forall i, j :: 0 <= i < j < |s| ==> s[i] < s[j]
  }

  predicate Ascending(s: seq<nat>)
  {
    forall i, j :: 0 <= i < j < |s| ==> s[i] <= s[j]
  }

  lemma HeadIsElement<T>(s: seq<T>)
    ensures |s| > 0 ==> s[0] in s
  {
  }

  /** Below a common head, the rest of one strictly ascending list lies in
      the rest of another with the same elements. */
  lemma DropHeadSub(a: seq<nat>, b: seq<nat>)
    requires StrictlyAscending(a) && StrictlyAscending(b)
    requires forall x :: x in a <==> x in b
    requires a != [] && b != [] && a[0] == b[0]
    ensures forall x :: x in a[1..] ==> x in b[1..]
  {
    forall x | x in a[1..] ensures x in b[1..] {
      var k :| 1 <= k < |a| && a[k] == x;
      assert x != a[0];
      assert x in b;
      var m :| 0 <= m < |b| && b[m] == x;
      assert m != 0;
      assert b[1..][m - 1] == x;
    }
  }

  /** Two strictly ascending lists with the same elements are the same list. */
  lemma {:induction false} StrictlyAscendingUnique(a: seq<nat>, b: seq<nat>)
    requires StrictlyAscending(a) && StrictlyAscending(b)
    requires forall x :: x in a <==> x in b
    ensures a == b
    decreases |a| + |b|
  {
    if a == [] || b == [] {
      HeadIsElement(a);
      HeadIsElement(b);
    } else {
      HeadIsElement(a);
      HeadIsElement(b);
      var k :| 0 <= k < |b| && b[k] == a[0];
      assert b[0] <= b[k];
      var m :| 0 <= m < |a| && a[m] == b[0];
      assert a[0] <= a[m];
      assert a[0] == b[0];
      DropHeadSub(a, b);
      DropHeadSub(b, a);
      StrictlyAscendingUnique(a[1..], b[1..]);
      assert a == [a[0]] + a[1..];
      assert b == [b[0]] + b[1..];
    }
  }
}

=== FILE: datfile.dfy ===
/** The survey DAT file: the Korean 12-hour timestamp format and the text of
    one `<WORK_NO>_<YYYYMMDD>_<USER_ID>.dat` file (an `[INFO]` header block
    followed by one `[i]` section per count matrix), together with a reader
    for that text, so that what the writer puts in can be read back out. */
module DatFile {
  import opened Common
  import opened Digits
  import opened Calendar

  /** What the writer accepts for a date or a timestamp: a string (passed
      through unchanged), a `datetime.date`, or a `datetime.datetime`. Any
      other Python value makes the formatter raise; it is not representable. */
  datatype TimeValue =
    | Text(text: string)
    | DateOnly(year: Year, month: Month, day: Day)
    | Moment(at: DateTime)

  const AM: string := "오전"
  const PM: string := "오후"

  /** `strftime('%Y-%m-%d')`. */
  function YmdText(y: Year, m: Month, d: Day): string
  {
    PadNat(y, 4) + "-" + PadNat(m, 2) + "-" + PadNat(d, 2)
  }

  /** The hour shown on a 12-hour clock: `hour % 12`, with 0 shown as 12. */
  function ClockHour(h: Hour): (c: nat)
    ensures 1 <= c <= 12
    ensures c % 12 == h % 12
  {
    if h % 12 == 0 then 12 else h % 12
  }

  /** The time-of-day part: ` 오전|오후 hh:mm:ss`. */
  function ClockTail(marker: string, h: string, mi: string, se: string): string
  {
    " " + marker + " " + h + ":" + mi + ":" + se
  }

  function KoreanClock(t: DateTime): string
  {
    YmdText(t.year, t.month, t.day)
      + ClockTail(if t.hour < 12 then AM else PM, PadNat(ClockHour(t.hour), 2), PadNat(t.minute, 2), PadNat(t.second, 2))
  }

  /** The characters of `y` sit at offset `|x|` of `x + y + z`, whatever
      `z` is. */
  lemma PieceAt(x: string, y: string, z: string)
    ensures (x + y + z)[|x|..|x| + |y|] == y
  {
    assert (x + y + z)[..|x| + |y|] == x + y;
  }

  lemma AppendAssoc(x: string, y: string, z: string)
    ensures x + (y + z) == x + y + z
  {
  }

  lemma YmdLayout(y: Year, m: Month, d: Day)
    ensures var r := YmdText(y, m, d);
      && |r| == 10
      && r[..4] == PadNat(y, 4) && r[4] == '-'
      && r[5..7] == PadNat(m, 2) && r[7] == '-'
      && r[8..10] == PadNat(d, 2)
  {
    Pow10Values();
    PadNatExact(y, 4);
    PadNatExact(m, 2);
    PadNatExact(d, 2);
    var a, b, c := PadNat(y, 4), PadNat(m, 2), PadNat(d, 2);
    PieceAt(a + "-", b, "-" + c);
    AppendAssoc(a + "-" + b, "-", c);
    PieceAt(a + "-" + b + "-", c, "");
    assert a + "-" + b + "-" + c + "" == a + "-" + b + "-" + c;
    assert (a + "-" + b + "-" + c)[..4] == a;
  }

  lemma ClockLayout(marker: string, h: string, mi: string, se: string)
    requires |marker| == 2 && |h| == 2 && |mi| == 2 && |se| == 2
    ensures var r := ClockTail(marker, h, mi, se);
      && |r| == 12
      && r[0] == ' ' && r[1..3] == marker && r[3] == ' '
      && r[4..6] == h && r[6] == ':'
      && r[7..9] == mi && r[9] == ':'
      && r[10..12] == se
  {
    var r := " " + marker + " " + h + ":" + mi + ":" + se;
    PieceAt(" ", marker, " " + h + ":" + mi + ":" + se);
    assert " " + marker + (" " + h + ":" + mi + ":" + se) == r;
    PieceAt(" " + marker + " ", h, ":" + mi + ":" + se);
    assert " " + marker + " " + h + (":" + mi + ":" + se) == r;
    PieceAt(" " + marker + " " + h + ":", mi, ":" + se);
    assert " " + marker + " " + h + ":" + mi + (":" + se) == r;
    PieceAt(" " + marker + " " + h + ":" + mi + ":", se, "");
    assert r + "" == r;
  }

  /** Shape of a formatted timestamp: 22 characters, the date in 0..10, the
      marker in 11..13, two-digit hour, minute and second. */
  lemma KoreanClockLayout(t: DateTime)
    ensures var r := KoreanClock(t);
      && |r| == 22
      && r[..4] == PadNat(t.year, 4) && r[4] == '-'
      && r[5..7] == PadNat(t.month, 2) && r[7] == '-'
      && r[8..10] == PadNat(t.day, 2) && r[10] == ' '
      && r[11..13] == (if t.hour < 12 then AM else PM) && r[13] == ' '
      && r[14..16] == PadNat(ClockHour(t.hour), 2) && r[16] == ':'
      && r[17..19] == PadNat(t.minute, 2) && r[19] == ':'
      && r[20..22] == PadNat(t.second, 2)
  {
    Pow10Values();
    PadNatExact(ClockHour(t.hour), 2);
    PadNatExact(t.minute, 2);
    PadNatExact(t.second, 2);
    var ymd := YmdText(t.year, t.month, t.day);
    var marker := if t.hour < 12 then AM else PM;
    var h, mi, se := PadNat(ClockHour(t.hour), 2), PadNat(t.minute, 2), PadNat(t.second, 2);
    var tail := ClockTail(marker, h, mi, se);
    YmdLayout(t.year, t.month, t.day);
    ClockLayout(marker, h, mi, se);
    assert KoreanClock(t) == ymd + tail;
    SplitLayout(ymd, tail);
  }

  lemma SplitLayout(ymd: string, tail: string)
    requires |ymd| == 10 && |tail| == 12
    ensures var r := ymd + tail;
      && |r| == 22
      && r[..4] == ymd[..4] && r[4] == ymd[4] && r[5..7] == ymd[5..7] && r[7] == ymd[7]
      && r[8..10] == ymd[8..10] && r[10] == tail[0] && r[11..13] == tail[1..3]
      && r[13] == tail[3] && r[14..16] == tail[4..6] && r[16] == tail[6]
      && r[17..19] == tail[7..9] && r[19] == tail[9] && r[20..22] == tail[10..12]
  {
  }

  /** `format_korean_datetime`: strings pass through, a date is read as
      midnight, a datetime becomes `YYYY-MM-DD 오전|오후 hh:mm:ss`. */
  function FormatKoreanDateTime(v: TimeValue): (r: string)
    ensures v.Text? ==> r == v.text
    ensures v.DateOnly? ==> r == KoreanClock(DateTime(v.year, v.month, v.day, 0, 0, 0, 0))
    ensures v.Moment? ==> |r| == 22 && r[11..13] == (if v.at.hour < 12 then AM else PM)
    ensures v.Moment? ==> AllDigits(r[14..16]) && ParseDigits(r[14..16]) == ClockHour(v.at.hour)
  {
    match v
    case Text(s) => s
    case DateOnly(y, m, d) =>
      var t := DateTime(y, m, d, 0, 0, 0, 0);
      KoreanClockLayout(t);
      KoreanClock(t)
    case Moment(t) =>
      KoreanClockLayout(t);
      KoreanClock(t)
  }

  /** The clock fields a formatted timestamp denotes. */
  datatype Clock = Clock(year: nat, month: nat, day: nat, hour: nat, minute: nat, second: nat)

  /** The fixed characters and digit fields of `YYYY-MM-DD 오전|오후 hh:mm:ss`. */
  predicate ClockShaped(s: string)
  {
    && |s| == 22 && s[4] == '-' && s[7] == '-' && s[10] == ' ' && s[13] == ' '
    && s[16] == ':' && s[19] == ':'
    && AllDigits(s[..4]) && AllDigits(s[5..7]) && AllDigits(s[8..10])
    && AllDigits(s[14..16]) && AllDigits(s[17..19]) && AllDigits(s[20..22])
    && (s[11..13] == AM || s[11..13] == PM)
  }

  /** The 24-hour hour a 12-hour hour and its half of the day denote. */
  function Hour24(h12: nat, pm: bool): nat
  {
    (if h12 == 12 then 0 else h12) + (if pm then 12 else 0)
  }

  /** Reads a `YYYY-MM-DD 오전|오후 hh:mm:ss` string back into its fields. */
  function ParseKoreanDateTime(s: string): Option<Clock>
  {
    if !ClockShaped(s) then None
    else
      var h12 := ParseDigits(s[14..16]);
      if h12 < 1 || h12 > 12 then None
      else
        Some(Clock(ParseDigits(s[..4]), ParseDigits(s[5..7]), ParseDigits(s[8..10]),
                   Hour24(h12, s[11..13] == PM), ParseDigits(s[17..19]), ParseDigits(s[20..22])))
  }

  /** The formatter loses nothing but the microseconds: every field of a
      datetime, the 24-hour hour included, can be read back. */
  lemma FormatKoreanRoundTrip(t: DateTime)
    ensures ParseKoreanDateTime(FormatKoreanDateTime(Moment(t)))
         == Some(Clock(t.year, t.month, t.day, t.hour, t.minute, t.second))
  {
    var r := KoreanClock(t);
    assert FormatKoreanDateTime(Moment(t)) == r;
    KoreanClockLayout(t);
    assert ClockShaped(r);
    assert AM != PM by { assert AM[1] != PM[1]; }
    var h12 := ParseDigits(r[14..16]);
    assert h12 == ClockHour(t.hour);
    assert Hour24(h12, r[11..13] == PM) == t.hour by {
      assert (r[11..13] == PM) == (t.hour >= 12);
      ClockHourBack(t.hour);
    }
  }

  /** The 12-hour hour and the half of the day give back the 24-hour hour. */
  lemma ClockHourBack(h: Hour)
    ensures Hour24(ClockHour(h), h >= 12) == h
  {
  }

  /** One count cell as `int(val)` sees it: a value that parses to an integer,
      or one that does not. */
  datatype Cell = Int(value: int) | Unparsable

  /** What is written for a cell: its integer, or 0 when it does not parse. */
  function CellValue(c: Cell): int
  {
    match c
    case Int(v) => v
    case Unparsable => 0
  }

  /** The arguments of `write_survey_dat`. */
  datatype DatRequest = DatRequest(
    surveyNo: string, workNo: string, userId: string, userName: string,
    recDate: TimeValue, startTime: TimeValue, lastTime: TimeValue,
    seqNo: int, state: int, deleted: int,
    matrices: seq<seq<seq<Cell>>>)

  /** The survey date as text: a date is formatted, anything else is `str()`. */
  function RecDateText(v: TimeValue): string
  {
    match v
    case Text(s) => s
    case DateOnly(y, m, d) => YmdText(y, m, d)
    case Moment(t) => YmdText(t.year, t.month, t.day)
  }

  /** `s.replace("-", "")`. */
  function WithoutDashes(s: string): (r: string)
    ensures '-' !in r
    ensures forall c :: c in r ==> c in s
    ensures '-' !in s ==> r == s
    ensures |r| <= |s|
    ensures |r| == |s| <==> '-' !in s
  {
    if s == [] then []
    else (if s[0] == '-' then [] else [s[0]]) + WithoutDashes(s[1..])
  }

  /** Removing dashes works piecewise: the dashes of a concatenation are
      those of its parts. */
  lemma {:induction false} WithoutDashesAppend(a: string, b: string)
    ensures WithoutDashes(a + b) == WithoutDashes(a) + WithoutDashes(b)
    decreases |a|
  {
    if a != [] {
      var h := if a[0] == '-' then [] else [a[0]];
      assert (a + b)[0] == a[0] && (a + b)[1..] == a[1..] + b;
      assert WithoutDashes(a + b) == h + WithoutDashes(a[1..] + b);
      WithoutDashesAppend(a[1..], b);
      assert WithoutDashes(a) == h + WithoutDashes(a[1..]);
      assert h + (WithoutDashes(a[1..]) + WithoutDashes(b)) == (h + WithoutDashes(a[1..])) + WithoutDashes(b);
    } else {
      assert a + b == b;
    }
  }

  /** A dash between two parts is dropped and the parts are cleaned alone. */
  lemma WithoutDashesAround(x: string, y: string)
    ensures WithoutDashes(x + "-" + y) == WithoutDashes(x) + WithoutDashes(y)
  {
    var dash: string := "-";
    assert dash[0] == '-' && dash[1..] == [];
    assert WithoutDashes(dash) == [];
    WithoutDashesAppend(x + dash, y);
    WithoutDashesAppend(x, dash);
    assert WithoutDashes(x) + [] == WithoutDashes(x);
  }

  lemma DigitsHaveNoDash(s: string)
    requires AllDigits(s)
    ensures WithoutDashes(s) == s
  {
    assert forall i :: 0 <= i < |s| ==> s[i] != '-';
  }

  /** The date part of the file name is YYYYMMDD for a date value. */
  lemma DateNameDigits(y: Year, m: Month, d: Day)
    ensures WithoutDashes(YmdText(y, m, d)) == PadNat(y, 4) + PadNat(m, 2) + PadNat(d, 2)
    ensures |WithoutDashes(YmdText(y, m, d))| == 8
  {
    var ys, ms, ds := PadNat(y, 4), PadNat(m, 2), PadNat(d, 2);
    WithoutDashesAround(ys + "-" + ms, ds);
    WithoutDashesAround(ys, ms);
    DigitsHaveNoDash(ys);
    DigitsHaveNoDash(ms);
    DigitsHaveNoDash(ds);
    PadNatExact(y, 4);
    PadNatExact(m, 2);
    PadNatExact(d, 2);
  }

  function DocNo(q: DatRequest): string
  {
    q.workNo + "_" + WithoutDashes(RecDateText(q.recDate)) + "_" + q.userId
  }

  const HeaderKeys: seq<string> := [
    "DOC_NO", "SURVEY_NO", "WORK_NO", "USER_ID", "USER_NM", "REC_DATE",
    "SEQ_NO", "START_TIME", "LAST_TIME", "STATE", "DELETED"]

  function HeaderValues(q: DatRequest): (vs: seq<string>)
    ensures |vs| == |HeaderKeys|
  {
    [DocNo(q), q.surveyNo, q.workNo, q.userId, q.userName, RecDateText(q.recDate),
     IntToString(q.seqNo), FormatKoreanDateTime(q.startTime),
     FormatKoreanDateTime(q.lastTime), IntToString(q.state), IntToString(q.deleted)]
  }

  function HeaderLines(q: DatRequest): seq<string>
  {
    ["[INFO]"]
      + seq(|HeaderKeys|, k requires 0 <= k < |HeaderKeys| => HeaderKeys[k] + "=" + HeaderValues(q)[k])
      + [""]
  }

  function CellLine(r: nat, c: nat, v: int): string
  {
    NatToString(r) + "," + NatToString(c) + "=" + IntToString(v)
  }

  /** The cell lines of one table row, from column `c0` on. */
  function RowLines(r: nat, row: seq<Cell>, c0: nat): seq<string>
    requires c0 <= |row|
    decreases |row| - c0
  {
    if c0 == |row| then [] else [CellLine(r, c0, CellValue(row[c0]))] + RowLines(r, row, c0 + 1)
  }

  /** The cell lines of one matrix, row-major, rows numbered from `r0`. */
  function MatrixLines(mat: seq<seq<Cell>>, r0: nat): seq<string>
    decreases |mat|
  {
    if mat == [] then [] else RowLines(r0, mat[0], 0) + MatrixLines(mat[1..], r0 + 1)
  }

  function SectionTitle(i: nat): string
  {
    "[" + NatToString(i) + "]"
  }

  /** One `[i]` section per matrix, sections numbered from `i0`. */
  function SectionLines(mats: seq<seq<seq<Cell>>>, i0: nat): seq<string>
    decreases |mats|
  {
    if mats == [] then []
    else [SectionTitle(i0)] + MatrixLines(mats[0], 0) + [""] + SectionLines(mats[1..], i0 + 1)
  }

  function DatLines(q: DatRequest): seq<string>
  {
    HeaderLines(q) + SectionLines(q.matrices, 0)
  }

  /** Every line followed by CR LF, as the writer emits them. */
  function JoinCrlf(ls: seq<string>): string
  {
    if ls == [] then "" else ls[0] + "\r\n" + JoinCrlf(ls[1..])
  }

  datatype DatFileText = DatFileText(fileName: string, text: string)

  datatype DatError = EmptySurveyNo

  /** `write_survey_dat`, without the folder and the physical write: the file
      name and the text handed to `f.write`. An empty survey number makes the
      folder helper raise before anything is written. */
  function WriteSurveyDat(q: DatRequest): (r: Result<DatFileText, DatError>)
    ensures r.Err? <==> q.surveyNo == ""
    ensures r.Ok? ==>
      r.value.fileName == q.workNo + "_" + WithoutDashes(RecDateText(q.recDate)) + "_" + q.userId + ".dat"
    ensures r.Ok? ==> r.value.text == JoinCrlf(DatLines(q))
  {
    if q.surveyNo == "" then Err(EmptySurveyNo)
    else Ok(DatFileText(DocNo(q) + ".dat", JoinCrlf(DatLines(q))))
  }

  // ---------------------------------------------------------------------
  // Reading the text back.

  /** Index of the first CR LF in `s`, or `|s|` when there is none. */
  function FindCrlf(s: string): (i: nat)
    ensures i <= |s|
    decreases |s|
  {
    if |s| < 2 then |s|
    else if s[0] == '\r' && s[1] == '\n' then 0
    else 1 + FindCrlf(s[1..])
  }

  /** Splits text into CR LF terminated lines (a final unterminated piece is
      kept as a line). */
  function ReadLines(text: string): seq<string>
    decreases |text|
  {
    if text == "" then []
    else
      var i := FindCrlf(text);
      if i + 2 > |text| then [text] else [text[..i]] + ReadLines(text[i + 2..])
  }

  lemma {:induction false} FindCrlfAfter(l: string, rest: string)
    requires '\r' !in l
    ensures FindCrlf(l + "\r\n" + rest) == |l|
    decreases |l|
  {
    var s := l + "\r\n" + rest;
    if |l| > 0 {
      assert s[0] == l[0];
      assert s[1..] == l[1..] + "\r\n" + rest;
      FindCrlfAfter(l[1..], rest);
    }
  }

  predicate NoCr(s: string) { '\r' !in s }

  lemma {:induction false} ReadJoinCrlf(ls: seq<string>)
    requires forall i :: 0 <= i < |ls| ==> NoCr(ls[i])
    ensures ReadLines(JoinCrlf(ls)) == ls
    decreases |ls|
  {
    if ls != [] {
      var rest := JoinCrlf(ls[1..]);
      var text := ls[0] + "\r\n" + rest;
      FindCrlfAfter(ls[0], rest);
      assert text[..|ls[0]|] == ls[0];
      assert text[|ls[0]| + 2..] == rest;
      ReadJoinCrlf(ls[1..]);
      assert ls == [ls[0]] + ls[1..];
    }
  }

  /** The `(row, column, value)` triples of one table row, from column `c0` on. */
  function RowEntries(r: nat, row: seq<Cell>, c0: nat): seq<(nat, nat, int)>
    requires c0 <= |row|
    decreases |row| - c0
  {
    if c0 == |row| then [] else [(r, c0, CellValue(row[c0]))] + RowEntries(r, row, c0 + 1)
  }

  /** The triples of a matrix in row-major order, rows numbered from `r0`. */
  function Entries(mat: seq<seq<Cell>>, r0: nat): seq<(nat, nat, int)>
    decreases |mat|
  {
    if mat == [] then [] else RowEntries(r0, mat[0], 0) + Entries(mat[1..], r0 + 1)
  }

  /** Number of cells in the rows before row `r`. */
  function Offset(mat: seq<seq<Cell>>, r: nat): nat
    requires r <= |mat|
  {
    if r == 0 then 0 else Offset(mat, r - 1) + |mat[r - 1]|
  }

  lemma {:induction false} OffsetShift(mat: seq<seq<Cell>>, r: nat)
    requires 1 <= r <= |mat|
    ensures Offset(mat, r) == |mat[0]| + Offset(mat[1..], r - 1)
  {
    if r > 1 {
      OffsetShift(mat, r - 1);
      assert mat[1..][r - 2] == mat[r - 1];
    }
  }

  lemma {:induction false} RowEntriesShape(r: nat, row: seq<Cell>, c0: nat)
    requires c0 <= |row|
    ensures |RowEntries(r, row, c0)| == |row| - c0
    ensures forall c :: c0 <= c < |row| ==> RowEntries(r, row, c0)[c - c0] == (r, c, CellValue(row[c]))
    decreases |row| - c0
  {
    if c0 < |row| {
      RowEntriesShape(r, row, c0 + 1);
      var tail := RowEntries(r, row, c0 + 1);
      assert RowEntries(r, row, c0) == [(r, c0, CellValue(row[c0]))] + tail;
      forall c | c0 < c < |row| ensures RowEntries(r, row, c0)[c - c0] == (r, c, CellValue(row[c])) {
        assert RowEntries(r, row, c0)[c - c0] == tail[c - (c0 + 1)];
      }
    }
  }

  /** One triple per cell: the entries are exactly as many as the cells. */
  lemma {:induction false} EntriesLength(mat: seq<seq<Cell>>, r0: nat)
    ensures |Entries(mat, r0)| == Offset(mat, |mat|)
    decreases |mat|
  {
    if mat != [] {
      RowEntriesShape(r0, mat[0], 0);
      EntriesLength(mat[1..], r0 + 1);
      OffsetShift(mat, |mat|);
    }
  }

  /** Row-major order: cell (r, c) of the matrix is the entry at position
      Offset(r) + c, numbered `r0 + r`, with the value `int(val)` gives it
      (0 when it does not parse). */
  lemma {:induction false} CellEntry(mat: seq<seq<Cell>>, r0: nat, r: nat, c: nat)
    requires r < |mat| && c < |mat[r]|
    ensures Offset(mat, r) + c < |Entries(mat, r0)|
    ensures Entries(mat, r0)[Offset(mat, r) + c] == (r0 + r, c, CellValue(mat[r][c]))
    decreases r
  {
    var tail := mat[1..];
    var head := RowEntries(r0, mat[0], 0);
    assert Entries(mat, r0) == head + Entries(tail, r0 + 1);
    RowEntriesShape(r0, mat[0], 0);
    if r > 0 {
      OffsetShift(mat, r);
      assert tail[r - 1] == mat[r];
      CellEntry(tail, r0 + 1, r - 1, c);
    }
  }

  /** Reads one `r,c=v` line. */
  function DecodeCellLine(line: string): Option<(nat, nat, int)>
  {
    var p := Split(line, ',');
    if |p| != 2 || !IsDigitString(p[0]) then None
    else
      var q := Split(p[1], '=');
      if |q| != 2 || !IsDigitString(q[0]) then None
      else
        match PyInt(q[1])
        case None => None
        case Some(v) => Some((ParseDigits(p[0]), ParseDigits(q[0]), v))
  }

  lemma {:induction false} SplitNoSep(s: string, sep: char)
    requires sep !in s
    ensures Split(s, sep) == [s]
    decreases |s|
  {
    if |s| > 0 {
      assert s[0] != sep;
      assert sep !in s[1..];
      SplitNoSep(s[1..], sep);
      assert [s[0]] + s[1..] == s;
    }
  }

  lemma {:induction false} SplitAtSep(a: string, sep: char, b: string)
    requires sep !in a
    ensures Split(a + [sep] + b, sep) == [a] + Split(b, sep)
    decreases |a|
  {
    var s := a + [sep] + b;
    if |a| == 0 {
      assert s[1..] == b;
    } else {
      assert s[0] == a[0];
      assert s[1..] == a[1..] + [sep] + b;
      SplitAtSep(a[1..], sep, b);
      assert [a[0]] + a[1..] == a;
    }
  }

  lemma NoCharInDigits(s: string, ch: char)
    requires AllDigits(s) && !IsDigit(ch)
    ensures ch !in s
  {
  }

  lemma IntToStringChars(v: int)
    ensures forall ch :: ch in IntToString(v) ==> IsDigit(ch) || ch == '-'
  {
  }

  lemma PyIntOfIntToString(v: int)
    ensures PyInt(IntToString(v)) == Some(v)
  {
    if v < 0 {
      var d := NatToString(-v);
      var s := "-" + d;
      assert IntToString(v) == s;
      assert s[|s| - 1] == d[|d| - 1];
      StripNoSpace(s);
      assert !IsDigitString(s) by { assert !IsDigit(s[0]); }
      assert s[0] == '-' && s[1..] == d;
      ParseNatToString(-v);
    } else {
      PyIntOfNatToString(v);
    }
  }

  lemma CellLineRoundTrip(r: nat, c: nat, v: int)
    ensures DecodeCellLine(CellLine(r, c, v)) == Some((r, c, v))
  {
    var rs := NatToString(r);
    var cs := NatToString(c);
    var vs := IntToString(v);
    NoCharInDigits(rs, ',');
    NoCharInDigits(cs, ',');
    NoCharInDigits(cs, '=');
    IntToStringChars(v);
    assert ',' !in vs && '=' !in vs;
    var tail := cs + ['='] + vs;
    assert ',' !in tail;
    assert CellLine(r, c, v) == rs + [','] + tail;
    SplitAtSep(rs, ',', tail);
    SplitNoSep(tail, ',');
    var p := Split(CellLine(r, c, v), ',');
    assert p == [rs, tail];
    SplitAtSep(cs, '=', vs);
    SplitNoSep(vs, '=');
    var q := Split(p[1], '=');
    assert q == [cs, vs];
    ParseNatToString(r);
    ParseNatToString(c);
    PyIntOfIntToString(v);
  }

  /** Decodes every line with `f`, failing as soon as one line fails. */
  function DecodeEach<T>(f: string -> Option<T>, ls: seq<string>): Option<seq<T>>
  {
    if ls == [] then Some([])
    else
      match f(ls[0])
      case None => None
      case Some(e) =>
        match DecodeEach(f, ls[1..])
        case None => None
        case Some(es) => Some([e] + es)
  }

  function DecodeCellLines(ls: seq<string>): Option<seq<(nat, nat, int)>>
  {
    DecodeEach(DecodeCellLine, ls)
  }

  /** Index of the first empty line at or after `from`, or `|ls|`. */
  function FirstBlank(ls: seq<string>, from: nat): (k: nat)
    requires from <= |ls|
    ensures from <= k <= |ls|
    ensures k < |ls| ==> ls[k] == ""
    ensures forall j :: from <= j < k ==> ls[j] != ""
    decreases |ls| - from
  {
    if from == |ls| || ls[from] == "" then from else FirstBlank(ls, from + 1)
  }

  /** Reads consecutive `[i]` sections, each a title, its cell lines, and a
      blank line, into one entry list per section. */
  function DecodeSections(ls: seq<string>, i: nat): Option<seq<seq<(nat, nat, int)>>>
    decreases |ls|
  {
    if ls == [] then Some([])
    else if ls[0] != SectionTitle(i) then None
    else
      var k := FirstBlank(ls, 1);
      if k == |ls| then None
      else
        match DecodeCellLines(ls[1..k])
        case None => None
        case Some(es) =>
          match DecodeSections(ls[k + 1..], i + 1)
          case None => None
          case Some(rest) => Some([es] + rest)
  }

  /** Decoding a list of lines one line at a time. */
  lemma DecodeEachCons<T>(f: string -> Option<T>, l: string, ls: seq<string>)
    requires f(l).Some?
    ensures DecodeEach(f, [l] + ls).Some? == DecodeEach(f, ls).Some?
    ensures DecodeEach(f, ls).Some? ==>
      DecodeEach(f, [l] + ls).value == [f(l).value] + DecodeEach(f, ls).value
  {
    assert ([l] + ls)[0] == l;
    assert ([l] + ls)[1..] == ls;
  }

  /** Decoding distributes over joining two decodable runs of lines. */
  lemma {:induction false} DecodeEachAppend<T>(f: string -> Option<T>, ls: seq<string>, rest: seq<string>)
    requires DecodeEach(f, ls).Some?
    ensures DecodeEach(f, ls + rest).Some? == DecodeEach(f, rest).Some?
    ensures DecodeEach(f, rest).Some? ==>
      DecodeEach(f, ls + rest).value == DecodeEach(f, ls).value + DecodeEach(f, rest).value
    decreases |ls|
  {
    if ls == [] {
      assert ls + rest == rest;
    } else {
      var more := ls[1..] + rest;
      assert (ls + rest)[0] == ls[0];
      assert (ls + rest)[1..] == more;
      DecodeEachAppend(f, ls[1..], rest);
      if DecodeEach(f, rest).Some? {
        var e, es, ts := f(ls[0]).value, DecodeEach(f, ls[1..]).value, DecodeEach(f, rest).value;
        assert DecodeEach(f, ls + rest).value == [e] + (es + ts);
        assert [e] + (es + ts) == ([e] + es) + ts;
      }
    }
  }

  /** A cell line in front of other lines decodes to its cell. */
  lemma CellLineCons(r: nat, c: nat, v: int, more: seq<string>)
    ensures DecodeCellLines([CellLine(r, c, v)] + more).Some? == DecodeCellLines(more).Some?
    ensures DecodeCellLines(more).Some? ==>
      DecodeCellLines([CellLine(r, c, v)] + more).value == [(r, c, v)] + DecodeCellLines(more).value
  {
    CellLineRoundTrip(r, c, v);
    DecodeEachCons(DecodeCellLine, CellLine(r, c, v), more);
  }

  lemma {:induction false} RowLinesRoundTrip(r: nat, row: seq<Cell>, c0: nat)
    requires c0 <= |row|
    ensures DecodeCellLines(RowLines(r, row, c0)) == Some(RowEntries(r, row, c0))
    decreases |row| - c0
  {
    if c0 < |row| {
      var v := CellValue(row[c0]);
      RowLinesRoundTrip(r, row, c0 + 1);
      CellLineCons(r, c0, v, RowLines(r, row, c0 + 1));
      assert RowLines(r, row, c0) == [CellLine(r, c0, v)] + RowLines(r, row, c0 + 1);
      assert RowEntries(r, row, c0) == [(r, c0, v)] + RowEntries(r, row, c0 + 1);
    }
  }

  lemma {:induction false} MatrixLinesRoundTrip(mat: seq<seq<Cell>>, r0: nat)
    ensures DecodeCellLines(MatrixLines(mat, r0)) == Some(Entries(mat, r0))
    decreases |mat|
  {
    if mat != [] {
      var head, tail := RowLines(r0, mat[0], 0), MatrixLines(mat[1..], r0 + 1);
      RowLinesRoundTrip(r0, mat[0], 0);
      MatrixLinesRoundTrip(mat[1..], r0 + 1);
      DecodeEachAppend(DecodeCellLine, head, tail);
      assert MatrixLines(mat, r0) == head + tail;
    }
  }

  lemma {:induction false} RowLinesNonBlank(r: nat, row: seq<Cell>, c0: nat)
    requires c0 <= |row|
    ensures forall j :: 0 <= j < |RowLines(r, row, c0)| ==> RowLines(r, row, c0)[j] != ""
    decreases |row| - c0
  {
    if c0 < |row| {
      RowLinesNonBlank(r, row, c0 + 1);
    }
  }

  lemma {:induction false} MatrixLinesNonBlank(mat: seq<seq<Cell>>, r0: nat)
    ensures forall j :: 0 <= j < |MatrixLines(mat, r0)| ==> MatrixLines(mat, r0)[j] != ""
    decreases |mat|
  {
    if mat != [] {
      RowLinesNonBlank(r0, mat[0], 0);
      MatrixLinesNonBlank(mat[1..], r0 + 1);
    }
  }

  /** The count matrices as the reader sees them: one entry list per section. */
  function AllEntries(mats: seq<seq<seq<Cell>>>): seq<seq<(nat, nat, int)>>
  {
    seq(|mats|, i requires 0 <= i < |mats| => Entries(mats[i], 0))
  }

  lemma FirstBlankAfter(ls: seq<string>, n: nat)
    requires 1 + n < |ls| && ls[1 + n] == ""
    requires forall j :: 1 <= j < 1 + n ==> ls[j] != ""
    ensures FirstBlank(ls, 1) == 1 + n
  {
  }

  /** Reading one section: its title, non-blank cell lines, and a blank line. */
  lemma DecodeSectionsStep(i: nat, body: seq<string>, rest: seq<string>)
    requires forall j :: 0 <= j < |body| ==> body[j] != ""
    requires DecodeCellLines(body).Some? && DecodeSections(rest, i + 1).Some?
    ensures DecodeSections([SectionTitle(i)] + body + [""] + rest, i)
         == Some([DecodeCellLines(body).value] + DecodeSections(rest, i + 1).value)
  {
    var ls := [SectionTitle(i)] + body + [""] + rest;
    forall j | 1 <= j < 1 + |body| ensures ls[j] != "" {
      assert ls[j] == body[j - 1];
    }
    assert ls[1 + |body|] == "";
    FirstBlankAfter(ls, |body|);
    var k := 1 + |body|;
    assert ls[1..k] == body;
    assert ls[k + 1..] == rest;
    assert ls[0] == SectionTitle(i);
  }

  lemma {:induction false} SectionLinesRoundTrip(mats: seq<seq<seq<Cell>>>, i0: nat)
    ensures DecodeSections(SectionLines(mats, i0), i0) == Some(AllEntries(mats))
    decreases |mats|
  {
    if mats == [] {
      assert AllEntries(mats) == [];
    } else {
      var body := MatrixLines(mats[0], 0);
      var rest := SectionLines(mats[1..], i0 + 1);
      assert SectionLines(mats, i0) == [SectionTitle(i0)] + body + [""] + rest;
      MatrixLinesNonBlank(mats[0], 0);
      MatrixLinesRoundTrip(mats[0], 0);
      SectionLinesRoundTrip(mats[1..], i0 + 1);
      DecodeSectionsStep(i0, body, rest);
      AllEntriesCons(mats);
      assert DecodeCellLines(body).value == Entries(mats[0], 0);
    }
  }

  lemma AllEntriesCons(mats: seq<seq<seq<Cell>>>)
    requires mats != []
    ensures AllEntries(mats) == [Entries(mats[0], 0)] + AllEntries(mats[1..])
  {
    var a, b := AllEntries(mats), [Entries(mats[0], 0)] + AllEntries(mats[1..]);
    assert |a| == |b|;
    forall i | 0 <= i < |a| ensures a[i] == b[i] {
      if i > 0 { assert mats[1..][i - 1] == mats[i]; }
    }
  }

  /** The value of a `KEY=value` header line, when the line has that key. */
  function HeaderValue(line: string, key: string): Option<string>
  {
    if |line| > |key| && line[..|key| + 1] == key + "=" then Some(line[|key| + 1..]) else None
  }

  /** Reads the `[INFO]` block: the title, the eleven keys in order, a blank. */
  function ReadHeader(ls: seq<string>): Option<seq<string>>
    requires |ls| == 13
  {
    if ls[0] != "[INFO]" || ls[12] != "" then None
    else if forall k :: 0 <= k < |HeaderKeys| ==> HeaderValue(ls[1 + k], HeaderKeys[k]).Some? then
      Some(seq(|HeaderKeys|, k requires 0 <= k < |HeaderKeys| => HeaderValue(ls[1 + k], HeaderKeys[k]).value))
    else None
  }

  /** Reads a whole DAT text: the header values and one entry list per section. */
  function ReadDat(text: string): Option<(seq<string>, seq<seq<(nat, nat, int)>>)>
  {
    var ls := ReadLines(text);
    if |ls| < 13 then None
    else
      match ReadHeader(ls[..13])
      case None => None
      case Some(h) =>
        match DecodeSections(ls[13..], 0)
        case None => None
        case Some(secs) => Some((h, secs))
  }

  predicate LinesNoCr(ls: seq<string>)
  {
    forall j :: 0 <= j < |ls| ==> NoCr(ls[j])
  }

  lemma NatToStringNoCr(n: nat)
    ensures NoCr(NatToString(n))
  {
  }

  lemma CellLineNoCr(r: nat, c: nat, v: int)
    ensures NoCr(CellLine(r, c, v))
  {
    NatToStringNoCr(r);
    NatToStringNoCr(c);
    NatToStringNoCr(if v < 0 then -v else v);
  }

  lemma {:induction false} RowLinesNoCr(r: nat, row: seq<Cell>, c0: nat)
    requires c0 <= |row|
    ensures LinesNoCr(RowLines(r, row, c0))
    decreases |row| - c0
  {
    if c0 < |row| {
      CellLineNoCr(r, c0, CellValue(row[c0]));
      RowLinesNoCr(r, row, c0 + 1);
    }
  }

  lemma {:induction false} MatrixLinesNoCr(mat: seq<seq<Cell>>, r0: nat)
    ensures LinesNoCr(MatrixLines(mat, r0))
    decreases |mat|
  {
    if mat != [] {
      RowLinesNoCr(r0, mat[0], 0);
      MatrixLinesNoCr(mat[1..], r0 + 1);
    }
  }

  lemma {:induction false} SectionLinesNoCr(mats: seq<seq<seq<Cell>>>, i0: nat)
    ensures LinesNoCr(SectionLines(mats, i0))
    decreases |mats|
  {
    if mats != [] {
      NatToStringNoCr(i0);
      MatrixLinesNoCr(mats[0], 0);
      SectionLinesNoCr(mats[1..], i0 + 1);
    }
  }

  lemma HeaderKeyNoCr(k: nat)
    requires k < |HeaderKeys|
    ensures NoCr(HeaderKeys[k])
  {
  }

  lemma HeaderLinesNoCr(q: DatRequest)
    requires forall k :: 0 <= k < |HeaderKeys| ==> NoCr(HeaderValues(q)[k])
    ensures |HeaderLines(q)| == 13
    ensures LinesNoCr(HeaderLines(q))
  {
    var h := HeaderLines(q);
    HeaderLineAt(q, 0);
    forall j | 0 <= j < |h| ensures NoCr(h[j]) {
      if 1 <= j < 12 {
        HeaderLineAt(q, j - 1);
        HeaderKeyNoCr(j - 1);
        var key, v := HeaderKeys[j - 1], HeaderValues(q)[j - 1];
        assert forall c :: c in key + "=" + v ==> c in key || c == '=' || c in v;
      }
    }
  }

  /** A `KEY=value` line gives back its value under its key. */
  lemma KeyLineValue(key: string, v: string)
    ensures HeaderValue(key + "=" + v, key) == Some(v)
  {
    var line := key + "=" + v;
    assert line[..|key| + 1] == key + "=";
    assert line[|key| + 1..] == v;
  }

  /** Where each part of the header block sits. */
  lemma HeaderLineAt(q: DatRequest, k: nat)
    requires k < |HeaderKeys|
    ensures |HeaderLines(q)| == |HeaderKeys| + 2
    ensures HeaderLines(q)[0] == "[INFO]" && HeaderLines(q)[|HeaderKeys| + 1] == ""
    ensures HeaderLines(q)[1 + k] == HeaderKeys[k] + "=" + HeaderValues(q)[k]
  {
    var mid := seq(|HeaderKeys|, j requires 0 <= j < |HeaderKeys| => HeaderKeys[j] + "=" + HeaderValues(q)[j]);
    assert HeaderLines(q) == ["[INFO]"] + mid + [""];
    assert (["[INFO]"] + mid + [""])[1 + k] == mid[k];
  }

  /** Any header block laid out as the writer lays it out reads back as its
      values. */
  lemma ReadHeaderOf(h: seq<string>, vals: seq<string>)
    requires |h| == 13 && |vals| == |HeaderKeys|
    requires h[0] == "[INFO]" && h[12] == ""
    requires forall k :: 0 <= k < |HeaderKeys| ==> h[1 + k] == HeaderKeys[k] + "=" + vals[k]
    ensures ReadHeader(h) == Some(vals)
  {
    forall k | 0 <= k < |HeaderKeys|
      ensures HeaderValue(h[1 + k], HeaderKeys[k]) == Some(vals[k])
    {
      KeyLineValue(HeaderKeys[k], vals[k]);
    }
    var vs := seq(|HeaderKeys|, k requires 0 <= k < |HeaderKeys| => HeaderValue(h[1 + k], HeaderKeys[k]).value);
    assert ReadHeader(h) == Some(vs);
    assert forall k :: 0 <= k < |HeaderKeys| ==> vs[k] == vals[k];
    assert vs == vals;
  }

  lemma ReadHeaderLines(q: DatRequest)
    requires |HeaderLines(q)| == 13
    ensures ReadHeader(HeaderLines(q)) == Some(HeaderValues(q))
  {
    var h := HeaderLines(q);
    var vals := HeaderValues(q);
    forall k | 0 <= k < |HeaderKeys| ensures h[1 + k] == HeaderKeys[k] + "=" + vals[k] {
      HeaderLineAt(q, k);
    }
    HeaderLineAt(q, 0);
    ReadHeaderOf(h, vals);
  }

  /** What `write_survey_dat` writes can be read back: the eleven header
      values in order and every matrix's cells, row-major, unparsable cells
      as 0 -- provided no header value itself contains a carriage return. */
  lemma DatRoundTrip(q: DatRequest)
    requires q.surveyNo != ""
    requires forall k :: 0 <= k < |HeaderKeys| ==> NoCr(HeaderValues(q)[k])
    ensures WriteSurveyDat(q).Ok?
    ensures ReadDat(WriteSurveyDat(q).value.text) == Some((HeaderValues(q), AllEntries(q.matrices)))
  {
    var h := HeaderLines(q);
    var body := SectionLines(q.matrices, 0);
    HeaderLinesNoCr(q);
    SectionLinesNoCr(q.matrices, 0);
    var ls := h + body;
    assert LinesNoCr(ls) by {
      forall j | 0 <= j < |ls| ensures NoCr(ls[j]) {
        if j < |h| { assert ls[j] == h[j]; } else { assert ls[j] == body[j - |h|]; }
      }
    }
    ReadJoinCrlf(ls);
    assert ls[..13] == h;
    assert ls[13..] == body;
    ReadHeaderLines(q);
    SectionLinesRoundTrip(q.matrices, 0);
  }
}

=== FILE: digits.dfy ===
/** Decimal text: Python's `str(int)`, `int(str)`, `str.isdigit()`,
    `str.strip()` and `f"{n:0Wd}"` over ASCII, plus the digit-run reading of a
    group label ("4-5-6" -> [4, 5, 6]) and its inverse, the dash join. */
module Digits {
  import opened Common

  predicate IsDigit(c: char) { '0' <= c <= '9' }

  predicate AllDigits(s: string)
  {
    forall i :: 0 <= i < |s| ==> IsDigit(s[i])
  }

  /** `str.isdigit()` over ASCII: non-empty and every character a digit. */
  predicate IsDigitString(s: string)
  {
    |s| > 0 && AllDigits(s)
  }

  function DigitChar(d: nat): (c: char)
    requires d < 10
    ensures IsDigit(c)
  {
    ('0' as int + d) as char
  }

  function DigitValue(c: char): (d: nat)
    requires IsDigit(c)
    ensures d < 10
  {
    c as int - '0' as int
  }

  function Pow10(k: nat): (p: nat)
    ensures p >= 1
  {
    if k == 0 then 1 else 10 * Pow10(k - 1)
  }

  lemma Pow10Values()
    ensures Pow10(2) == 100 && Pow10(4) == 10000
  {
    assert Pow10(1) == 10;
    assert Pow10(3) == 1000;
  }

  /** `str(n)` for a non-negative integer: canonical decimal, no leading zero. */
  function NatToString(n: nat): (s: string)
    ensures IsDigitString(s)
    ensures (s[0] == '0') == (n == 0)
    ensures (|s| == 1) == (n < 10)
    decreases n
  {
    if n < 10 then [DigitChar(n)] else NatToString(n / 10) + [DigitChar(n % 10)]
  }

  /** The value of a string of decimal digits (`int(s)`; leading zeros allowed). */
  function ParseDigits(s: string): nat
    requires AllDigits(s)
  {
    if |s| == 0 then 0 else ParseDigits(s[..|s| - 1]) * 10 + DigitValue(s[|s| - 1])
  }

  lemma {:induction false} ParseNatToString(n: nat)
    ensures ParseDigits(NatToString(n)) == n
    decreases n
  {
    if n >= 10 {
      var a := NatToString(n / 10);
      var s := a + [DigitChar(n % 10)];
      assert s[..|s| - 1] == a;
      ParseNatToString(n / 10);
    }
  }

  /** `str` is injective on non-negative integers. */
  lemma NatToStringInjective(m: nat, n: nat)
    ensures NatToString(m) == NatToString(n) <==> m == n
  {
    ParseNatToString(m);
    ParseNatToString(n);
  }

  lemma AllDigitsAppend(a: string, b: string)
    requires AllDigits(a) && AllDigits(b)
    ensures AllDigits(a + b)
  {
    var ab := a + b;
    forall i | 0 <= i < |ab| ensures IsDigit(ab[i]) {
      if i < |a| { assert ab[i] == a[i]; } else { assert ab[i] == b[i - |a|]; }
    }
  }

  lemma ShiftStep(x: nat, p: nat, y: nat, d: nat)
    ensures (x * p + y) * 10 + d == x * (p * 10) + (y * 10 + d)
  {
  }

  lemma {:induction false} ParseDigitsAppend(a: string, b: string)
    requires AllDigits(a) && AllDigits(b)
    ensures AllDigits(a + b)
    ensures ParseDigits(a + b) == ParseDigits(a) * Pow10(|b|) + ParseDigits(b)
    decreases |b|
  {
    AllDigitsAppend(a, b);
    var ab := a + b;
    if |b| == 0 {
      assert ab == a;
    } else {
      var b' := b[..|b| - 1];
      var last := b[|b| - 1];
      assert ab[..|ab| - 1] == a + b';
      assert ab[|ab| - 1] == last;
      ParseDigitsAppend(a, b');
      assert ParseDigits(ab) == ParseDigits(a + b') * 10 + DigitValue(last);
      assert ParseDigits(b) == ParseDigits(b') * 10 + DigitValue(last);
      ShiftStep(ParseDigits(a), Pow10(|b'|), ParseDigits(b'), DigitValue(last));
    }
  }

  function Zeros(k: nat): (z: string)
    ensures |z| == k && AllDigits(z)
  {
    if k == 0 then "" else "0" + Zeros(k - 1)
  }

  lemma {:induction false} ParseZeros(k: nat)
    ensures ParseDigits(Zeros(k)) == 0
  {
    if k > 0 {
      ParseZeros(k - 1);
      ParseDigitsAppend("0", Zeros(k - 1));
      assert ParseDigits("0") == 0 by {
        assert "0"[..0] == "";
      }
    }
  }

  /** `f"{n:0{width}d}"` for a non-negative integer: `str(n)` left-padded with
      zeros to at least `width` characters. */
  function PadNat(n: nat, width: nat): (s: string)
    ensures AllDigits(s)
    ensures |s| == if width > |NatToString(n)| then width else |NatToString(n)|
    ensures ParseDigits(s) == n
  {
    var d := NatToString(n);
    var z := Zeros(if width > |d| then width - |d| else 0);
    ParseDigitsAppend(z, d);
    ParseZeros(|z|);
    ParseNatToString(n);
    z + d
  }

  /** A number below 10^k has at most k decimal digits. */
  lemma {:induction false} NatToStringLength(n: nat, k: nat)
    requires k >= 1 && n < Pow10(k)
    ensures |NatToString(n)| <= k
    decreases n
  {
    if n >= 10 {
      assert Pow10(1) == 10;
      assert k >= 2;
      assert n / 10 < Pow10(k - 1);
      NatToStringLength(n / 10, k - 1);
    }
  }

  /** A value below 10^width is padded to exactly `width` digits. */
  lemma PadNatExact(n: nat, width: nat)
    requires width >= 1 && n < Pow10(width)
    ensures |PadNat(n, width)| == width
  {
    NatToStringLength(n, width);
  }

  /** `str(i)` for any integer. */
  function IntToString(i: int): (s: string)
    ensures |s| > 0
  {
    if i < 0 then "-" + NatToString(-i) else NatToString(i)
  }

  /** The whitespace `str.strip()` removes, restricted to ASCII. */
  predicate IsSpace(c: char)
  {
    c == ' ' || (0x09 <= c as int <= 0x0D) || (0x1C <= c as int <= 0x1F)
  }

  function StripLeft(s: string): (r: string)
    ensures |r| <= |s|
    ensures |r| == 0 || !IsSpace(r[0])
  {
    if |s| > 0 && IsSpace(s[0]) then StripLeft(s[1..]) else s
  }

  function StripRight(s: string): (r: string)
    ensures |r| <= |s|
    ensures |r| == 0 || !IsSpace(r[|r| - 1])
  {
    if |s| > 0 && IsSpace(s[|s| - 1]) then StripRight(s[..|s| - 1]) else s
  }

  /** What `StripRight` keeps is a prefix of its input. */
  lemma {:induction false} StripRightPrefix(s: string)
    ensures StripRight(s) == s[..|StripRight(s)|]
    decreases |s|
  {
    if |s| > 0 && IsSpace(s[|s| - 1]) {
      StripRightPrefix(s[..|s| - 1]);
    }
  }

  /** `str.strip()`. */
  function Strip(s: string): string
  {
    StripRight(StripLeft(s))
  }

  lemma StripNoSpace(s: string)
    requires |s| == 0 || (!IsSpace(s[0]) && !IsSpace(s[|s| - 1]))
    ensures Strip(s) == s
  {
  }

  /** Stripping twice is stripping once. */
  lemma StripIdempotent(s: string)
    ensures Strip(Strip(s)) == Strip(s)
  {
    var l := StripLeft(s);
    var r := StripRight(l);
    StripRightPrefix(l);
    if |r| > 0 {
      assert r[0] == l[0];
    }
    StripNoSpace(r);
  }

  /** `int(s)` for a string over ASCII: surrounding whitespace, an optional
      sign, then one or more digits; anything else raises, modelled as None. */
  function PyInt(s: string): Option<int>
  {
    var t := Strip(s);
    if IsDigitString(t) then Some(ParseDigits(t))
    else if |t| >= 2 && t[0] == '+' && IsDigitString(t[1..]) then Some(ParseDigits(t[1..]))
    else if |t| >= 2 && t[0] == '-' && IsDigitString(t[1..]) then (var v: int := ParseDigits(t[1..]); Some(-v))
    else None
  }

  lemma PyIntOfNatToString(n: nat)
    ensures PyInt(NatToString(n)) == Some(n)
  {
    var s := NatToString(n);
    StripNoSpace(s);
    ParseNatToString(n);
  }

  /** Number of leading digits of `s`. */
  function LeadingDigits(s: string): (k: nat)
    ensures k <= |s|
    ensures forall i :: 0 <= i < k ==> IsDigit(s[i])
    ensures k == |s| || !IsDigit(s[k])
    ensures |s| > 0 && IsDigit(s[0]) ==> k >= 1
  {
    if |s| == 0 || !IsDigit(s[0]) then 0 else 1 + LeadingDigits(s[1..])
  }

  /** The values of the maximal runs of ASCII digits in `s`, left to right:
      what `re.split(r"[^0-9]+", s)` keeps after dropping non-digit parts,
      each passed through `int`. */
  function DigitRuns(s: string): seq<nat>
    decreases |s|
  {
    if |s| == 0 then []
    else if !IsDigit(s[0]) then DigitRuns(s[1..])
    else
      var k := LeadingDigits(s);
      assert AllDigits(s[..k]);
      [ParseDigits(s[..k])] + DigitRuns(s[k..])
  }

  /** The set of direction numbers a group label names. */
  function DigitSet(s: string): set<nat>
  {
    set x | x in DigitRuns(s)
  }

  /** The first digit run, as `re.search(r"(\d+)", s)` finds it. */
  function FirstDigitRun(s: string): Option<nat>
  {
    var runs := DigitRuns(s);
    if runs == [] then None else Some(runs[0])
  }

  /** `"-".join(str(n) for n in ns)`. */
  function JoinDash(ns: seq<nat>): string
  {
    if |ns| == 0 then ""
    else if |ns| == 1 then NatToString(ns[0])
    else NatToString(ns[0]) + "-" + JoinDash(ns[1..])
  }

  lemma {:induction false} LeadingDigitsOfDigitsThen(d: string, t: string)
    requires AllDigits(d)
    requires |t| == 0 || !IsDigit(t[0])
    ensures LeadingDigits(d + t) == |d|
    decreases |d|
  {
    if |d| > 0 {
      assert (d + t)[1..] == d[1..] + t;
      LeadingDigitsOfDigitsThen(d[1..], t);
    } else {
      assert d + t == t;
    }
  }

  lemma DigitRunsDigitsThen(d: string, t: string)
    requires IsDigitString(d)
    requires |t| == 0 || !IsDigit(t[0])
    ensures DigitRuns(d + t) == [ParseDigits(d)] + DigitRuns(t)
  {
    LeadingDigitsOfDigitsThen(d, t);
    var s := d + t;
    assert s[..|d|] == d;
    assert s[|d|..] == t;
  }

  lemma DigitRunsSkip(c: char, t: string)
    requires !IsDigit(c)
    ensures DigitRuns([c] + t) == DigitRuns(t)
  {
    assert ([c] + t)[1..] == t;
  }

  /** Reading a dash-joined label back gives exactly the numbers it was built
      from, in order. */
  lemma {:induction false} DigitRunsOfJoinDash(ns: seq<nat>)
    ensures DigitRuns(JoinDash(ns)) == ns
    decreases |ns|
  {
    if |ns| == 1 {
      DigitRunsDigitsThen(NatToString(ns[0]), "");
      assert NatToString(ns[0]) + "" == NatToString(ns[0]);
      ParseNatToString(ns[0]);
    } else if |ns| > 1 {
      var rest := JoinDash(ns[1..]);
      DigitRunsOfJoinDash(ns[1..]);
      assert NatToString(ns[0]) + "-" + rest == NatToString(ns[0]) + ("-" + rest);
      DigitRunsDigitsThen(NatToString(ns[0]), "-" + rest);
      DigitRunsSkip('-', rest);
      ParseNatToString(ns[0]);
      assert ns == [ns[0]] + ns[1..];
    }
  }

  /** Python's `s.split(sep)` for a one-character separator. */
  function Split(s: string, sep: char): (parts: seq<string>)
    ensures |parts| >= 1
    ensures forall i :: 0 <= i < |parts| ==> sep !in parts[i]
    decreases |s|
  {
    if |s| == 0 then [""]
    else if s[0] == sep then [""] + Split(s[1..], sep)
    else
      var rest := Split(s[1..], sep);
      [[s[0]] + rest[0]] + rest[1..]
  }
}

=== FILE: groups.dfy ===
/** Direction grouping. A site (or template) has directions 1..N; an "input
    group" is a label such as "4-5-6" whose ASCII digit runs are the
    directions it holds. The free-direction pool lists the directions no group
    holds, ascending. The template tab recomputes the pool from scratch after
    every change; the site tab moves directions between pool and groups one
    step at a time. */
module DirectionGroups {
  import opened Common
  import opened Digits

  /** The digit runs of every label, label by label. */
  function AllRuns(groups: seq<string>): (xs: seq<nat>)
    ensures forall d :: d in xs <==> exists i :: 0 <= i < |groups| && d in DigitRuns(groups[i])
  {
    if groups == [] then []
    else
      var rest := AllRuns(groups[1..]);
      assert forall d :: d in rest <==> exists i :: 1 <= i < |groups| && d in DigitRuns(groups[i]) by {
        forall d | d in rest ensures exists i :: 1 <= i < |groups| && d in DigitRuns(groups[i]) {
          var j :| 0 <= j < |groups[1..]| && d in DigitRuns(groups[1..][j]);
          assert groups[1..][j] == groups[j + 1];
        }
        forall d, i | 1 <= i < |groups| && d in DigitRuns(groups[i]) ensures d in rest {
          assert groups[1..][i - 1] == groups[i];
        }
      }
      DigitRuns(groups[0]) + rest
  }

  /** Every direction named by some group label. */
  function Used(groups: seq<string>): (u: set<nat>)
    ensures forall d :: d in u <==> exists i :: 0 <= i < |groups| && d in DigitRuns(groups[i])
  {
    set d | d in AllRuns(groups)
  }

  /** The directions a label names, as a set. */
  lemma DigitSetMembers(s: string)
    ensures forall d :: d in DigitSet(s) <==> d in DigitRuns(s)
  {
  }

  /** `_rebuild_dir_list` / `gen_dirs`: `sorted({1..total} - used)`. */
  function RebuildPool(total: nat, groups: seq<string>): (pool: seq<nat>)
    ensures StrictlyAscending(pool)
    ensures forall d :: d in pool <==> 1 <= d <= total && d !in Used(groups)
  {
    var ps := Positions(total + 1, Used(groups) + {0}, false);
    assert forall d :: d in ps <==> 0 <= d < total + 1 && d !in Used(groups) + {0} by {
      forall d | d in ps ensures 0 <= d < total + 1 && d !in Used(groups) + {0} {
        var i :| 0 <= i < |ps| && ps[i] == d;
      }
    }
    ps
  }

  /** Pool and groups split the directions: nothing is in both, and every
      direction 1..N is in one of them. */
  lemma PoolPartition(total: nat, groups: seq<string>, d: nat)
    requires 1 <= d <= total
    ensures d in RebuildPool(total, groups) <==> d !in Used(groups)
  {
  }

  // ---------------------------------------------------------------------
  // Sorting the selected directions.

  function Insert(x: nat, s: seq<nat>): (r: seq<nat>)
    requires Ascending(s)
    ensures Ascending(r)
    ensures multiset(r) == multiset(s) + multiset{x}
    ensures forall y :: y in r <==> y == x || y in s
  {
    if s == [] || x <= s[0] then
      ConsAscending(x, s);
      [x] + s
    else
      var t := Insert(x, s[1..]);
      assert s == [s[0]] + s[1..];
      HeadBelow(s);
      ConsAscending(s[0], t);
      [s[0]] + t
  }

  /** The head of an ascending list is at most every later entry. */
  lemma HeadBelow(s: seq<nat>)
    requires Ascending(s) && s != []
    ensures forall y :: y in s[1..] ==> s[0] <= y
  {
    forall y | y in s[1..] ensures s[0] <= y {
      var j :| 0 <= j < |s[1..]| && s[1..][j] == y;
      assert s[j + 1] == y;
    }
  }

  /** Putting a lower bound in front of an ascending list keeps it ascending. */
  lemma ConsAscending(a: nat, t: seq<nat>)
    requires Ascending(t)
    requires forall y :: y in t ==> a <= y
    ensures Ascending([a] + t)
  {
    var r := [a] + t;
    forall i, j | 0 <= i < j < |r| ensures r[i] <= r[j] {
      assert r[j] == t[j - 1];
      if i > 0 {
        assert r[i] == t[i - 1];
      } else {
        assert t[j - 1] in t;
      }
    }
  }

  /** `sorted(...)` on a list of directions. */
  function Sort(s: seq<nat>): (r: seq<nat>)
    ensures Ascending(r)
    ensures multiset(r) == multiset(s)
  {
    if s == [] then []
    else
      assert s == [s[0]] + s[1..];
      Insert(s[0], Sort(s[1..]))
  }

  /** A list that is already strictly ascending is left as it is by sorting. */
  lemma {:induction false} SortAscending(s: seq<nat>)
    requires StrictlyAscending(s)
    ensures Sort(s) == s
  {
    if s != [] {
      SortAscending(s[1..]);
      assert s == [s[0]] + s[1..];
    }
  }

  lemma PickAtAscending(s: seq<nat>, sel: set<nat>)
    requires StrictlyAscending(s)
    ensures StrictlyAscending(PickAt(s, sel))
    ensures StrictlyAscending(RemoveAt(s, sel))
  {
  }

  /** The label a selection of pool directions becomes: the numbers ascending,
      joined by '-'. */
  function GroupLabel(picked: seq<nat>): string
  {
    JoinDash(Sort(picked))
  }

  /** The new group's label names exactly the selected directions, ascending. */
  lemma GroupLabelNames(pool: seq<nat>, sel: set<nat>)
    requires StrictlyAscending(pool)
    ensures DigitRuns(GroupLabel(PickAt(pool, sel))) == PickAt(pool, sel)
  {
    PickAtAscending(pool, sel);
    SortAscending(PickAt(pool, sel));
    DigitRunsOfJoinDash(PickAt(pool, sel));
  }

  // ---------------------------------------------------------------------
  // Template tab: the pool is recomputed after every change.

  datatype Grouping = Grouping(pool: seq<nat>, groups: seq<string>)

  /** `add_group` on the template tab: nothing selected changes nothing;
      otherwise the label is appended and the pool rebuilt. */
  function TemplateAddGroup(total: nat, g: Grouping, sel: set<nat>): (r: Grouping)
    ensures PickAt(g.pool, sel) == [] ==> r == g
    ensures PickAt(g.pool, sel) != [] ==>
      r.groups == g.groups + [GroupLabel(PickAt(g.pool, sel))]
      && r.pool == RebuildPool(total, r.groups)
  {
    var picked := PickAt(g.pool, sel);
    if picked == [] then g
    else
      var groups := g.groups + [GroupLabel(picked)];
      Grouping(RebuildPool(total, groups), groups)
  }

  /** `remove_group` on the template tab. */
  function TemplateRemoveGroups(total: nat, g: Grouping, sel: set<nat>): (r: Grouping)
    ensures r.groups == RemoveAt(g.groups, sel)
    ensures r.pool == RebuildPool(total, r.groups)
  {
    var groups := RemoveAt(g.groups, sel);
    Grouping(RebuildPool(total, groups), groups)
  }

  /** After grouping, the selected directions have left the template pool. */
  lemma TemplateAddGroupTakes(total: nat, g: Grouping, sel: set<nat>)
    requires StrictlyAscending(g.pool)
    ensures forall d :: d in PickAt(g.pool, sel) ==> d !in TemplateAddGroup(total, g, sel).pool
  {
    var picked := PickAt(g.pool, sel);
    if picked != [] {
      var groups := g.groups + [GroupLabel(picked)];
      GroupLabelNames(g.pool, sel);
      forall d | d in picked ensures d in Used(groups) {
        assert d in DigitRuns(groups[|groups| - 1]);
      }
    }
  }

  // ---------------------------------------------------------------------
  // Site tab: incremental moves between pool and groups.

  /** `to_tabs`: the selected pool entries become one new group and leave the
      pool; the rest of the pool keeps its order. */
  function ToTabs(g: Grouping, sel: set<nat>): (r: Grouping)
    ensures PickAt(g.pool, sel) == [] ==> r == g
    ensures PickAt(g.pool, sel) != [] ==>
      r.groups == g.groups + [GroupLabel(PickAt(g.pool, sel))]
      && r.pool == RemoveAt(g.pool, sel)
  {
    var picked := PickAt(g.pool, sel);
    if picked == [] then g
    else Grouping(RemoveAt(g.pool, sel), g.groups + [GroupLabel(picked)])
  }

  /** Restores one direction before the first entry larger than it (at the
      end when there is none). */
  function InsertBefore(pool: seq<nat>, d: nat): (r: seq<nat>)
    ensures forall x :: x in r <==> x == d || x in pool
    ensures |r| == |pool| + 1
  {
    if pool == [] || d < pool[0] then [d] + pool
    else
      var t := InsertBefore(pool[1..], d);
      assert forall x :: x in pool <==> x == pool[0] || x in pool[1..] by {
        assert pool == [pool[0]] + pool[1..];
      }
      [pool[0]] + t
  }

  lemma {:induction false} InsertBeforeSorted(pool: seq<nat>, d: nat)
    requires StrictlyAscending(pool) && d !in pool
    ensures StrictlyAscending(InsertBefore(pool, d))
  {
    var r := InsertBefore(pool, d);
    if pool == [] || d < pool[0] {
      forall i, j | 0 <= i < j < |r| ensures r[i] < r[j] {
        if i == 0 {
          assert r[j] == pool[j - 1];
          assert pool[0] <= pool[j - 1];
        } else {
          assert r[i] == pool[i - 1] && r[j] == pool[j - 1];
        }
      }
    } else {
      var t := InsertBefore(pool[1..], d);
      assert d !in pool[1..];
      InsertBeforeSorted(pool[1..], d);
      assert pool[0] < d;
      forall y | y in t ensures pool[0] < y {
        if y != d {
          var j :| 0 <= j < |pool[1..]| && pool[1..][j] == y;
          assert pool[j + 1] == y;
        }
      }
      forall i, j | 0 <= i < j < |r| ensures r[i] < r[j] {
        if i == 0 {
          assert r[j] == t[j - 1];
          assert t[j - 1] in t;
        } else {
          assert r[i] == t[i - 1] && r[j] == t[j - 1];
        }
      }
    }
  }

  /** The loop of `from_tabs`: each direction of `ds`, in order, is skipped
      when it was in the pool before the loop (`existing`), otherwise
      inserted before the first larger entry. */
  function RestoreAll(pool: seq<nat>, ds: seq<nat>, existing: set<nat>): seq<nat>
    decreases |ds|
  {
    if ds == [] then pool
    else if ds[0] in existing then RestoreAll(pool, ds[1..], existing)
    else RestoreAll(InsertBefore(pool, ds[0]), ds[1..], existing)
  }

  lemma {:induction false} RestoreAllSorted(pool: seq<nat>, ds: seq<nat>, existing: set<nat>)
    requires StrictlyAscending(pool) && StrictlyAscending(ds)
    requires forall i :: 0 <= i < |ds| && ds[i] in pool ==> ds[i] in existing
    ensures StrictlyAscending(RestoreAll(pool, ds, existing))
    ensures forall x :: x in RestoreAll(pool, ds, existing) <==> x in pool || (x in ds && x !in existing)
    decreases |ds|
  {
    if ds != [] {
      var d := ds[0];
      var rest := ds[1..];
      assert forall x :: x in ds <==> x == d || x in rest;
      assert forall x :: x in rest ==> d < x;
      if d in existing {
        RestoreAllSorted(pool, rest, existing);
      } else {
        InsertBeforeSorted(pool, d);
        var p := InsertBefore(pool, d);
        forall i | 0 <= i < |rest| && rest[i] in p ensures rest[i] in existing {
          assert rest[i] == ds[i + 1];
        }
        RestoreAllSorted(p, rest, existing);
      }
    }
  }

  /** The distinct values of `xs`, ascending: `sorted(set(xs))`. */
  function SortedSet(xs: set<nat>, bound: nat): (r: seq<nat>)
    requires forall x :: x in xs ==> x < bound
    ensures StrictlyAscending(r)
    ensures forall x :: x in r <==> x in xs
  {
    var ps := Positions(bound, xs, true);
    assert forall x :: x in ps ==> x in xs by {
      forall x | x in ps ensures x in xs {
        var i :| 0 <= i < |ps| && ps[i] == x;
      }
    }
    ps
  }

  /** A number above every element of a list. */
  function Above(xs: seq<nat>): (b: nat)
    ensures forall i :: 0 <= i < |xs| ==> xs[i] < b
  {
    if xs == [] then 0
    else
      var b := Above(xs[1..]);
      assert forall i :: 1 <= i < |xs| ==> xs[i] == xs[1..][i - 1];
      if xs[0] < b then b else xs[0] + 1
  }

  /** The directions the selected labels name, ascending, each once. */
  function Released(picked: seq<string>): (ds: seq<nat>)
    ensures StrictlyAscending(ds)
    ensures forall x :: x in ds <==> x in Used(picked)
  {
    var runs := AllRuns(picked);
    var b := Above(runs);
    assert forall x :: x in Used(picked) ==> x < b by {
      forall x | x in Used(picked) ensures x < b {
        var i :| 0 <= i < |runs| && runs[i] == x;
      }
    }
    SortedSet(Used(picked), b)
  }

  /** `from_tabs`: the selected groups go; the directions they named are
      restored, ascending, each skipped if the pool already had it. */
  function FromTabs(g: Grouping, sel: set<nat>): (r: Grouping)
    ensures PickAt(g.groups, sel) == [] ==> r == g
    ensures PickAt(g.groups, sel) != [] ==>
      r.groups == RemoveAt(g.groups, sel)
      && r.pool == RestoreAll(g.pool, Released(PickAt(g.groups, sel)), set x | x in g.pool)
  {
    var picked := PickAt(g.groups, sel);
    if picked == [] then g
    else Grouping(RestoreAll(g.pool, Released(picked), set x | x in g.pool), RemoveAt(g.groups, sel))
  }

  /** Ungrouping keeps a sorted, duplicate-free pool sorted and duplicate-free,
      and the pool afterwards holds exactly the old pool plus the released
      directions. */
  lemma FromTabsSorted(g: Grouping, sel: set<nat>)
    requires StrictlyAscending(g.pool)
    ensures StrictlyAscending(FromTabs(g, sel).pool)
    ensures forall x :: x in FromTabs(g, sel).pool <==> x in g.pool || x in Used(PickAt(g.groups, sel))
  {
    var picked := PickAt(g.groups, sel);
    if picked != [] {
      RestoreAllSorted(g.pool, Released(picked), set x | x in g.pool);
    }
  }

  /** Grouping keeps the site pool equal to the from-scratch pool. */
  lemma ToTabsAgrees(total: nat, g: Grouping, sel: set<nat>)
    requires g.pool == RebuildPool(total, g.groups)
    ensures ToTabs(g, sel).pool == RebuildPool(total, ToTabs(g, sel).groups)
  {
    var picked := PickAt(g.pool, sel);
    if picked != [] {
      var lab := GroupLabel(picked);
      var groups := g.groups + [lab];
      var kept := RemoveAt(g.pool, sel);
      var want := RebuildPool(total, groups);
      GroupLabelNames(g.pool, sel);
      PickAtAscending(g.pool, sel);
      UsedAppend(g.groups, lab);
      forall x ensures x in kept <==> x in want {
        RemovePickSplit(g.pool, sel, x);
      }
      StrictlyAscendingUnique(kept, want);
    }
  }

  /** A label appended to the groups adds exactly its own directions. */
  lemma UsedAppend(groups: seq<string>, lab: string)
    ensures forall d :: d in Used(groups + [lab]) <==> d in Used(groups) || d in DigitRuns(lab)
  {
    var all := groups + [lab];
    forall d ensures d in Used(all) <==> d in Used(groups) || d in DigitRuns(lab) {
      if d in Used(all) {
        var i :| 0 <= i < |all| && d in DigitRuns(all[i]);
        if i < |groups| { assert all[i] == groups[i]; }
      }
      if d in Used(groups) {
        var i :| 0 <= i < |groups| && d in DigitRuns(groups[i]);
        assert all[i] == groups[i];
      }
      if d in DigitRuns(lab) {
        assert all[|groups|] == lab;
      }
    }
  }

  lemma UsedHas(groups: seq<string>, lab: string, d: nat)
    requires lab in groups && d in DigitRuns(lab)
    ensures d in Used(groups)
  {
    var i :| 0 <= i < |groups| && groups[i] == lab;
  }

  /** Labels drawn from `groups` name no direction `groups` does not. */
  lemma UsedMono(sub: seq<string>, groups: seq<string>)
    requires forall j :: 0 <= j < |sub| ==> sub[j] in groups
    ensures forall d :: d in Used(sub) ==> d in Used(groups)
  {
    forall d | d in Used(sub) ensures d in Used(groups) {
      var j :| 0 <= j < |sub| && d in DigitRuns(sub[j]);
      UsedHas(groups, sub[j], d);
    }
  }

  lemma AtEntries(groups: seq<string>, ps: seq<nat>)
    requires forall i :: 0 <= i < |ps| ==> ps[i] < |groups|
    ensures forall j :: 0 <= j < |At(groups, ps)| ==> At(groups, ps)[j] in groups
  {
  }

  /** Splitting the groups into kept and picked ones splits their directions. */
  lemma UsedSplit(groups: seq<string>, sel: set<nat>)
    ensures forall d :: d in Used(groups) <==> d in Used(RemoveAt(groups, sel)) || d in Used(PickAt(groups, sel))
  {
    var kept := RemoveAt(groups, sel);
    var picked := PickAt(groups, sel);
    AtEntries(groups, Positions(|groups|, sel, false));
    AtEntries(groups, Positions(|groups|, sel, true));
    UsedMono(kept, groups);
    UsedMono(picked, groups);
    forall d | d in Used(groups) ensures d in Used(kept) || d in Used(picked) {
      var i :| 0 <= i < |groups| && d in DigitRuns(groups[i]);
      RemoveAtPickAtCover(groups, sel, i);
      if i in sel {
        UsedHas(picked, groups[i], d);
      } else {
        UsedHas(kept, groups[i], d);
      }
    }
  }

  /** In a list without repeats, a kept entry and a picked entry differ. */
  lemma KeptNotPicked(s: seq<nat>, sel: set<nat>)
    requires StrictlyAscending(s)
    ensures forall i, j :: 0 <= i < |RemoveAt(s, sel)| && 0 <= j < |PickAt(s, sel)| ==>
      RemoveAt(s, sel)[i] != PickAt(s, sel)[j]
  {
    var kept := Positions(|s|, sel, false);
    var took := Positions(|s|, sel, true);
    forall i, j | 0 <= i < |kept| && 0 <= j < |took| ensures s[kept[i]] != s[took[j]] {
      assert kept[i] != took[j];
    }
  }

  lemma KeptIsEntry(s: seq<nat>, sel: set<nat>, x: nat)
    requires x in RemoveAt(s, sel)
    ensures x in s
  {
    var kept := Positions(|s|, sel, false);
    var i :| 0 <= i < |kept| && RemoveAt(s, sel)[i] == x;
    assert s[kept[i]] == x;
  }

  /** In a list without repeats, an entry is either picked or kept. */
  lemma RemovePickSplit(s: seq<nat>, sel: set<nat>, x: nat)
    requires StrictlyAscending(s)
    ensures x in RemoveAt(s, sel) <==> x in s && x !in PickAt(s, sel)
  {
    if x in RemoveAt(s, sel) {
      KeptIsEntry(s, sel, x);
      KeptNotPicked(s, sel);
      var i :| 0 <= i < |RemoveAt(s, sel)| && RemoveAt(s, sel)[i] == x;
      forall j | 0 <= j < |PickAt(s, sel)| ensures PickAt(s, sel)[j] != x { }
    }
    if x in s {
      var p :| 0 <= p < |s| && s[p] == x;
      RemoveAtPickAtCover(s, sel, p);
    }
  }

  predicate DisjointGroups(groups: seq<string>)
  {
    forall i, j, d :: 0 <= i < j < |groups| && d in DigitRuns(groups[i]) ==> d !in DigitRuns(groups[j])
  }

  /** Ungrouping agrees with the from-scratch pool when the released
      directions are within 1..N and no remaining group still names them. */
  lemma FromTabsAgrees(total: nat, g: Grouping, sel: set<nat>)
    requires g.pool == RebuildPool(total, g.groups)
    requires forall d :: d in Used(PickAt(g.groups, sel)) ==> 1 <= d <= total
    requires forall d :: d in Used(PickAt(g.groups, sel)) ==> d !in Used(RemoveAt(g.groups, sel))
    ensures FromTabs(g, sel).pool == RebuildPool(total, FromTabs(g, sel).groups)
  {
    var picked := PickAt(g.groups, sel);
    FromTabsSorted(g, sel);
    if picked != [] {
      var r := FromTabs(g, sel);
      UsedSplit(g.groups, sel);
      var want := RebuildPool(total, RemoveAt(g.groups, sel));
      forall x ensures x in r.pool <==> x in want { }
      StrictlyAscendingUnique(r.pool, want);
    }
  }

  // ---------------------------------------------------------------------
  // Direction count.

  /** `_apply_to_current_row`: the number of distinct directions the groups
      name, or the spin value when they name none. */
  function DirectionCount(groups: seq<string>, spin: nat): (n: nat)
    ensures Used(groups) != {} ==> n == |Used(groups)|
    ensures Used(groups) == {} ==> n == spin
  {
    if Used(groups) == {} then spin else |Used(groups)|
  }

  /** A strictly ascending list has as many entries as the set it lists. */
  lemma {:induction false} AscendingCard(s: seq<nat>, S: set<nat>)
    requires StrictlyAscending(s)
    requires forall x :: x in s <==> x in S
    ensures |S| == |s|
  {
    if s == [] {
      assert S == {};
    } else {
      var S' := S - {s[0]};
      forall x ensures x in s[1..] <==> x in S' {
        if x in s[1..] {
          var i :| 0 <= i < |s[1..]| && s[1..][i] == x;
          assert s[i + 1] == x;
        }
        if x in S' {
          var i :| 0 <= i < |s| && s[i] == x;
          assert i != 0;
          assert s[1..][i - 1] == x;
        }
      }
      AscendingCard(s[1..], S');
      assert S == S' + {s[0]};
    }
  }

  lemma {:induction false} PositionsSplit(n: nat, sel: set<nat>)
    ensures |Positions(n, sel, false)| + |Positions(n, sel, true)| == n
  {
    if n > 0 {
      PositionsSplit(n - 1, sel);
    }
  }

  /** The positions below `n` that a set selects are as many as the set,
      when the set lies below `n`. */
  lemma PickedCount(n: nat, u: set<nat>)
    requires forall x :: x in u ==> x < n
    ensures |Positions(n, u, true)| == |u|
  {
    var took := Positions(n, u, true);
    forall x ensures x in took <==> x in u {
      if x in took {
        var i :| 0 <= i < |took| && took[i] == x;
      }
    }
    AscendingCard(took, u);
  }

  lemma FreeCount(total: nat, used: set<nat>)
    requires forall d :: d in used ==> 1 <= d <= total
    ensures |used| + |Positions(total + 1, used + {0}, false)| == total
  {
    WithZero(total, used);
    UnpickedCount(total + 1, used + {0});
  }

  /** The positions below `n` that a set lying below `n` leaves out. */
  lemma UnpickedCount(n: nat, u: set<nat>)
    requires forall x :: x in u ==> x < n
    ensures |Positions(n, u, false)| + |u| == n
  {
    PositionsSplit(n, u);
    PickedCount(n, u);
  }

  /** Adding direction 0 to directions within 1..N gives one more element,
      all below N + 1. */
  lemma WithZero(total: nat, used: set<nat>)
    requires forall d :: d in used ==> 1 <= d <= total
    ensures |used + {0}| == |used| + 1
    ensures forall x :: x in used + {0} ==> x < total + 1
  {
    assert 0 !in used;
  }

  /** When every grouped direction is within 1..N, the direction count and
      the pool size add up to N. */
  lemma CountPlusPool(total: nat, groups: seq<string>)
    requires Used(groups) != {}
    requires forall d :: d in Used(groups) ==> 1 <= d <= total
    ensures DirectionCount(groups, total) + |RebuildPool(total, groups)| == total
  {
    FreeCount(total, Used(groups));
  }

  // ---------------------------------------------------------------------
  // Applying a template to a site.

  /** A counter as a template stores it: name, direction text, label. */
  datatype CounterRow = CounterRow(name: string, dir: string, caption: string)

  /** Every integer the template mentions: each counter's direction that
      `int(str(dir).strip())` reads, then every '-'-separated part of every
      label that `int` reads (in that order). */
  function TemplateDirs(counters: seq<CounterRow>, labels: seq<string>): seq<int>
  {
    CounterDirs(counters) + LabelParts(labels)
  }

  function CounterDirs(counters: seq<CounterRow>): seq<int>
  {
    if counters == [] then []
    else
      (match PyInt(counters[0].dir) case Some(d) => [d] case None => [])
        + CounterDirs(counters[1..])
  }

  function IntsOf(parts: seq<string>): seq<int>
  {
    if parts == [] then []
    else (match PyInt(parts[0]) case Some(d) => [d] case None => []) + IntsOf(parts[1..])
  }

  function LabelParts(labels: seq<string>): seq<int>
  {
    if labels == [] then [] else IntsOf(Split(labels[0], '-')) + LabelParts(labels[1..])
  }

  function MaxOf(xs: seq<int>): (m: int)
    requires xs != []
    ensures m in xs
    ensures forall i :: 0 <= i < |xs| ==> xs[i] <= m
  {
    if |xs| == 1 then xs[0]
    else
      var m := MaxOf(xs[1..]);
      if xs[0] >= m then xs[0] else m
  }

  /** `QSpinBox.setValue` on the 1..40 direction spin box. */
  function ClampSpin(v: int): (s: nat)
    ensures 1 <= s <= 40
    ensures 1 <= v <= 40 ==> s == v
  {
    if v < 1 then 1 else if v > 40 then 40 else v
  }

  datatype SiteGrouping = SiteGrouping(spin: nat, pool: seq<nat>, groups: seq<string>, counters: seq<CounterRow>)

  function Range1(n: nat): (r: seq<nat>)
    ensures |r| == n
    ensures forall i :: 0 <= i < n ==> r[i] == i + 1
  {
    seq(n, i requires 0 <= i < n => i + 1)
  }

  /** `apply_template_from_vehicle`: the spin becomes the largest direction
      the template mentions (the current spin when none), clamped to 1..40;
      the pool becomes all of 1..spin; groups and counters are copied. */
  function ApplyTemplate(spin: nat, labels: seq<string>, counters: seq<CounterRow>): (r: SiteGrouping)
    requires 1 <= spin <= 40
    ensures TemplateDirs(counters, labels) == [] ==> r.spin == spin
    ensures TemplateDirs(counters, labels) != [] ==>
      r.spin == ClampSpin(MaxOf(TemplateDirs(counters, labels)))
    ensures r.pool == Range1(r.spin)
    ensures r.groups == labels && r.counters == counters
  {
    var ds := TemplateDirs(counters, labels);
    var maxDir := if ds != [] then MaxOf(ds) else spin;
    var s := ClampSpin(maxDir);
    SiteGrouping(s, Range1(s), labels, counters)
  }

  /** Unlike the other pool updates, the template's pool keeps directions
      that its groups already hold: a grouped direction within range is in
      both the pool and a group. */
  lemma ApplyTemplatePoolOverlap(spin: nat, labels: seq<string>, counters: seq<CounterRow>, d: nat)
    requires 1 <= spin <= 40
    requires d in Used(labels) && 1 <= d <= ApplyTemplate(spin, labels, counters).spin
    ensures d in ApplyTemplate(spin, labels, counters).pool
    ensures d in Used(ApplyTemplate(spin, labels, counters).groups)
  {
    var r := ApplyTemplate(spin, labels, counters);
    assert r.pool[d - 1] == d;
  }

  /** The template applied with the pool rebuilt from its groups, as the other
      pool updates keep it. */
  function ApplyTemplateRebuilt(spin: nat, labels: seq<string>, counters: seq<CounterRow>): (r: SiteGrouping)
    requires 1 <= spin <= 40
    ensures r.spin == ApplyTemplate(spin, labels, counters).spin
    ensures r.groups == labels && r.counters == counters
    ensures forall d :: d in r.pool ==> d !in Used(r.groups)
    ensures forall d :: 1 <= d <= r.spin ==> (d in r.pool || d in Used(r.groups))
  {
    var a := ApplyTemplate(spin, labels, counters);
    a.(pool := RebuildPool(a.spin, labels))
  }
}

=== FILE: hotkeys.dfy ===
/** The hotkey sheet registry of a vehicle-type project: an ordered list of
    counter sheets, each a name and a table of (order number, vehicle name,
    shortcut) items, plus the two mirrors of sheet 0 that the rest of the
    program reads (the item list and a vehicle-name to shortcut map). */
module HotkeySheets {
  import opened Common
  import opened Digits

  datatype HotkeyItem = HotkeyItem(seqNo: nat, vehicleName: string, shortcut: string)

  datatype Sheet = Sheet(name: string, items: seq<HotkeyItem>)

  /** The hotkey side of a project: its vehicle set (the vehicle names, in
      order), its sheets, and the mirrors of the first sheet. */
  datatype HotkeyProject = HotkeyProject(
    vehicles: seq<string>,
    sheets: seq<Sheet>,
    mirrorItems: seq<HotkeyItem>,
    mirrorKeys: map<string, string>)

  /** One row of the sheet editor as its name and shortcut cells read; an
      absent cell reads as "". */
  datatype EditorRow = EditorRow(name: string, key: string)

  /** A fresh sheet's items: one per vehicle, numbered from 1, no shortcut. */
  function SeedItems(vehicles: seq<string>): (items: seq<HotkeyItem>)
    ensures |items| == |vehicles|
    ensures forall i :: 0 <= i < |items| ==> items[i] == HotkeyItem(i + 1, vehicles[i], "")
  {
    seq(|vehicles|, i requires 0 <= i < |vehicles| => HotkeyItem(i + 1, vehicles[i], ""))
  }

  /** `_ensure_first`: a project without sheets gets sheet "1" seeded from its
      vehicle set; a project with sheets is left alone. */
  function EnsureFirst(p: HotkeyProject): (r: HotkeyProject)
    ensures |r.sheets| >= 1
    ensures p.sheets != [] ==> r == p
    ensures p.sheets == [] ==> r == p.(sheets := [Sheet("1", SeedItems(p.vehicles))])
  {
    if p.sheets != [] then p else p.(sheets := [Sheet("1", SeedItems(p.vehicles))])
  }

  /** `add_counter`: a new sheet named one past the sheet count, seeded from
      the vehicle set, goes at the end. */
  function AddCounter(p: HotkeyProject): (r: HotkeyProject)
    ensures |r.sheets| == |p.sheets| + 1
    ensures r.sheets[..|p.sheets|] == p.sheets
    ensures r.sheets[|p.sheets|].items == SeedItems(p.vehicles)
    ensures IsDigitString(r.sheets[|p.sheets|].name) && ParseDigits(r.sheets[|p.sheets|].name) == |p.sheets| + 1
    ensures r.vehicles == p.vehicles && r.mirrorItems == p.mirrorItems && r.mirrorKeys == p.mirrorKeys
  {
    ParseNatToString(|p.sheets| + 1);
    var sheets := p.sheets + [Sheet(NatToString(|p.sheets| + 1), SeedItems(p.vehicles))];
    assert sheets[..|p.sheets|] == p.sheets;
    p.(sheets := sheets)
  }

  /** The name a sheet gets at 0-based position `j` after a delete: an
      all-digit name becomes `j + 1`, any other name stays. */
  function RenumberedName(name: string, j: nat): string
  {
    if IsDigitString(name) then NatToString(j + 1) else name
  }

  /** `del_counter` (confirmed): sheet `i` is removed and the all-digit names
      are rewritten to their new 1-based positions. An index outside the list
      changes nothing. */
  function DelCounter(sheets: seq<Sheet>, i: int): (r: seq<Sheet>)
    ensures !(0 <= i < |sheets|) ==> r == sheets
    ensures 0 <= i < |sheets| ==> |r| == |sheets| - 1
    ensures 0 <= i < |sheets| ==> forall j :: 0 <= j < |r| ==>
      var old_ := if j < i then sheets[j] else sheets[j + 1];
      r[j] == Sheet(RenumberedName(old_.name, j), old_.items)
  {
    if !(0 <= i < |sheets|) then sheets
    else
      var rest := sheets[..i] + sheets[i + 1..];
      seq(|rest|, j requires 0 <= j < |rest| => Sheet(RenumberedName(rest[j].name, j), rest[j].items))
  }

  /** Names follow the default scheme: every all-digit name is its sheet's
      1-based position. */
  predicate DefaultNamed(sheets: seq<Sheet>)
  {
    forall j :: 0 <= j < |sheets| && IsDigitString(sheets[j].name) ==> sheets[j].name == NatToString(j + 1)
  }

  /** After a delete the default naming holds again, whatever the names were;
      names that are not all digits are kept. */
  lemma DelCounterNames(sheets: seq<Sheet>, i: int)
    requires 0 <= i < |sheets|
    ensures DefaultNamed(DelCounter(sheets, i))
    ensures forall j :: 0 <= j < |DelCounter(sheets, i)| && !IsDigitString(DelCounter(sheets, i)[j].name) ==>
      DelCounter(sheets, i)[j].name == (if j < i then sheets[j] else sheets[j + 1]).name
  {
    var r := DelCounter(sheets, i);
    forall j | 0 <= j < |r| ensures r[j].name == RenumberedName((if j < i then sheets[j] else sheets[j + 1]).name, j) {
    }
  }

  /** Adding keeps the default naming, and the new sheet's name is new. */
  lemma AddCounterNames(p: HotkeyProject)
    requires DefaultNamed(p.sheets)
    ensures DefaultNamed(AddCounter(p).sheets)
    ensures forall j :: 0 <= j < |p.sheets| ==> p.sheets[j].name != AddCounter(p).sheets[|p.sheets|].name
  {
    var n := |p.sheets|;
    var r := AddCounter(p).sheets;
    forall j | 0 <= j < |r| && IsDigitString(r[j].name) ensures r[j].name == NatToString(j + 1) {
      if j < n {
        assert r[j] == p.sheets[j];
      }
    }
    forall j | 0 <= j < n ensures p.sheets[j].name != r[n].name {
      if IsDigitString(p.sheets[j].name) {
        NatToStringInjective(j + 1, n + 1);
      }
    }
  }

  /** The editor rows with every cell stripped. */
  function Cleaned(rows: seq<EditorRow>): (c: seq<EditorRow>)
    ensures |c| == |rows|
    ensures forall k :: 0 <= k < |c| ==> c[k] == EditorRow(Strip(rows[k].name), Strip(rows[k].key))
  {
    seq(|rows|, k requires 0 <= k < |rows| => EditorRow(Strip(rows[k].name), Strip(rows[k].key)))
  }

  /** Item `it` is the row its number names (counting rows from r0 + 1),
      with that row's name and key. */
  predicate FromRow(rows: seq<EditorRow>, r0: nat, it: HotkeyItem)
  {
    r0 < it.seqNo <= r0 + |rows| && rows[it.seqNo - r0 - 1].name != ""
    && it.vehicleName == rows[it.seqNo - r0 - 1].name && it.shortcut == rows[it.seqNo - r0 - 1].key
  }

  lemma FromRowTail(rows: seq<EditorRow>, r0: nat, it: HotkeyItem)
    requires rows != [] && FromRow(rows[1..], r0 + 1, it)
    ensures FromRow(rows, r0, it)
  {
    assert rows[1..][it.seqNo - r0 - 2] == rows[it.seqNo - r0 - 1];
  }

  /** The items of already-stripped rows: rows with an empty name are
      skipped, the others keep their table row number (so gaps are possible). */
  function Keep(rows: seq<EditorRow>, r0: nat): (items: seq<HotkeyItem>)
    ensures |items| <= |rows|
    ensures forall k :: 0 <= k < |items| ==> items[k].vehicleName != "" && r0 + 1 <= items[k].seqNo <= r0 + |rows|
    ensures forall k, l :: 0 <= k < l < |items| ==> items[k].seqNo < items[l].seqNo
    decreases |rows|
  {
    if rows == [] then []
    else
      var rest := Keep(rows[1..], r0 + 1);
      if rows[0].name != "" then [HotkeyItem(r0 + 1, rows[0].name, rows[0].key)] + rest else rest
  }

  /** Each kept item is the row its number names, with that row's name and key. */
  lemma {:induction false} KeepFromRows(rows: seq<EditorRow>, r0: nat)
    ensures forall k :: 0 <= k < |Keep(rows, r0)| ==> FromRow(rows, r0, Keep(rows, r0)[k])
    decreases |rows|
  {
    if rows != [] {
      var rest := Keep(rows[1..], r0 + 1);
      KeepFromRows(rows[1..], r0 + 1);
      forall k | 0 <= k < |rest| ensures FromRow(rows, r0, rest[k]) {
        FromRowTail(rows, r0, rest[k]);
      }
      var items := Keep(rows, r0);
      forall k | 0 <= k < |items| ensures FromRow(rows, r0, items[k]) {
        if rows[0].name != "" {
          if k > 0 { assert items[k] == rest[k - 1]; }
        } else {
          assert items[k] == rest[k];
        }
      }
    }
  }

  /** `persist_current`'s item list: one item per row whose stripped name is
      non-empty, numbered by its 1-based table row, name and shortcut
      stripped. */
  function ItemsOfRows(rows: seq<EditorRow>): seq<HotkeyItem>
  {
    Keep(Cleaned(rows), 0)
  }

  /** A saved item's name and shortcut carry no surrounding whitespace, and
      its name is not blank. */
  predicate CleanItem(it: HotkeyItem)
  {
    Strip(it.vehicleName) == it.vehicleName != "" && Strip(it.shortcut) == it.shortcut
  }

  predicate CleanRows(rows: seq<EditorRow>)
  {
    forall k :: 0 <= k < |rows| ==> Strip(rows[k].name) == rows[k].name && Strip(rows[k].key) == rows[k].key
  }

  lemma CleanedClean(rows: seq<EditorRow>)
    ensures CleanRows(Cleaned(rows))
  {
    forall k | 0 <= k < |rows| ensures Strip(Strip(rows[k].name)) == Strip(rows[k].name) && Strip(Strip(rows[k].key)) == Strip(rows[k].key) {
      StripIdempotent(rows[k].name);
      StripIdempotent(rows[k].key);
    }
  }

  lemma {:induction false} KeepClean(rows: seq<EditorRow>, r0: nat)
    requires CleanRows(rows)
    ensures forall k :: 0 <= k < |Keep(rows, r0)| ==> CleanItem(Keep(rows, r0)[k])
    decreases |rows|
  {
    if rows != [] {
      assert CleanRows(rows[1..]) by {
        forall k | 0 <= k < |rows[1..]| ensures rows[1..][k] == rows[k + 1] { }
      }
      KeepClean(rows[1..], r0 + 1);
    }
  }

  /** Every saved item is clean: stripped, with a non-blank name. */
  lemma ItemsOfRowsClean(rows: seq<EditorRow>)
    ensures forall k :: 0 <= k < |ItemsOfRows(rows)| ==> CleanItem(ItemsOfRows(rows)[k])
  {
    CleanedClean(rows);
    KeepClean(Cleaned(rows), 0);
  }

  lemma {:induction false} KeepComplete(rows: seq<EditorRow>, r0: nat, r: nat) returns (k: nat)
    requires r < |rows| && rows[r].name != ""
    ensures k < |Keep(rows, r0)|
    ensures Keep(rows, r0)[k] == HotkeyItem(r0 + r + 1, rows[r].name, rows[r].key)
    decreases r
  {
    if r == 0 {
      k := 0;
    } else {
      var tail := rows[1..];
      assert tail[r - 1] == rows[r];
      var k' := KeepComplete(tail, r0 + 1, r - 1);
      k := if rows[0].name != "" then k' + 1 else k';
    }
  }

  /** Each row with a non-blank stripped name is saved, with its row number. */
  lemma ItemsOfRowsComplete(rows: seq<EditorRow>, r: nat)
    requires r < |rows| && Strip(rows[r].name) != ""
    ensures HotkeyItem(r + 1, Strip(rows[r].name), Strip(rows[r].key)) in ItemsOfRows(rows)
  {
    var c := Cleaned(rows);
    assert c[r] == EditorRow(Strip(rows[r].name), Strip(rows[r].key));
    var k := KeepComplete(c, 0, r);
    assert ItemsOfRows(rows)[k] == HotkeyItem(r + 1, c[r].name, c[r].key);
  }

  /** Each saved item is the editor row its 순번 names, stripped, with a
      non-blank name. */
  lemma ItemsOfRowsSound(rows: seq<EditorRow>)
    ensures forall k :: 0 <= k < |ItemsOfRows(rows)| ==>
      1 <= ItemsOfRows(rows)[k].seqNo <= |rows|
      && Strip(rows[ItemsOfRows(rows)[k].seqNo - 1].name) != ""
      && ItemsOfRows(rows)[k] == HotkeyItem(ItemsOfRows(rows)[k].seqNo, Strip(rows[ItemsOfRows(rows)[k].seqNo - 1].name),
                                            Strip(rows[ItemsOfRows(rows)[k].seqNo - 1].key))
  {
    KeepFromRows(Cleaned(rows), 0);
  }

  predicate HasName(items: seq<HotkeyItem>, k: string)
  {
    exists i :: 0 <= i < |items| && items[i].vehicleName == k
  }

  lemma HasNameSnoc(items: seq<HotkeyItem>, k: string)
    requires items != []
    ensures HasName(items, k) <==> HasName(items[..|items| - 1], k) || items[|items| - 1].vehicleName == k
  {
    var init := items[..|items| - 1];
    if HasName(items, k) {
      var i :| 0 <= i < |items| && items[i].vehicleName == k;
      if i < |init| { assert init[i] == items[i]; }
    }
    if HasName(init, k) {
      var i :| 0 <= i < |init| && init[i].vehicleName == k;
      assert items[i] == init[i];
    }
  }

  /** The shortcut map built left to right: a later item with the same
      vehicle name overwrites an earlier one. */
  function KeyMap(items: seq<HotkeyItem>): (m: map<string, string>)
    ensures forall k :: k in m <==> HasName(items, k)
  {
    if items == [] then map[]
    else
      var last := items[|items| - 1];
      var m := KeyMap(items[..|items| - 1]);
      assert forall k :: HasName(items, k) <==> HasName(items[..|items| - 1], k) || k == last.vehicleName by {
        forall k ensures HasName(items, k) <==> HasName(items[..|items| - 1], k) || k == last.vehicleName {
          HasNameSnoc(items, k);
        }
      }
      m[last.vehicleName := last.shortcut]
  }

  /** The map's shortcut for a vehicle is the one on that vehicle's last item. */
  lemma {:induction false} KeyMapLastWins(items: seq<HotkeyItem>, i: nat)
    requires i < |items|
    requires forall j :: i < j < |items| ==> items[j].vehicleName != items[i].vehicleName
    ensures items[i].vehicleName in KeyMap(items)
    ensures KeyMap(items)[items[i].vehicleName] == items[i].shortcut
    decreases |items|
  {
    if i < |items| - 1 {
      var init := items[..|items| - 1];
      assert init[i] == items[i];
      KeyMapLastWins(init, i);
    }
  }

  /** `persist_current` on sheet `i`: the sheet's items are rebuilt from the
      editor rows; when `i` is the first sheet both mirrors are refreshed. An
      index outside the list changes nothing. */
  function Persist(p: HotkeyProject, i: int, rows: seq<EditorRow>): (r: HotkeyProject)
    ensures !(0 <= i < |p.sheets|) ==> r == p
    ensures 0 <= i < |p.sheets| ==>
      |r.sheets| == |p.sheets|
      && r.sheets[i] == Sheet(p.sheets[i].name, ItemsOfRows(rows))
      && (forall j :: 0 <= j < |p.sheets| && j != i ==> r.sheets[j] == p.sheets[j])
      && r.vehicles == p.vehicles
    ensures i == 0 && |p.sheets| > 0 ==>
      r.mirrorItems == r.sheets[0].items && r.mirrorKeys == KeyMap(r.sheets[0].items)
    ensures 0 < i < |p.sheets| ==> r.mirrorItems == p.mirrorItems && r.mirrorKeys == p.mirrorKeys
  {
    if !(0 <= i < |p.sheets|) then p
    else
      var items := ItemsOfRows(rows);
      var q := p.(sheets := p.sheets[i := Sheet(p.sheets[i].name, items)]);
      if i == 0 then q.(mirrorItems := items, mirrorKeys := KeyMap(items)) else q
  }

  /** `load_counter`: a sheet's items shown as editor rows. */
  function RowsOfItems(items: seq<HotkeyItem>): (rows: seq<EditorRow>)
    ensures |rows| == |items|
    ensures forall k :: 0 <= k < |rows| ==> rows[k] == EditorRow(items[k].vehicleName, items[k].shortcut)
  {
    seq(|items|, k requires 0 <= k < |items| => EditorRow(items[k].vehicleName, items[k].shortcut))
  }

  /** A first row with a name becomes the first item. */
  lemma KeepNamedHead(rows: seq<EditorRow>, r0: nat)
    requires rows != [] && rows[0].name != ""
    ensures Keep(rows, r0) == [HotkeyItem(r0 + 1, rows[0].name, rows[0].key)] + Keep(rows[1..], r0 + 1)
  {
  }

  lemma {:induction false} KeepReload(items: seq<HotkeyItem>, r0: nat)
    requires forall k :: 0 <= k < |items| ==> items[k].vehicleName != ""
    ensures |Keep(RowsOfItems(items), r0)| == |items|
    ensures forall k :: 0 <= k < |items| ==> Keep(RowsOfItems(items), r0)[k] == items[k].(seqNo := r0 + k + 1)
    decreases |items|
  {
    if items != [] {
      var rows := RowsOfItems(items);
      var tail := RowsOfItems(items[1..]);
      assert forall k :: 0 <= k < |tail| ==> rows[1..][k] == tail[k];
      assert rows[1..] == tail;
      KeepReload(items[1..], r0 + 1);
      var rest := Keep(tail, r0 + 1);
      KeepNamedHead(rows, r0);
      var out := Keep(rows, r0);
      assert out == [items[0].(seqNo := r0 + 1)] + rest;
      forall k | 0 <= k < |items| ensures out[k] == items[k].(seqNo := r0 + k + 1) {
        if k > 0 {
          assert out[k] == rest[k - 1];
        }
      }
    }
  }

  /** Showing a saved sheet and saving it again keeps every item and only
      closes the gaps in the order numbers: item k becomes number k + 1. */
  lemma PersistReload(items: seq<HotkeyItem>)
    requires forall k :: 0 <= k < |items| ==> CleanItem(items[k])
    ensures |ItemsOfRows(RowsOfItems(items))| == |items|
    ensures forall k :: 0 <= k < |items| ==> ItemsOfRows(RowsOfItems(items))[k] == items[k].(seqNo := k + 1)
  {
    var rows := RowsOfItems(items);
    assert Cleaned(rows) == rows;
    KeepReload(items, 0);
  }

  /** `rename_counter` (accepted dialog): a non-blank stripped text renames
      sheet `i`; a blank text or an index outside the list changes nothing. */
  function RenameCounter(sheets: seq<Sheet>, i: int, text: string): (r: seq<Sheet>)
    ensures !(0 <= i < |sheets|) || Strip(text) == "" ==> r == sheets
    ensures 0 <= i < |sheets| && Strip(text) != "" ==>
      |r| == |sheets| && r[i] == sheets[i].(name := Strip(text))
      && forall j :: 0 <= j < |sheets| && j != i ==> r[j] == sheets[j]
  {
    if !(0 <= i < |sheets|) || Strip(text) == "" then sheets
    else sheets[i := sheets[i].(name := Strip(text))]
  }

  /** A rename can break the default naming: adding after a sheet was renamed
      to the next number yields two sheets with the same name. */
  lemma RenameThenAddCollides(p: HotkeyProject)
    requires |p.sheets| == 1
    ensures var r := AddCounter(p.(sheets := RenameCounter(p.sheets, 0, "2")));
            r.sheets[0].name == r.sheets[1].name == "2"
  {
    assert Strip("2") == "2" by { StripNoSpace("2"); }
    var renamed := RenameCounter(p.sheets, 0, "2");
    assert renamed[0].name == "2";
    assert NatToString(2) == [DigitChar(2)] == "2";
    var r := AddCounter(p.(sheets := renamed));
    assert r.sheets[0] == renamed[0];
    assert r.sheets[1].name == NatToString(2);
  }

  /** Where the selection goes after deleting sheet `i` of `n`: the sheet just
      above (or the first), clamped to the shortened list. */
  function SelectionAfterDelete(i: int, n: nat): (r: Option<nat>)
    ensures n == 0 ==> r == None
    ensures n > 0 ==> r.Some? && r.value < n
    ensures n > 0 && 1 <= i <= n ==> r == Some(i - 1)
    ensures n > 0 && i <= 0 ==> r == Some(0)
    ensures n > 0 && i > n ==> r == Some(n - 1)
  {
    if n == 0 then None
    else
      var pref := i - 1;
      Some(if pref < 0 then 0 else if pref > n - 1 then n - 1 else pref)
  }

  /** The list is reloaded after a delete, and reloading seeds a fresh sheet
      "1" when none is left: deleting the only sheet leaves a new default
      sheet in its place, while deleting from a longer list adds nothing. */
  lemma DeleteThenReload(p: HotkeyProject, i: int)
    requires 0 <= i < |p.sheets|
    ensures |p.sheets| == 1 ==>
      EnsureFirst(p.(sheets := DelCounter(p.sheets, i))).sheets == [Sheet("1", SeedItems(p.vehicles))]
    ensures |p.sheets| > 1 ==>
      EnsureFirst(p.(sheets := DelCounter(p.sheets, i))).sheets == DelCounter(p.sheets, i)
  {
  }
}

=== FILE: identifiers.dfy ===
/** Identifiers the program mints. A survey's serial number (`next_sn`) and a
    site's work number (`_next_job_no`) are read off the wall clock, which is
    a parameter here; duplicating a survey (`dup_survey`) gives the copied
    sites fresh sequential work numbers "WN_0001", "WN_0002", … above every
    numbered one already in the store. */
module Identifiers {
  import opened Common
  import opened Digits
  import opened Calendar
  import SiteList

  // ---------------------------------------------------------------------
  // Fixed-width numeric fields.

  function Sum(ws: seq<nat>): nat
  {
    if ws == [] then 0 else ws[0] + Sum(ws[1..])
  }

  /** Each value fits its field: `width` digits hold it without overflow. */
  predicate Fits(vals: seq<nat>, widths: seq<nat>)
  {
    |vals| == |widths| && forall i :: 0 <= i < |vals| ==> 1 <= widths[i] && vals[i] < Pow10(widths[i])
  }

  /** The values written one after another, each zero-padded to its width
      (what `strftime`'s `%m`, `%d`, … and `f"{v:02d}"` produce). */
  function Fields(vals: seq<nat>, widths: seq<nat>): string
    requires |vals| == |widths|
  {
    if vals == [] then "" else PadNat(vals[0], widths[0]) + Fields(vals[1..], widths[1..])
  }

  /** Reads consecutive fields of the given widths back as numbers. */
  function ReadFields(s: string, widths: seq<nat>): (vals: seq<nat>)
    requires AllDigits(s)
    ensures |vals| == |widths|
  {
    if widths == [] then []
    else
      var w := if widths[0] <= |s| then widths[0] else |s|;
      [ParseDigits(s[..w])] + ReadFields(s[w..], widths[1..])
  }

  /** Fields that fit are all digits, as long as their widths together,
      and read back as the values written. */
  lemma {:induction false} FieldsRoundTrip(vals: seq<nat>, widths: seq<nat>)
    requires Fits(vals, widths)
    ensures AllDigits(Fields(vals, widths))
    ensures |Fields(vals, widths)| == Sum(widths)
    ensures ReadFields(Fields(vals, widths), widths) == vals
  {
    if vals != [] {
      assert Fits(vals[1..], widths[1..]) by {
        forall i | 0 <= i < |vals[1..]| ensures 1 <= widths[1..][i] && vals[1..][i] < Pow10(widths[1..][i]) {
          assert vals[1..][i] == vals[i + 1] && widths[1..][i] == widths[i + 1];
        }
      }
      FieldsRoundTrip(vals[1..], widths[1..]);
      var p := PadNat(vals[0], widths[0]);
      var rest := Fields(vals[1..], widths[1..]);
      PadNatExact(vals[0], widths[0]);
      AllDigitsAppend(p, rest);
      assert (p + rest)[..widths[0]] == p;
      assert (p + rest)[widths[0]..] == rest;
    }
  }

  /** Digit text that reads back the same under the same widths was written
      from the same values. */
  lemma FieldsInjective(a: seq<nat>, b: seq<nat>, widths: seq<nat>)
    requires Fits(a, widths) && Fits(b, widths)
    ensures Fields(a, widths) == Fields(b, widths) <==> a == b
  {
    FieldsRoundTrip(a, widths);
    FieldsRoundTrip(b, widths);
  }

  // ---------------------------------------------------------------------
  // Clock-based identifiers.

  /** `int(now.microsecond / 10000)`: hundredths of a second. The quotient
      of two small non-negative numbers, truncated, is the floor quotient. */
  function Centis(t: DateTime): (c: nat)
    ensures c < 100 && c * 10000 <= t.microsecond < (c + 1) * 10000
  {
    t.microsecond / 10000
  }

  const SnWidths: seq<nat> := [4, 2, 2, 2, 2, 2, 2]
  const JobWidths: seq<nat> := [2, 2, 2, 2, 2, 2, 2]

  /** The clock fields a serial number spells: `%Y%m%d%H%M%S` and the
      hundredths. */
  function SnValues(t: DateTime): seq<nat>
  {
    [t.year, t.month, t.day, t.hour, t.minute, t.second, Centis(t)]
  }

  /** The clock fields a work number spells: `%y` (year of the century)
      `%m%d%H%M%S` and the hundredths. */
  function JobValues(t: DateTime): seq<nat>
  {
    [t.year % 100, t.month, t.day, t.hour, t.minute, t.second, Centis(t)]
  }

  lemma ClockFits(t: DateTime)
    ensures Fits(SnValues(t), SnWidths) && Sum(SnWidths) == 16
    ensures Fits(JobValues(t), JobWidths) && Sum(JobWidths) == 14
  {
    Pow10Values();
  }

  /** `next_sn`: "SN_" followed by sixteen digits. */
  function NextSn(t: DateTime): (sn: string)
    ensures |sn| == 19 && sn[..3] == "SN_" && AllDigits(sn[3..])
  {
    ClockFits(t);
    FieldsRoundTrip(SnValues(t), SnWidths);
    var body := Fields(SnValues(t), SnWidths);
    assert ("SN_" + body)[3..] == body;
    "SN_" + body
  }

  /** `_next_job_no`: "WN_" followed by fourteen digits. */
  function NextJobNo(t: DateTime): (jn: string)
    ensures |jn| == 17 && jn[..3] == "WN_" && AllDigits(jn[3..])
  {
    ClockFits(t);
    FieldsRoundTrip(JobValues(t), JobWidths);
    var body := Fields(JobValues(t), JobWidths);
    assert ("WN_" + body)[3..] == body;
    "WN_" + body
  }

  /** Reads a serial number back into its clock fields. */
  function ParseSn(s: string): Option<seq<nat>>
  {
    if |s| == 19 && s[..3] == "SN_" && AllDigits(s[3..]) then Some(ReadFields(s[3..], SnWidths)) else None
  }

  /** Reads a clock-issued work number back into its clock fields. */
  function ParseJobNo(s: string): Option<seq<nat>>
  {
    if |s| == 17 && s[..3] == "WN_" && AllDigits(s[3..]) then Some(ReadFields(s[3..], JobWidths)) else None
  }

  lemma SnRoundTrip(t: DateTime)
    ensures ParseSn(NextSn(t)) == Some(SnValues(t))
  {
    ClockFits(t);
    FieldsRoundTrip(SnValues(t), SnWidths);
    assert NextSn(t)[3..] == Fields(SnValues(t), SnWidths);
  }

  lemma JobNoRoundTrip(t: DateTime)
    ensures ParseJobNo(NextJobNo(t)) == Some(JobValues(t))
  {
    ClockFits(t);
    FieldsRoundTrip(JobValues(t), JobWidths);
    assert NextJobNo(t)[3..] == Fields(JobValues(t), JobWidths);
  }

  /** Two clock readings give the same serial number exactly when they agree
      down to the hundredth of a second: nothing else keeps serial numbers
      apart. */
  lemma SnCollides(a: DateTime, b: DateTime)
    ensures NextSn(a) == NextSn(b) <==> SnValues(a) == SnValues(b)
  {
    SnRoundTrip(a);
    SnRoundTrip(b);
  }

  /** Two clock readings give the same work number exactly when they agree
      on the year of the century and everything below it, down to the
      hundredth of a second; readings a hundred years apart collide. */
  lemma JobNoCollides(a: DateTime, b: DateTime)
    ensures NextJobNo(a) == NextJobNo(b) <==> JobValues(a) == JobValues(b)
  {
    JobNoRoundTrip(a);
    JobNoRoundTrip(b);
  }

  // ---------------------------------------------------------------------
  // Work-number reassignment when a survey is duplicated.

  /** The number after "WN_" when the rest is one or more ASCII digits. */
  function WnTail(jid: string): (r: Option<nat>)
    ensures r.Some? <==> |jid| >= 3 && jid[..3] == "WN_" && IsDigitString(jid[3..])
    ensures r.Some? ==> r.value == ParseDigits(jid[3..])
  {
    if |jid| >= 3 && jid[..3] == "WN_" && IsDigitString(jid[3..]) then Some(ParseDigits(jid[3..])) else None
  }

  /** `f"WN_{n:04d}"`. */
  function WorkNo(n: nat): (w: string)
    ensures WnTail(w) == Some(n)
  {
    var digits := PadNat(n, 4);
    assert ("WN_" + digits)[3..] == digits;
    "WN_" + digits
  }

  /** A clock-issued work number also has an all-digit tail, so it takes
      part in the numbering of duplicated sites. */
  lemma ClockJobNoNumbered(t: DateTime)
    ensures WnTail(NextJobNo(t)).Some?
  {
  }

  /** A survey of the store: its serial number and its site records. */
  datatype Survey = Survey(sn: string, sites: seq<SiteList.SiteRecord>)

  /** Every site's 작업번호 in the store, survey by survey. */
  function AllJobNos(surveys: seq<Survey>): (ids: seq<string>)
    ensures forall s, k :: 0 <= s < |surveys| && 0 <= k < |surveys[s].sites| ==> surveys[s].sites[k].jobNo in ids
  {
    if surveys == [] then []
    else
      var last := surveys[|surveys| - 1];
      var before := AllJobNos(surveys[..|surveys| - 1]);
      var ids := before + seq(|last.sites|, k requires 0 <= k < |last.sites| => last.sites[k].jobNo);
      assert forall s, k :: 0 <= s < |surveys| - 1 && 0 <= k < |surveys[s].sites| ==> surveys[s].sites[k].jobNo in ids by {
        forall s, k | 0 <= s < |surveys| - 1 && 0 <= k < |surveys[s].sites|
          ensures surveys[s].sites[k].jobNo in ids
        {
          assert surveys[..|surveys| - 1][s] == surveys[s];
        }
      }
      assert forall k :: 0 <= k < |last.sites| ==> last.sites[k].jobNo == ids[|before| + k];
      ids
  }

  /** The numbers the numbered work ids carry, in order. */
  function Tails(ids: seq<string>): (ns: seq<nat>)
    ensures forall i :: 0 <= i < |ids| && WnTail(ids[i]).Some? ==> WnTail(ids[i]).value in ns
    ensures forall n :: n in ns ==> exists i :: 0 <= i < |ids| && WnTail(ids[i]) == Some(n)
  {
    if ids == [] then []
    else
      var rest := Tails(ids[1..]);
      var ns := match WnTail(ids[0]) case Some(n) => [n] + rest case None => rest;
      assert forall i :: 1 <= i < |ids| ==> ids[i] == ids[1..][i - 1];
      assert forall n :: n in ns ==> exists i :: 0 <= i < |ids| && WnTail(ids[i]) == Some(n) by {
        forall n | n in ns ensures exists i :: 0 <= i < |ids| && WnTail(ids[i]) == Some(n) {
          if n in rest {
            var i :| 0 <= i < |ids[1..]| && WnTail(ids[1..][i]) == Some(n);
            assert WnTail(ids[i + 1]) == Some(n);
          } else {
            assert WnTail(ids[0]) == Some(n);
          }
        }
      }
      ns
  }

  function MaxNat(ns: seq<nat>): (m: nat)
    requires ns != []
    ensures m in ns && forall x :: x in ns ==> x <= m
  {
    if |ns| == 1 then ns[0]
    else
      var r := MaxNat(ns[1..]);
      assert forall x :: x in ns ==> x == ns[0] || x in ns[1..];
      if ns[0] >= r then ns[0] else r
  }

  /** `max(nums) + 1 if nums else 1`. */
  function StartNo(ids: seq<string>): (n: nat)
    ensures n >= 1
    ensures forall i :: 0 <= i < |ids| && WnTail(ids[i]).Some? ==> WnTail(ids[i]).value < n
    ensures n > 1 ==> exists i :: 0 <= i < |ids| && WnTail(ids[i]) == Some(n - 1)
  {
    var ns := Tails(ids);
    if ns == [] then 1 else MaxNat(ns) + 1
  }

  /** The copied sites, the k-th one numbered `n + k`; nothing else of a
      site changes. */
  function Renumber(sites: seq<SiteList.SiteRecord>, n: nat): (r: seq<SiteList.SiteRecord>)
    ensures |r| == |sites|
    ensures forall k :: 0 <= k < |r| ==> r[k] == sites[k].(jobNo := WorkNo(n + k))
  {
    seq(|sites|, k requires 0 <= k < |sites| => sites[k].(jobNo := WorkNo(n + k)))
  }

  /** `dup_survey`: a deep copy of the current survey is appended, its sites
      renumbered from above the largest numbered work id in the store. The
      copy keeps the original's serial number. Without a current survey
      nothing happens. */
  function DupSurvey(surveys: seq<Survey>, cur: Option<nat>): (r: seq<Survey>)
    ensures cur.None? || cur.value >= |surveys| ==> r == surveys
    ensures cur.Some? && cur.value < |surveys| ==>
              |r| == |surveys| + 1 && r[..|surveys|] == surveys
              && r[|surveys|].sn == surveys[cur.value].sn
              && |r[|surveys|].sites| == |surveys[cur.value].sites|
  {
    if cur.None? || cur.value >= |surveys| then surveys
    else
      var c := surveys[cur.value];
      surveys + [Survey(c.sn, Renumber(c.sites, StartNo(AllJobNos(surveys))))]
  }

  /** The work numbers of the copy are consecutive from one above the
      largest numbered id already stored, pairwise distinct, and distinct
      from every work number the store held before. */
  lemma {:induction false} DupSurveyFresh(surveys: seq<Survey>, cur: nat)
    requires cur < |surveys|
    ensures var copy := DupSurvey(surveys, Some(cur))[|surveys|].sites;
            var n := StartNo(AllJobNos(surveys));
            && (forall k :: 0 <= k < |copy| ==> WnTail(copy[k].jobNo) == Some(n + k))
            && (forall j, k :: 0 <= j < k < |copy| ==> copy[j].jobNo != copy[k].jobNo)
            && (forall k, s, m :: 0 <= k < |copy| && 0 <= s < |surveys| && 0 <= m < |surveys[s].sites|
                  ==> copy[k].jobNo != surveys[s].sites[m].jobNo)
  {
    var ids := AllJobNos(surveys);
    var n := StartNo(ids);
    var sites := surveys[cur].sites;
    var copy := DupSurvey(surveys, Some(cur))[|surveys|].sites;
    DupSurveyCopy(surveys, cur);
    RenumberNumbered(sites, n);
    RenumberFresh(sites, n, ids);
    forall k, s, m | 0 <= k < |copy| && 0 <= s < |surveys| && 0 <= m < |surveys[s].sites|
      ensures copy[k].jobNo != surveys[s].sites[m].jobNo
    {
      assert surveys[s].sites[m].jobNo in ids;
      assert copy[k].jobNo !in ids;
    }
  }

  /** The appended survey's sites are the current survey's, renumbered. */
  lemma DupSurveyCopy(surveys: seq<Survey>, cur: nat)
    requires cur < |surveys|
    ensures DupSurvey(surveys, Some(cur))[|surveys|].sites
            == Renumber(surveys[cur].sites, StartNo(AllJobNos(surveys)))
  {
    var c := surveys[cur];
    var r := surveys + [Survey(c.sn, Renumber(c.sites, StartNo(AllJobNos(surveys))))];
    assert DupSurvey(surveys, Some(cur)) == r;
    assert r[|surveys|].sites == Renumber(c.sites, StartNo(AllJobNos(surveys)));
  }

  /** Renumbered sites carry the numbers `n`, `n + 1`, ... and so pairwise
      different work ids. */
  lemma {:induction false} RenumberNumbered(sites: seq<SiteList.SiteRecord>, n: nat)
    ensures forall k :: 0 <= k < |sites| ==> WnTail(Renumber(sites, n)[k].jobNo) == Some(n + k)
    ensures forall j, k :: 0 <= j < k < |sites| ==> Renumber(sites, n)[j].jobNo != Renumber(sites, n)[k].jobNo
  {
    var r := Renumber(sites, n);
    forall k | 0 <= k < |r| ensures WnTail(r[k].jobNo) == Some(n + k) {
      assert r[k].jobNo == WorkNo(n + k);
    }
    forall j, k | 0 <= j < k < |r| ensures r[j].jobNo != r[k].jobNo {
      assert WnTail(r[j].jobNo) == Some(n + j);
    }
  }

  /** Numbers from `n` on are not among ids whose numbers all lie below `n`. */
  lemma {:induction false} RenumberFresh(sites: seq<SiteList.SiteRecord>, n: nat, ids: seq<string>)
    requires forall i :: 0 <= i < |ids| && WnTail(ids[i]).Some? ==> WnTail(ids[i]).value < n
    ensures forall k :: 0 <= k < |sites| ==> Renumber(sites, n)[k].jobNo !in ids
  {
    var r := Renumber(sites, n);
    forall k, i | 0 <= k < |r| && 0 <= i < |ids| ensures r[k].jobNo != ids[i] {
      assert WnTail(r[k].jobNo) == Some(n + k);
    }
  }
}

=== FILE: preview.dfy ===
/** The per-direction sheet preview of a site: one tab per direction the
    site's groups name, whose columns are the vehicle names of the hotkey
    sheet linked to that direction (or of a default project), and whose rows
    are the survey time slots with every count at "0". */
module Preview {
  import opened Common
  import opened Digits
  import opened HotkeySheets
  import opened DirectionGroups
  import opened TimeSegmenter
  import opened CounterSheets

  /** What a counter record links: a direction that reads as plain digits and
      a non-blank sheet name, both stripped. */
  function SheetLink(c: CounterRow): (r: Option<(nat, string)>)
    ensures r.Some? ==> r.value.1 != ""
  {
    var d := Strip(c.dir);
    var n := Strip(c.name);
    if d == "" || n == "" || !IsDigitString(d) then None else Some((ParseDigits(d), n))
  }

  predicate LinksDir(c: CounterRow, d: nat)
  {
    SheetLink(c).Some? && SheetLink(c).value.0 == d
  }

  predicate Linked(counters: seq<CounterRow>, d: nat)
  {
    exists i :: 0 <= i < |counters| && LinksDir(counters[i], d)
  }

  lemma LinkedSnoc(counters: seq<CounterRow>, d: nat)
    requires counters != []
    ensures Linked(counters, d) <==> Linked(counters[..|counters| - 1], d) || LinksDir(counters[|counters| - 1], d)
  {
    var n := |counters| - 1;
    var init := counters[..n];
    if Linked(counters, d) && !LinksDir(counters[n], d) {
      var i :| 0 <= i < |counters| && LinksDir(counters[i], d);
      assert i < n;
      assert init[i] == counters[i];
    }
    if Linked(init, d) {
      var i :| 0 <= i < |init| && LinksDir(init[i], d);
      assert counters[i] == init[i];
    }
  }

  /** Direction to sheet name, built over the counter records in order, so a
      later record for the same direction wins. */
  function DirToSheet(counters: seq<CounterRow>): (m: map<nat, string>)
    ensures forall d :: d in m <==> Linked(counters, d)
    ensures forall d :: d in m ==> m[d] != ""
  {
    if counters == [] then map[]
    else
      var init := counters[..|counters| - 1];
      var last := counters[|counters| - 1];
      var m := DirToSheet(init);
      assert forall d :: Linked(counters, d) <==> Linked(init, d) || LinksDir(last, d) by {
        forall d ensures Linked(counters, d) <==> Linked(init, d) || LinksDir(last, d) {
          LinkedSnoc(counters, d);
        }
      }
      match SheetLink(last)
      case None => m
      case Some(link) => m[link.0 := link.1]
  }

  /** The sheet name a direction maps to is the one on the last record
      linking that direction. */
  lemma {:induction false} DirToSheetLastWins(counters: seq<CounterRow>, i: nat)
    requires i < |counters| && SheetLink(counters[i]).Some?
    requires forall j :: i < j < |counters| ==> !LinksDir(counters[j], SheetLink(counters[i]).value.0)
    ensures DirToSheet(counters)[SheetLink(counters[i]).value.0] == SheetLink(counters[i]).value.1
    decreases |counters|
  {
    if i < |counters| - 1 {
      var init := counters[..|counters| - 1];
      assert init[i] == counters[i];
      forall j | i < j < |init| ensures !LinksDir(init[j], SheetLink(init[i]).value.0) {
        assert init[j] == counters[j];
      }
      DirToSheetLastWins(init, i);
    }
  }

  /** Direction to project index, built over `group_projects` in order: each
      label maps all the directions it names, so a later label wins. */
  function DirToProject(gp: GroupProjects): (m: map<nat, int>)
    ensures forall d :: d in m <==> exists i :: 0 <= i < |gp| && d in DigitSet(gp[i].0)
  {
    if gp == [] then map[]
    else
      var init := gp[..|gp| - 1];
      var last := gp[|gp| - 1];
      var m := DirToProject(init);
      assert forall d :: (exists i :: 0 <= i < |gp| && d in DigitSet(gp[i].0)) <==>
        ((exists i :: 0 <= i < |init| && d in DigitSet(init[i].0)) || d in DigitSet(last.0)) by {
        forall d | exists i :: 0 <= i < |gp| && d in DigitSet(gp[i].0)
          ensures (exists i :: 0 <= i < |init| && d in DigitSet(init[i].0)) || d in DigitSet(last.0)
        {
          var i :| 0 <= i < |gp| && d in DigitSet(gp[i].0);
          if i < |init| { assert init[i] == gp[i]; }
        }
        assert forall i :: 0 <= i < |init| ==> init[i] == gp[i];
      }
      m + map d | d in DigitSet(last.0) :: last.1
  }

  /** A direction maps to the project of the last label naming it. */
  lemma {:induction false} DirToProjectLastWins(gp: GroupProjects, i: nat, d: nat)
    requires i < |gp| && d in DigitSet(gp[i].0)
    requires forall j :: i < j < |gp| ==> d !in DigitSet(gp[j].0)
    ensures d in DirToProject(gp) && DirToProject(gp)[d] == gp[i].1
    decreases |gp|
  {
    if i < |gp| - 1 {
      var init := gp[..|gp| - 1];
      assert init[i] == gp[i];
      forall j | i < j < |init| ensures d !in DigitSet(init[j].0) {
        assert init[j] == gp[j];
      }
      DirToProjectLastWins(init, i, d);
    }
  }

  /** The directions the preview shows: those the site's groups name,
      ascending and each once; a site without groups counts as group "1",
      and groups naming no direction give direction 1 alone. */
  function DirList(groups: seq<string>): (ds: seq<nat>)
    ensures ds != [] && StrictlyAscending(ds)
    ensures Used(if groups == [] then ["1"] else groups) != {} ==>
      forall x :: x in ds <==> x in Used(if groups == [] then ["1"] else groups)
    ensures Used(if groups == [] then ["1"] else groups) == {} ==> ds == [1]
  {
    var gs := if groups == [] then ["1"] else groups;
    var ds := Released(gs);
    if ds == [] then
      assert Used(gs) == {} by {
        assert forall x :: x in Used(gs) ==> x in ds;
      }
      [1]
    else
      assert Used(gs) != {} by { assert ds[0] in Used(gs); }
      ds
  }

  /** A site without groups previews direction 1 alone. */
  lemma DirListDefault()
    ensures DirList([]) == [1]
  {
    assert NatToString(1) == "1";
    DigitRunsOfJoinDash([1]);
    assert JoinDash([1]) == "1";
    assert AllRuns(["1"]) == [1] by {
      assert AllRuns(["1"]) == DigitRuns("1") + AllRuns([]);
    }
    assert Used(["1"]) == {1};
  }

  const Placeholder: seq<string> := ["차종1", "차종2"]

  /** Every sheet of every project, project by project. */
  function AllSheets(projects: seq<HotkeyProject>): (all: seq<Sheet>)
    ensures forall p, k :: 0 <= p < |projects| && 0 <= k < |projects[p].sheets| ==> projects[p].sheets[k] in all
    ensures forall s :: s in all ==> exists p :: 0 <= p < |projects| && s in projects[p].sheets
  {
    if projects == [] then []
    else
      var rest := AllSheets(projects[1..]);
      assert forall p :: 1 <= p < |projects| ==> projects[p] == projects[1..][p - 1];
      projects[0].sheets + rest
  }

  /** Where project `p`'s sheets start in `AllSheets`: the sheet count of
      the projects before it. */
  function Offset(projects: seq<HotkeyProject>, p: nat): nat
    requires p <= |projects|
  {
    if p == 0 then 0 else |projects[0].sheets| + Offset(projects[1..], p - 1)
  }

  /** The concatenation is laid out project by project: sheet k of project p
      sits at Offset(p) + k, and the whole list is as long as all projects'
      sheets together. */
  lemma {:induction false} AllSheetsAt(projects: seq<HotkeyProject>, p: nat, k: nat)
    requires p < |projects| && k < |projects[p].sheets|
    ensures Offset(projects, p) + k < |AllSheets(projects)|
    ensures AllSheets(projects)[Offset(projects, p) + k] == projects[p].sheets[k]
    decreases p
  {
    var head, rest := projects[0].sheets, AllSheets(projects[1..]);
    assert AllSheets(projects) == head + rest;
    if p > 0 {
      assert projects[1..][p - 1] == projects[p];
      var j := Offset(projects[1..], p - 1) + k;
      assert Offset(projects, p) + k == |head| + j;
      AllSheetsAt(projects[1..], p - 1, k);
      assert (head + rest)[|head| + j] == rest[j];
    } else {
      assert (head + rest)[k] == head[k];
    }
  }

  lemma {:induction false} AllSheetsLength(projects: seq<HotkeyProject>)
    ensures |AllSheets(projects)| == Offset(projects, |projects|)
    decreases |projects|
  {
    if projects != [] {
      var rest := AllSheets(projects[1..]);
      assert AllSheets(projects) == projects[0].sheets + rest;
      assert Offset(projects, |projects|) == |projects[0].sheets| + Offset(projects[1..], |projects[1..]|);
      AllSheetsLength(projects[1..]);
    }
  }

  function ItemNames(items: seq<HotkeyItem>): (ns: seq<string>)
    ensures |ns| == |items|
    ensures forall i :: 0 <= i < |items| ==> ns[i] == items[i].vehicleName
  {
    seq(|items|, i requires 0 <= i < |items| => items[i].vehicleName)
  }

  /** The first sheet (projects in order, sheets in order) answering to
      `name` whose item list is not empty. */
  function FirstFilled(sheets: seq<Sheet>, name: string): (r: Option<nat>)
    ensures r.Some? ==> r.value < |sheets| && Named(sheets[r.value], name) && sheets[r.value].items != []
    ensures r.Some? ==> forall j :: 0 <= j < r.value ==> !(Named(sheets[j], name) && sheets[j].items != [])
    ensures r.None? ==> forall j :: 0 <= j < |sheets| ==> !(Named(sheets[j], name) && sheets[j].items != [])
  {
    var usable := seq(|sheets|, j requires 0 <= j < |sheets| => Named(sheets[j], name) && sheets[j].items != []);
    assert forall j :: 0 <= j < |sheets| ==> usable[j] == (Named(sheets[j], name) && sheets[j].items != []);
    FirstTrue(usable)
  }

  /** The project whose vehicle names head a direction without a usable
      linked sheet: the direction's saved project when it is an index of the
      list; with no saved project, the survey-vehicle selection when it is
      one; the first project in every other case (a saved index outside the
      list does not fall back to the selection). */
  function DefaultProjectIndex(count: nat, dirToProj: map<nat, int>, d: nat, vehIndex: int): (p: nat)
    requires count > 0
    ensures p < count
    ensures d in dirToProj && 0 <= dirToProj[d] < count ==> p == dirToProj[d]
    ensures d !in dirToProj && 0 <= vehIndex < count ==> p == vehIndex
    // An invalid saved index, or no saved index and an invalid selection, gives the first.
    ensures (d in dirToProj && !(0 <= dirToProj[d] < count)) || (d !in dirToProj && !(0 <= vehIndex < count)) ==> p == 0
  {
    var pi := if d in dirToProj then dirToProj[d] else if 0 <= vehIndex < count then vehIndex else 0;
    if 0 <= pi < count then pi else 0
  }

  /** The columns of direction `d`'s tab: the item names of the first
      non-empty sheet answering to the linked sheet name; otherwise the
      vehicle names of the default project; the placeholder pair when there
      are no projects or that project has no vehicles. */
  function ColsFor(projects: seq<HotkeyProject>, dirToSheet: map<nat, string>, dirToProj: map<nat, int>,
                   d: nat, vehIndex: int): (cols: seq<string>)
    ensures cols != []
    ensures projects == [] ==> cols == Placeholder
    ensures (d in dirToSheet && dirToSheet[d] != "" && projects != []
             && FirstFilled(AllSheets(projects), dirToSheet[d]).Some?) ==>
      cols == ItemNames(AllSheets(projects)[FirstFilled(AllSheets(projects), dirToSheet[d]).value].items)
    ensures (d !in dirToSheet || dirToSheet[d] == "" || FirstFilled(AllSheets(projects), dirToSheet[d]).None?)
            && projects != [] ==>
      var vs := projects[DefaultProjectIndex(|projects|, dirToProj, d, vehIndex)].vehicles;
      cols == if vs == [] then Placeholder else vs
  {
    var linked :=
      if d in dirToSheet && dirToSheet[d] != "" && projects != [] then
        var all := AllSheets(projects);
        match FirstFilled(all, dirToSheet[d])
        case Some(k) => Some(ItemNames(all[k].items))
        case None => None
      else None;
    if linked.Some? then linked.value
    else if projects == [] then Placeholder
    else
      var vs := projects[DefaultProjectIndex(|projects|, dirToProj, d, vehIndex)].vehicles;
      if vs == [] then Placeholder else vs
  }

  /** A time slot's row label, "start~end". */
  function SlotLabel(t: TimeRow): string
  {
    t.start + "~" + t.end
  }

  function Zeros(n: nat): (z: seq<string>)
    ensures |z| == n && forall i :: 0 <= i < n ==> z[i] == "0"
  {
    seq(n, i => "0")
  }

  datatype PreviewTab = PreviewTab(title: string, header: seq<string>, cells: seq<seq<string>>)

  /** One direction's tab: a time column, the vehicle columns, and a blank
      trailing column; one row per time slot with every count at "0". */
  function Tab(d: nat, cols: seq<string>, times: seq<TimeRow>): (t: PreviewTab)
    ensures t.title == NatToString(d) + "번 방향"
    ensures t.header == ["시간대"] + cols + [""]
    ensures |t.cells| == |times|
    ensures forall i :: 0 <= i < |times| ==>
      |t.cells[i]| == |cols| + 2 && t.cells[i][0] == SlotLabel(times[i]) && t.cells[i][|cols| + 1] == ""
      && forall c :: 1 <= c <= |cols| ==> t.cells[i][c] == "0"
  {
    PreviewTab(NatToString(d) + "번 방향", ["시간대"] + cols + [""],
      seq(|times|, i requires 0 <= i < |times| => [SlotLabel(times[i])] + Zeros(|cols|) + [""]))
  }

  /** `preview` for the selected site: its groups, counter records and
      `group_projects`, the survey time slots, the projects and the
      survey-vehicle selection. */
  function PreviewTabs(times: seq<TimeRow>, groups: seq<string>, counters: seq<CounterRow>, gp: GroupProjects,
                       projects: seq<HotkeyProject>, vehIndex: int): (tabs: seq<PreviewTab>)
    ensures |tabs| == |DirList(groups)|
    ensures forall k :: 0 <= k < |tabs| ==>
      tabs[k] == Tab(DirList(groups)[k], ColsFor(projects, DirToSheet(counters), DirToProject(gp), DirList(groups)[k], vehIndex), times)
  {
    var ds := DirList(groups);
    var toSheet := DirToSheet(counters);
    var toProj := DirToProject(gp);
    seq(|ds|, k requires 0 <= k < |ds| => Tab(ds[k], ColsFor(projects, toSheet, toProj, ds[k], vehIndex), times))
  }

  lemma SuffixCancel(a: string, b: string, suffix: string)
    requires a != b
    ensures a + suffix != b + suffix
  {
    if |a| == |b| {
      assert (a + suffix)[..|a|] == a && (b + suffix)[..|b|] == b;
    } else {
      assert |a + suffix| != |b + suffix|;
    }
  }

  /** Every tab has the same rows, one per time slot, and at least one count
      column; distinct tabs show distinct directions. */
  lemma PreviewShape(times: seq<TimeRow>, groups: seq<string>, counters: seq<CounterRow>, gp: GroupProjects,
                     projects: seq<HotkeyProject>, vehIndex: int)
    ensures var tabs := PreviewTabs(times, groups, counters, gp, projects, vehIndex);
      |tabs| >= 1
      && (forall k :: 0 <= k < |tabs| ==> |tabs[k].cells| == |times| && |tabs[k].header| >= 3)
      && (forall k, l :: 0 <= k < l < |tabs| ==> tabs[k].title != tabs[l].title)
  {
    var tabs := PreviewTabs(times, groups, counters, gp, projects, vehIndex);
    var ds := DirList(groups);
    forall k, l | 0 <= k < l < |tabs| ensures tabs[k].title != tabs[l].title {
      NatToStringInjective(ds[k], ds[l]);
      SuffixCancel(NatToString(ds[k]), NatToString(ds[l]), "번 방향");
    }
  }
}

=== FILE: resolver.dfy ===
/** Which hotkey sheet a counter row of a site uses. A site remembers, per
    group label, the project (vehicle-type) index its sheets were taken from
    (`group_projects`); a counter row names its sheet and its direction. */
module CounterSheets {
  import opened Common
  import opened Digits
  import opened HotkeySheets
  import opened DirectionGroups

  /** `group_projects`: label to project index, in insertion order. */
  type GroupProjects = seq<(string, int)>

  predicate UniqueKeys(gp: GroupProjects)
  {
    forall i, j :: 0 <= i < j < |gp| ==> gp[i].0 != gp[j].0
  }

  /** `group_projects.get(label)`. */
  function Get(gp: GroupProjects, lab: string): (r: Option<int>)
    ensures r.None? <==> forall i :: 0 <= i < |gp| ==> gp[i].0 != lab
    ensures r.Some? ==> exists i :: 0 <= i < |gp| && gp[i] == (lab, r.value)
  {
    if gp == [] then None
    else if gp[0].0 == lab then Some(gp[0].1)
    else
      var r := Get(gp[1..], lab);
      assert r.Some? ==> exists i :: 0 <= i < |gp| && gp[i] == (lab, r.value) by {
        if r.Some? {
          var i :| 0 <= i < |gp[1..]| && gp[1..][i] == (lab, r.value);
          assert gp[i + 1] == (lab, r.value);
        }
      }
      r
  }

  /** `group_projects[label] = v`: an existing key keeps its place. */
  function Set(gp: GroupProjects, lab: string, v: int): (r: GroupProjects)
    ensures Get(r, lab) == Some(v)
    ensures forall l :: l != lab ==> Get(r, l) == Get(gp, l)
    ensures |r| == |gp| || |r| == |gp| + 1
    ensures UniqueKeys(gp) ==> UniqueKeys(r)
  {
    if gp == [] then [(lab, v)]
    else if gp[0].0 == lab then
      var r := [(lab, v)] + gp[1..];
      assert r[1..] == gp[1..];
      r
    else
      var rest := Set(gp[1..], lab, v);
      var r := [gp[0]] + rest;
      assert r[1..] == rest;
      assert UniqueKeys(gp) ==> UniqueKeys(r) by {
        if UniqueKeys(gp) {
          assert UniqueKeys(gp[1..]);
          assert forall i :: 0 <= i < |gp[1..]| ==> gp[1..][i].0 != gp[0].0;
          assert Get(rest, gp[0].0).None?;
          forall j | 0 < j < |r| ensures r[0].0 != r[j].0 {
            assert r[j] == rest[j - 1];
          }
        }
      }
      r
  }

  /** A sheet answers to a name when its stripped name equals it. */
  predicate Named(s: Sheet, name: string)
  {
    Strip(s.name) == name
  }

  /** The sheets' stripped names, as the lookups compare them. */
  function SheetNames(sheets: seq<Sheet>): (ns: seq<string>)
    ensures |ns| == |sheets|
    ensures forall i :: 0 <= i < |sheets| ==> ns[i] == Strip(sheets[i].name)
  {
    seq(|sheets|, i requires 0 <= i < |sheets| => Strip(sheets[i].name))
  }

  /** The first position holding `x`. */
  function IndexOf(xs: seq<string>, x: string): (r: Option<nat>)
    ensures r.Some? ==> r.value < |xs| && xs[r.value] == x
    ensures r.Some? ==> forall j :: 0 <= j < r.value ==> xs[j] != x
    ensures r.None? ==> forall j :: 0 <= j < |xs| ==> xs[j] != x
  {
    if xs == [] then None
    else if xs[0] == x then Some(0)
    else
      match IndexOf(xs[1..], x)
      case None => None
      case Some(k) => Some(k + 1)
  }

  /** The first sheet answering to `name`, by position. */
  function FindByName(sheets: seq<Sheet>, name: string): (r: Option<nat>)
    ensures r.Some? ==> r.value < |sheets| && Named(sheets[r.value], name)
    ensures r.Some? ==> forall j :: 0 <= j < r.value ==> !Named(sheets[j], name)
    ensures r.None? ==> forall j :: 0 <= j < |sheets| ==> !Named(sheets[j], name)
  {
    IndexOf(SheetNames(sheets), name)
  }

  /** A label names a direction when the direction is one of its digit runs. */
  predicate HasDir(lab: string, d: int)
  {
    d >= 0 && d as nat in DigitRuns(lab)
  }

  /** The first label naming direction `d`. */
  function FirstWithDir(labs: seq<string>, d: int): (r: Option<nat>)
    ensures r.Some? ==> r.value < |labs| && HasDir(labs[r.value], d)
    ensures r.Some? ==> forall j :: 0 <= j < r.value ==> !HasDir(labs[j], d)
    ensures r.None? ==> forall j :: 0 <= j < |labs| ==> !HasDir(labs[j], d)
  {
    if labs == [] then None
    else if HasDir(labs[0], d) then Some(0)
    else
      match FirstWithDir(labs[1..], d)
      case None => None
      case Some(k) => Some(k + 1)
  }

  function Keys(gp: GroupProjects): (ks: seq<string>)
    ensures |ks| == |gp| && forall i :: 0 <= i < |gp| ==> ks[i] == gp[i].0
  {
    seq(|gp|, i requires 0 <= i < |gp| => gp[i].0)
  }

  /** A counter row's name and direction cells as the resolver reads them:
      stripped. */
  datatype RowView = RowView(name: string, dir: string)

  function ReadRows(rows: seq<CounterRow>): (v: seq<RowView>)
    ensures |v| == |rows|
    ensures forall i :: 0 <= i < |rows| ==> v[i] == RowView(Strip(rows[i].name), Strip(rows[i].dir))
  {
    seq(|rows|, i requires 0 <= i < |rows| => RowView(Strip(rows[i].name), Strip(rows[i].dir)))
  }

  /** The clicked row's direction text: "?" when blank. */
  function DirText(v: RowView): (t: string)
    ensures t != ""
  {
    if v.dir == "" then "?" else v.dir
  }

  /** Which project's sheets the resolver searches: the project saved for the
      first label naming the row's direction, else the survey-vehicle
      selection; an index outside the project list falls back to the
      selected project's sheets, and to none when that is out of range too. */
  function ChosenSheets(projects: seq<seq<Sheet>>, gp: GroupProjects, dirVal: Option<int>, vehIndex: int): (sheets: seq<Sheet>)
    ensures sheets == [] || sheets in projects
    // The saved project of the first label naming the direction, when it is an index.
    ensures dirVal.Some? && FirstWithDir(Keys(gp), dirVal.value).Some?
            && 0 <= gp[FirstWithDir(Keys(gp), dirVal.value).value].1 < |projects| ==>
      sheets == projects[gp[FirstWithDir(Keys(gp), dirVal.value).value].1]
    // Otherwise the survey-vehicle selection, when it is an index.
    ensures !(dirVal.Some? && FirstWithDir(Keys(gp), dirVal.value).Some?
              && 0 <= gp[FirstWithDir(Keys(gp), dirVal.value).value].1 < |projects|)
            && 0 <= vehIndex < |projects| ==>
      sheets == projects[vehIndex]
    // Otherwise nothing.
    ensures !(dirVal.Some? && FirstWithDir(Keys(gp), dirVal.value).Some?
              && 0 <= gp[FirstWithDir(Keys(gp), dirVal.value).value].1 < |projects|)
            && !(0 <= vehIndex < |projects|) ==>
      sheets == []
  {
    var saved :=
      if dirVal.None? then None
      else match FirstWithDir(Keys(gp), dirVal.value)
        case None => None
        case Some(i) => Some(gp[i].1);
    var pick := if saved.None? && projects != [] && 0 <= vehIndex < |projects| then Some(vehIndex) else saved;
    if pick.Some? && 0 <= pick.value < |projects| then projects[pick.value]
    else if 0 <= vehIndex < |projects| then projects[vehIndex]
    else []
  }

  /** Row `m` offers its sheet name for the third step: another row, same
      direction text, a non-blank name that some sheet answers to. */
  predicate SiblingHit(v: seq<RowView>, row: nat, dirText: string, sheets: seq<Sheet>, m: nat)
    requires m < |v|
  {
    m != row && v[m].dir == dirText && v[m].name != "" && FindByName(sheets, v[m].name).Some?
  }

  /** The first row from `m0` on that offers a sheet, with that sheet. */
  function SiblingFrom(v: seq<RowView>, row: nat, dirText: string, sheets: seq<Sheet>, m0: nat): (r: Option<(nat, nat)>)
    requires m0 <= |v|
    ensures r.Some? ==>
      (m0 <= r.value.0 < |v| && SiblingHit(v, row, dirText, sheets, r.value.0)
       && FindByName(sheets, v[r.value.0].name) == Some(r.value.1))
    ensures r.Some? ==> forall m :: m0 <= m < r.value.0 ==> !SiblingHit(v, row, dirText, sheets, m)
    ensures r.None? ==> forall m :: m0 <= m < |v| ==> !SiblingHit(v, row, dirText, sheets, m)
    decreases |v| - m0
  {
    if m0 == |v| then None
    else if SiblingHit(v, row, dirText, sheets, m0) then
      Some((m0, FindByName(sheets, v[m0].name).value))
    else SiblingFrom(v, row, dirText, sheets, m0 + 1)
  }

  /** The first project (in project order) holding a sheet answering to
      `name`, with that sheet's position. */
  function AnyProject(projects: seq<seq<Sheet>>, name: string): (r: Option<(nat, nat)>)
    ensures r.Some? ==> r.value.0 < |projects| && FindByName(projects[r.value.0], name) == Some(r.value.1)
    ensures r.Some? ==> forall p :: 0 <= p < r.value.0 ==> FindByName(projects[p], name).None?
    ensures r.None? ==> forall p :: 0 <= p < |projects| ==> FindByName(projects[p], name).None?
  {
    var hits := seq(|projects|, p requires 0 <= p < |projects| => FindByName(projects[p], name));
    assert forall p :: 0 <= p < |projects| ==> hits[p] == FindByName(projects[p], name);
    FirstSome(hits)
  }

  datatype Lookup = NoSheets | NotFound | Found(sheet: Sheet, step: nat)

  /** The sheet index the second step reads from a counter name: its first
      digit run n names sheet n - 1, when there is one. */
  function DigitIndex(name: string, count: nat): (r: Option<nat>)
    ensures r.Some? <==> exists n :: FirstDigitRun(name) == Some(n) && 1 <= n <= count
    ensures r.Some? ==> r.value < count && FirstDigitRun(name) == Some(r.value + 1)
  {
    match FirstDigitRun(name)
    case Some(n) => if 1 <= n <= count then Some(n - 1) else None
    case None => None
  }

  /** The project the fourth step records for the site: the first group
      label naming the row's direction (when that reads as a number) is
      mapped to project `p`. */
  function WriteBack(gp: GroupProjects, groups: seq<string>, dirVal: Option<int>, p: nat): GroupProjects
  {
    if dirVal.None? then gp
    else match FirstWithDir(groups, dirVal.value)
      case None => gp
      case Some(g) => Set(gp, groups[g], p)
  }

  /** `_on_counter_cell_double_clicked` on the name cell of row `row`: the
      sheet found (and by which step), and the site's `group_projects`
      afterwards. `groups` are the site's group labels. */
  function Resolve(projects: seq<seq<Sheet>>, groups: seq<string>, gp: GroupProjects,
                   rows: seq<CounterRow>, row: nat, vehIndex: int): (out: (Lookup, GroupProjects))
    requires row < |rows|
    // Only the last step writes, and a miss writes nothing.
    ensures out.1 != gp ==> out.0.Found? && out.0.step == 4
    ensures out.0.Found? ==> 1 <= out.0.step <= 4
    ensures out.0.NoSheets? <==> ChosenSheets(projects, gp, PyInt(DirText(ReadRows(rows)[row])), vehIndex) == []
  {
    var v := ReadRows(rows);
    var name := v[row].name;
    var dirText := DirText(v[row]);
    var dirVal := PyInt(dirText);
    var sheets := ChosenSheets(projects, gp, dirVal, vehIndex);
    if sheets == [] then (NoSheets, gp)
    else match FindByName(sheets, name)
      case Some(k) => (Found(sheets[k], 1), gp)
      case None =>
        match DigitIndex(name, |sheets|)
        case Some(i) => (Found(sheets[i], 2), gp)
        case None =>
          match SiblingFrom(v, row, dirText, sheets, 0)
          case Some(mk) => (Found(sheets[mk.1], 3), gp)
          case None =>
            if projects == [] then (NotFound, gp)
            else match AnyProject(projects, name)
              case None => (NotFound, gp)
              case Some(pk) => (Found(projects[pk.0][pk.1], 4), WriteBack(gp, groups, dirVal, pk.0))
  }

  /** The sheets the clicked row's lookup searches first. */
  function SheetsFor(projects: seq<seq<Sheet>>, gp: GroupProjects, rows: seq<CounterRow>, row: nat, vehIndex: int): seq<Sheet>
    requires row < |rows|
  {
    ChosenSheets(projects, gp, PyInt(DirText(ReadRows(rows)[row])), vehIndex)
  }

  // The four steps in order, each stated as what it found and what the
  // earlier steps did not.

  /** Step 1: the first sheet of the chosen project answering to the name. */
  lemma {:induction false} ResolveStepOne(projects: seq<seq<Sheet>>, groups: seq<string>, gp: GroupProjects,
                                          rows: seq<CounterRow>, row: nat, vehIndex: int)
    requires row < |rows|
    ensures var out := Resolve(projects, groups, gp, rows, row, vehIndex);
      var sheets := SheetsFor(projects, gp, rows, row, vehIndex);
      out.0.Found? && out.0.step == 1 ==>
        exists k :: (0 <= k < |sheets| && out.0.sheet == sheets[k] && Named(sheets[k], Strip(rows[row].name))
          && forall j :: 0 <= j < k ==> !Named(sheets[j], Strip(rows[row].name)))
  {
    var v := ReadRows(rows);
    var name := v[row].name;
    assert name == Strip(rows[row].name);
    var sheets := ChosenSheets(projects, gp, PyInt(DirText(v[row])), vehIndex);
    var out := Resolve(projects, groups, gp, rows, row, vehIndex);
    if sheets != [] && FindByName(sheets, name).Some? {
      var k := FindByName(sheets, name).value;
      assert SheetsFor(projects, gp, rows, row, vehIndex) == sheets;
      assert out.0.sheet == sheets[k];
      assert forall j :: 0 <= j < k ==> !Named(sheets[j], Strip(rows[row].name));
    }
  }

  /** Step 2: no sheet of the chosen project answers to the name, and the
      name's first digit run n picks sheet n - 1. Later steps run only when
      both of the first two fail. */
  lemma {:induction false} ResolveStepTwo(projects: seq<seq<Sheet>>, groups: seq<string>, gp: GroupProjects,
                                          rows: seq<CounterRow>, row: nat, vehIndex: int)
    requires row < |rows|
    ensures var out := Resolve(projects, groups, gp, rows, row, vehIndex);
      var sheets := SheetsFor(projects, gp, rows, row, vehIndex);
      out.0.Found? && out.0.step > 1 ==> forall j :: 0 <= j < |sheets| ==> !Named(sheets[j], Strip(rows[row].name))
    ensures var out := Resolve(projects, groups, gp, rows, row, vehIndex);
      var sheets := SheetsFor(projects, gp, rows, row, vehIndex);
      out.0.Found? && out.0.step == 2 ==>
        exists n :: FirstDigitRun(Strip(rows[row].name)) == Some(n) && 1 <= n <= |sheets| && out.0.sheet == sheets[n - 1]
    ensures var out := Resolve(projects, groups, gp, rows, row, vehIndex);
      var sheets := SheetsFor(projects, gp, rows, row, vehIndex);
      out.0.Found? && out.0.step >= 3 ==> DigitIndex(Strip(rows[row].name), |sheets|).None?
  {
    var v := ReadRows(rows);
    var name := v[row].name;
    assert name == Strip(rows[row].name);
    var sheets := ChosenSheets(projects, gp, PyInt(DirText(v[row])), vehIndex);
    assert SheetsFor(projects, gp, rows, row, vehIndex) == sheets;
    var out := Resolve(projects, groups, gp, rows, row, vehIndex);
    if sheets != [] && FindByName(sheets, name).None? {
      match DigitIndex(name, |sheets|)
      case Some(i) =>
        assert out.0 == Found(sheets[i], 2);
      case None =>
    }
  }

  /** Step 3: another row with the same direction names a sheet of the
      chosen project. */
  lemma {:induction false} ResolveStepThree(projects: seq<seq<Sheet>>, groups: seq<string>, gp: GroupProjects,
                                            rows: seq<CounterRow>, row: nat, vehIndex: int)
    requires row < |rows|
    ensures var out := Resolve(projects, groups, gp, rows, row, vehIndex);
      var sheets := SheetsFor(projects, gp, rows, row, vehIndex);
      out.0.Found? && out.0.step == 3 ==>
        exists m, k :: (0 <= m < |rows| && m != row && Strip(rows[m].dir) == DirText(ReadRows(rows)[row])
          && Strip(rows[m].name) != "" && SiblingHit(ReadRows(rows), row, DirText(ReadRows(rows)[row]), sheets, m)
          && 0 <= k < |sheets| && out.0.sheet == sheets[k] && Named(sheets[k], Strip(rows[m].name))
          // the first such row, and the first sheet answering to its name
          && (forall j :: 0 <= j < k ==> !Named(sheets[j], Strip(rows[m].name)))
          && forall m' :: 0 <= m' < m ==> !SiblingHit(ReadRows(rows), row, DirText(ReadRows(rows)[row]), sheets, m'))
  {
    var v := ReadRows(rows);
    var name := v[row].name;
    var dirText := DirText(v[row]);
    var sheets := ChosenSheets(projects, gp, PyInt(dirText), vehIndex);
    if sheets != [] && FindByName(sheets, name).None? && DigitIndex(name, |sheets|).None? {
      var sib := SiblingFrom(v, row, dirText, sheets, 0);
      if sib.Some? {
        var m := sib.value.0;
        assert v[m] == RowView(Strip(rows[m].name), Strip(rows[m].dir));
        var k := sib.value.1;
        assert SheetsFor(projects, gp, rows, row, vehIndex) == sheets;
        assert Resolve(projects, groups, gp, rows, row, vehIndex).0.sheet == sheets[k];
        assert m != row && Strip(rows[m].dir) == dirText && Named(sheets[k], Strip(rows[m].name));
        assert forall j :: 0 <= j < k ==> !Named(sheets[j], Strip(rows[m].name));
      }
    }
  }

  /** Step 4: no other row offered a sheet; the first project (in project
      order) holding a sheet with the name supplies it, and that project is
      recorded for the direction's first group. */
  lemma {:induction false} ResolveStepFour(projects: seq<seq<Sheet>>, groups: seq<string>, gp: GroupProjects,
                                           rows: seq<CounterRow>, row: nat, vehIndex: int)
    requires row < |rows|
    ensures var out := Resolve(projects, groups, gp, rows, row, vehIndex);
      var sheets := SheetsFor(projects, gp, rows, row, vehIndex);
      out.0.Found? && out.0.step == 4 ==>
        forall m :: 0 <= m < |rows| ==> !SiblingHit(ReadRows(rows), row, DirText(ReadRows(rows)[row]), sheets, m)
    ensures var out := Resolve(projects, groups, gp, rows, row, vehIndex);
      out.0.Found? && out.0.step == 4 ==>
        exists p, k :: (0 <= p < |projects| && 0 <= k < |projects[p]|
          && out.0.sheet == projects[p][k] && Named(projects[p][k], Strip(rows[row].name))
          && (forall j :: 0 <= j < k ==> !Named(projects[p][j], Strip(rows[row].name)))
          && out.1 == WriteBack(gp, groups, PyInt(DirText(ReadRows(rows)[row])), p)
          && forall q :: 0 <= q < p ==> forall j :: 0 <= j < |projects[q]| ==> !Named(projects[q][j], Strip(rows[row].name)))
  {
    var v := ReadRows(rows);
    var name := v[row].name;
    assert name == Strip(rows[row].name);
    var dirText := DirText(v[row]);
    var sheets := ChosenSheets(projects, gp, PyInt(dirText), vehIndex);
    var out := Resolve(projects, groups, gp, rows, row, vehIndex);
    if sheets != [] && FindByName(sheets, name).None? && DigitIndex(name, |sheets|).None?
       && SiblingFrom(v, row, dirText, sheets, 0).None? && projects != [] && AnyProject(projects, name).Some? {
      var pk := AnyProject(projects, name).value;
      assert out.0.sheet == projects[pk.0][pk.1];
    }
  }

  /** A miss: the chosen project has sheets, none of the first three steps
      found one, no project holds a sheet with the name, and (by `Resolve`'s
      own contract) `group_projects` is left as it was. */
  lemma {:induction false} ResolveMiss(projects: seq<seq<Sheet>>, groups: seq<string>, gp: GroupProjects,
                                       rows: seq<CounterRow>, row: nat, vehIndex: int)
    requires row < |rows|
    ensures var out := Resolve(projects, groups, gp, rows, row, vehIndex);
      out.0.NotFound? ==>
        forall p :: 0 <= p < |projects| ==> forall j :: 0 <= j < |projects[p]| ==> !Named(projects[p][j], Strip(rows[row].name))
    ensures var out := Resolve(projects, groups, gp, rows, row, vehIndex);
      var sheets := SheetsFor(projects, gp, rows, row, vehIndex);
      out.0.NotFound? ==>
        sheets != [] && FindByName(sheets, Strip(rows[row].name)).None?
        && DigitIndex(Strip(rows[row].name), |sheets|).None?
        && forall m :: 0 <= m < |rows| ==> !SiblingHit(ReadRows(rows), row, DirText(ReadRows(rows)[row]), sheets, m)
  {
    var v := ReadRows(rows);
    assert v[row].name == Strip(rows[row].name);
  }

  /** What the fourth step records: the direction's first group label maps
      to the project the sheet was found in; every other label keeps its
      project. */
  lemma WriteBackRecords(gp: GroupProjects, groups: seq<string>, d: int, p: nat, g: nat)
    requires FirstWithDir(groups, d) == Some(g)
    ensures Get(WriteBack(gp, groups, Some(d), p), groups[g]) == Some(p)
    ensures forall l :: l != groups[g] ==> Get(WriteBack(gp, groups, Some(d), p), l) == Get(gp, l)
  {
  }

  // The group-tab dialog.

  /** The name of the first counter row whose direction reads as one of
      `dirs` and whose name is not blank. */
  function TaggedSheet(rows: seq<CounterRow>, dirs: set<nat>): (r: Option<string>)
    ensures r.Some? ==> r.value != "" && exists m :: 0 <= m < |rows| && Strip(rows[m].name) == r.value
  {
    if rows == [] then None
    else
      var v := PyInt(rows[0].dir);
      if v.Some? && v.value >= 0 && v.value as nat in dirs && Strip(rows[0].name) != "" then Some(Strip(rows[0].name))
      else
        var r := TaggedSheet(rows[1..], dirs);
        assert r.Some? ==> exists m :: 0 <= m < |rows| && Strip(rows[m].name) == r.value by {
          if r.Some? {
            var m :| 0 <= m < |rows[1..]| && Strip(rows[1..][m].name) == r.value;
            assert rows[m + 1] == rows[1..][m];
          }
        }
        r
  }

  /** The first project holding a sheet answering to `name`. */
  function ProjectWith(projects: seq<seq<Sheet>>, name: string): (r: Option<nat>)
    ensures r.Some? ==> r.value < |projects| && FindByName(projects[r.value], name).Some?
    ensures r.None? ==> forall p :: 0 <= p < |projects| ==> FindByName(projects[p], name).None?
  {
    match AnyProject(projects, name)
    case None => None
    case Some(pk) => Some(pk.0)
  }

  /** `_on_group_tab_double_clicked`'s default project for group `label`:
      the saved index, else the project holding the sheet already named on a
      member direction's row, else the survey-vehicle selection, else 0; a
      0 is then replaced by the survey-vehicle selection. None when the label
      names no direction or there are no projects (the dialog does not open). */
  function DefaultProject(gp: GroupProjects, lab: string, rows: seq<CounterRow>,
                          projects: seq<seq<Sheet>>, vehIndex: int): (r: Option<nat>)
    ensures r.Some? <==> DigitSet(lab) != {} && projects != []
    ensures r.Some? ==> r.value < |projects|
    ensures r.Some? && r.value == 0 && 0 <= vehIndex < |projects| ==> vehIndex == 0
    ensures r.Some? && Get(gp, lab).Some? && 0 < Get(gp, lab).value < |projects| ==>
      r.value == Get(gp, lab).value
    ensures (r.Some? && (Get(gp, lab).None? || !(0 <= Get(gp, lab).value < |projects|))
             && TaggedSheet(rows, DigitSet(lab)).Some?
             && ProjectWith(projects, TaggedSheet(rows, DigitSet(lab)).value).Some?
             && ProjectWith(projects, TaggedSheet(rows, DigitSet(lab)).value).value > 0) ==>
      r.value == ProjectWith(projects, TaggedSheet(rows, DigitSet(lab)).value).value
    // Neither a saved index nor a linked sheet: the survey-vehicle selection, else 0.
    ensures (r.Some? && (Get(gp, lab).None? || !(0 <= Get(gp, lab).value < |projects|))
             && (TaggedSheet(rows, DigitSet(lab)).None?
                 || ProjectWith(projects, TaggedSheet(rows, DigitSet(lab)).value).None?)) ==>
      r.value == if 0 <= vehIndex < |projects| then vehIndex else 0
    // An earlier step that settles on project 0 gives way to the same fallback.
    ensures (r.Some? && (Get(gp, lab) == Some(0)
                         || ((Get(gp, lab).None? || !(0 <= Get(gp, lab).value < |projects|))
                             && TaggedSheet(rows, DigitSet(lab)).Some?
                             && ProjectWith(projects, TaggedSheet(rows, DigitSet(lab)).value) == Some(0)))) ==>
      r.value == if 0 <= vehIndex < |projects| then vehIndex else 0
  {
    var dirs := DigitSet(lab);
    if dirs == {} || projects == [] then None
    else
      var saved := Get(gp, lab);
      var s1 := if saved.Some? && 0 <= saved.value < |projects| then Some(saved.value as nat) else None;
      var s2 :=
        if s1.Some? then s1
        else match TaggedSheet(rows, dirs)
          case None => None
          case Some(sheet) => ProjectWith(projects, sheet);
      var s3 := if s2.None? && 0 <= vehIndex < |projects| then Some(vehIndex as nat) else s2;
      var r0 := if s3.None? then 0 else s3.value;
      Some(if r0 == 0 && 0 <= vehIndex < |projects| then vehIndex as nat else r0)
  }

  /** The OK action for one direction: every counter row whose stripped
      direction is `str(d)` takes the chosen (stripped) sheet name; when no
      row has that direction a row `(sheet, d, "")` is appended. A blank
      choice changes nothing. */
  function AssignDir(rows: seq<CounterRow>, d: nat, choice: string): (r: seq<CounterRow>)
    ensures Strip(choice) == "" ==> r == rows
    ensures |rows| <= |r| <= |rows| + 1
    ensures forall i :: 0 <= i < |rows| ==> r[i].dir == rows[i].dir && r[i].caption == rows[i].caption
    ensures forall i :: 0 <= i < |rows| && Strip(rows[i].dir) != NatToString(d) ==> r[i] == rows[i]
    ensures Strip(choice) != "" ==> forall i :: 0 <= i < |r| && Strip(r[i].dir) == NatToString(d) ==> r[i].name == Strip(choice)
    ensures Strip(choice) != "" ==> exists i :: 0 <= i < |r| && Strip(r[i].dir) == NatToString(d)
    ensures |r| == |rows| + 1 ==>
      (r[|rows|] == CounterRow(Strip(choice), NatToString(d), "")
       && forall i :: 0 <= i < |rows| ==> Strip(rows[i].dir) != NatToString(d))
  {
    var name := Strip(choice);
    var ds := NatToString(d);
    if name == "" then rows
    else
      var renamed := seq(|rows|, i requires 0 <= i < |rows| =>
        if Strip(rows[i].dir) == ds then rows[i].(name := name) else rows[i]);
      if exists i :: 0 <= i < |rows| && Strip(rows[i].dir) == ds then renamed
      else
        StripNoSpace(ds);
        var r := renamed + [CounterRow(name, ds, "")];
        assert Strip(r[|rows|].dir) == ds;
        r
  }

  /** The OK action over the group's directions, in ascending order, with the
      sheet chosen for each. */
  function AssignSheets(rows: seq<CounterRow>, dirs: seq<nat>, choices: seq<string>): (r: seq<CounterRow>)
    requires |choices| == |dirs|
    ensures |r| >= |rows|
    ensures forall i :: 0 <= i < |rows| ==> r[i].dir == rows[i].dir && r[i].caption == rows[i].caption
    decreases |dirs|
  {
    if dirs == [] then rows
    else AssignSheets(AssignDir(rows, dirs[0], choices[0]), dirs[1..], choices[1..])
  }

  /** Rows of a direction no step touches keep their contents. */
  lemma {:induction false} AssignSheetsOther(rows: seq<CounterRow>, dirs: seq<nat>, choices: seq<string>, i: nat)
    requires |choices| == |dirs| && i < |rows|
    requires forall k :: 0 <= k < |dirs| ==> Strip(rows[i].dir) != NatToString(dirs[k])
    ensures AssignSheets(rows, dirs, choices)[i] == rows[i]
    decreases |dirs|
  {
    if dirs != [] {
      var rows' := AssignDir(rows, dirs[0], choices[0]);
      assert rows'[i] == rows[i];
      AssignSheetsOther(rows', dirs[1..], choices[1..], i);
    }
  }

  /** After the OK action, with distinct directions, every direction given a
      non-blank choice has at least one counter row, and all its rows name the
      chosen sheet. */
  lemma {:induction false} AssignSheetsResult(rows: seq<CounterRow>, dirs: seq<nat>, choices: seq<string>, k: nat)
    requires |choices| == |dirs| && k < |dirs|
    requires forall a, b :: 0 <= a < b < |dirs| ==> dirs[a] != dirs[b]
    requires Strip(choices[k]) != ""
    ensures forall i :: (0 <= i < |AssignSheets(rows, dirs, choices)|
                         && Strip(AssignSheets(rows, dirs, choices)[i].dir) == NatToString(dirs[k])) ==>
      AssignSheets(rows, dirs, choices)[i].name == Strip(choices[k])
    ensures exists i :: (0 <= i < |AssignSheets(rows, dirs, choices)|
                         && Strip(AssignSheets(rows, dirs, choices)[i].dir) == NatToString(dirs[k]))
    decreases |dirs|
  {
    var rows' := AssignDir(rows, dirs[0], choices[0]);
    var r := AssignSheets(rows, dirs, choices);
    assert r == AssignSheets(rows', dirs[1..], choices[1..]);
    if k > 0 {
      DistinctTail(dirs);
      assert dirs[1..][k - 1] == dirs[k] && choices[1..][k - 1] == choices[k];
      AssignSheetsResult(rows', dirs[1..], choices[1..], k - 1);
    } else {
      AssignSheetsFirst(rows, dirs, choices);
    }
  }

  lemma DistinctTail(dirs: seq<nat>)
    requires dirs != []
    requires forall a, b :: 0 <= a < b < |dirs| ==> dirs[a] != dirs[b]
    ensures forall a, b :: 0 <= a < b < |dirs[1..]| ==> dirs[1..][a] != dirs[1..][b]
  {
    forall a, b | 0 <= a < b < |dirs[1..]| ensures dirs[1..][a] != dirs[1..][b] {
      assert dirs[1..][a] == dirs[a + 1] && dirs[1..][b] == dirs[b + 1];
    }
  }

  /** The first direction's rows, written by the first step, survive the
      later steps, which write other directions. */
  lemma AssignSheetsFirst(rows: seq<CounterRow>, dirs: seq<nat>, choices: seq<string>)
    requires |choices| == |dirs| && dirs != []
    requires forall a, b :: 0 <= a < b < |dirs| ==> dirs[a] != dirs[b]
    requires Strip(choices[0]) != ""
    ensures forall i :: (0 <= i < |AssignSheets(rows, dirs, choices)|
                         && Strip(AssignSheets(rows, dirs, choices)[i].dir) == NatToString(dirs[0])) ==>
      AssignSheets(rows, dirs, choices)[i].name == Strip(choices[0])
    ensures exists i :: (0 <= i < |AssignSheets(rows, dirs, choices)|
                         && Strip(AssignSheets(rows, dirs, choices)[i].dir) == NatToString(dirs[0]))
  {
    var rows' := AssignDir(rows, dirs[0], choices[0]);
    var r := AssignSheets(rows, dirs, choices);
    assert r == AssignSheets(rows', dirs[1..], choices[1..]);
    var ds := NatToString(dirs[0]);
    forall m | 0 <= m < |dirs[1..]| ensures ds != NatToString(dirs[1..][m]) {
      NatToStringInjective(dirs[0], dirs[1..][m]);
      assert dirs[1..][m] == dirs[m + 1];
    }
    var w :| 0 <= w < |rows'| && Strip(rows'[w].dir) == ds;
    AssignSheetsOther(rows', dirs[1..], choices[1..], w);
    forall i | 0 <= i < |r| && Strip(r[i].dir) == ds ensures r[i].name == Strip(choices[0]) {
      AssignSheetsUntouched(rows', dirs[1..], choices[1..], i, ds);
    }
  }

  /** A row carrying a direction text other than `str(d)` after one step
      was already there, unchanged. */
  lemma AssignDirUntouched(rows: seq<CounterRow>, d: nat, choice: string, i: nat, ds: string)
    requires ds != NatToString(d)
    requires i < |AssignDir(rows, d, choice)| && Strip(AssignDir(rows, d, choice)[i].dir) == ds
    ensures i < |rows| && AssignDir(rows, d, choice)[i] == rows[i]
  {
    var r := AssignDir(rows, d, choice);
    if |r| == |rows| + 1 {
      StripNoSpace(NatToString(d));
      assert Strip(r[|rows|].dir) == NatToString(d);
    }
  }

  /** A row of the result carrying a direction text no step writes was
      already there with that text, and is unchanged. */
  lemma {:induction false} AssignSheetsUntouched(rows: seq<CounterRow>, dirs: seq<nat>, choices: seq<string>, i: nat, ds: string)
    requires |choices| == |dirs|
    requires forall m :: 0 <= m < |dirs| ==> ds != NatToString(dirs[m])
    ensures i < |AssignSheets(rows, dirs, choices)| && Strip(AssignSheets(rows, dirs, choices)[i].dir) == ds
            ==> i < |rows| && AssignSheets(rows, dirs, choices)[i] == rows[i]
    decreases |dirs|
  {
    var r := AssignSheets(rows, dirs, choices);
    if dirs != [] && i < |r| && Strip(r[i].dir) == ds {
      var rows' := AssignDir(rows, dirs[0], choices[0]);
      assert r == AssignSheets(rows', dirs[1..], choices[1..]);
      forall m | 0 <= m < |dirs[1..]| ensures ds != NatToString(dirs[1..][m]) {
        assert dirs[1..][m] == dirs[m + 1];
      }
      AssignSheetsUntouched(rows', dirs[1..], choices[1..], i, ds);
      AssignDirUntouched(rows, dirs[0], choices[0], i, ds);
    }
  }

  /** Direction `d` has at least one row, and every row of it names `sheet`. */
  predicate DirAssigned(r: seq<CounterRow>, d: nat, sheet: string)
  {
    (exists i :: 0 <= i < |r| && Strip(r[i].dir) == NatToString(d))
    && forall i :: 0 <= i < |r| && Strip(r[i].dir) == NatToString(d) ==> r[i].name == sheet
  }

  /** Every direction given a non-blank choice ends up with rows, all naming
      the chosen sheet. */
  lemma AssignSheetsAll(rows: seq<CounterRow>, dirs: seq<nat>, choices: seq<string>)
    requires |choices| == |dirs|
    requires forall a, b :: 0 <= a < b < |dirs| ==> dirs[a] != dirs[b]
    ensures forall k :: 0 <= k < |dirs| && Strip(choices[k]) != "" ==>
      DirAssigned(AssignSheets(rows, dirs, choices), dirs[k], Strip(choices[k]))
  {
    forall k | 0 <= k < |dirs| && Strip(choices[k]) != ""
      ensures DirAssigned(AssignSheets(rows, dirs, choices), dirs[k], Strip(choices[k]))
    {
      AssignSheetsResult(rows, dirs, choices, k);
    }
  }

  /** Every row whose direction is none of `dirs` was already there, unchanged. */
  lemma AssignSheetsOthers(rows: seq<CounterRow>, dirs: seq<nat>, choices: seq<string>)
    requires |choices| == |dirs|
    ensures var r := AssignSheets(rows, dirs, choices);
      forall i :: 0 <= i < |r| && (forall m :: 0 <= m < |dirs| ==> Strip(r[i].dir) != NatToString(dirs[m])) ==>
        i < |rows| && r[i] == rows[i]
  {
    var r := AssignSheets(rows, dirs, choices);
    forall i | 0 <= i < |r| && (forall m :: 0 <= m < |dirs| ==> Strip(r[i].dir) != NatToString(dirs[m])) {
      AssignSheetsUntouched(rows, dirs, choices, i, Strip(r[i].dir));
    }
  }

  /** The template-tab OK action: the template's counter table gets the same
      per-direction update, once for each of the label's distinct directions;
      no project is recorded. */
  function TemplateOk(rows: seq<CounterRow>, dirs: seq<nat>, choices: seq<string>): (r: seq<CounterRow>)
    requires |choices| == |dirs|
    requires forall a, b :: 0 <= a < b < |dirs| ==> dirs[a] != dirs[b]
    ensures |r| >= |rows|
    ensures forall k :: 0 <= k < |dirs| && Strip(choices[k]) != "" ==> DirAssigned(r, dirs[k], Strip(choices[k]))
    ensures forall i :: 0 <= i < |r| && (forall m :: 0 <= m < |dirs| ==> Strip(r[i].dir) != NatToString(dirs[m])) ==>
      i < |rows| && r[i] == rows[i]
  {
    AssignSheetsAll(rows, dirs, choices);
    AssignSheetsOthers(rows, dirs, choices);
    AssignSheets(rows, dirs, choices)
  }

  /** The site-tab OK action: the counter rows are updated and the chosen
      project is recorded for the group label. */
  function GroupOk(rows: seq<CounterRow>, gp: GroupProjects, lab: string, dirs: seq<nat>,
                   choices: seq<string>, project: int): (r: (seq<CounterRow>, GroupProjects))
    requires |choices| == |dirs|
    ensures Get(r.1, lab) == Some(project)
    ensures forall l :: l != lab ==> Get(r.1, l) == Get(gp, l)
    ensures r.0 == AssignSheets(rows, dirs, choices)
  {
    (AssignSheets(rows, dirs, choices), Set(gp, lab, project))
  }
}

=== FILE: sites.dfy ===
/** The site list of a survey: a table of sites (지점) with one row per site,
    plus an in-memory store of each row's counter configuration keyed by the
    row position. Moving or deleting sites reads every row out (`get`),
    rearranges the records and writes them all back (`set`), which is how the
    순번 column comes to be rewritten as position + 1. */
module SiteList {
  import opened Common
  import opened Digits
  import opened DirectionGroups
  import CounterSheets

  /** The five text columns after 순번: 지번, 지점명, 작업번호, 방향수, 상태. */
  datatype SiteCells = SiteCells(jibun: string, name: string, jobNo: string, dirCount: string, state: string)

  /** What `site_data[str(row)]` holds. The `dirs` and `spin` entries that
      the editor also stores are never read back by `get` and are omitted. */
  datatype SiteConfig = SiteConfig(groups: seq<string>, counters: seq<CounterRow>,
                                   groupProjects: Option<CounterSheets.GroupProjects>)

  /** The table plus `site_data`; the key `str(row)` is modelled by the row
      number itself. */
  datatype SiteTable = SiteTable(cells: seq<SiteCells>, data: map<nat, SiteConfig>)

  /** One element of the list `get` returns. There is no place in it for
      `group_projects`. */
  datatype SiteRecord = SiteRecord(seqNo: nat, jibun: string, name: string, jobNo: string,
                                   dirCount: string, state: string,
                                   groups: seq<string>, counters: seq<CounterRow>)

  /** What the counter editor currently shows for the selected site. */
  datatype Editor = Editor(groups: seq<string>, counters: seq<CounterRow>, spin: nat)

  const EmptyConfig := SiteConfig([], [], None)

  /** `site_data.get(key, {"groups": [], "counters": []})`. */
  function ConfigAt(t: SiteTable, r: nat): SiteConfig
  {
    if r in t.data then t.data[r] else EmptyConfig
  }

  /** The record of row `r`, numbered `no`, with every cell text stripped. */
  function RecordOf(c: SiteCells, cfg: SiteConfig, no: nat): SiteRecord
  {
    SiteRecord(no, Strip(c.jibun), Strip(c.name), Strip(c.jobNo), Strip(c.dirCount), Strip(c.state),
               cfg.groups, cfg.counters)
  }

  /** Every text field of the record is free of surrounding whitespace. */
  predicate CleanRecord(x: SiteRecord)
  {
    Strip(x.jibun) == x.jibun && Strip(x.name) == x.name && Strip(x.jobNo) == x.jobNo
    && Strip(x.dirCount) == x.dirCount && Strip(x.state) == x.state
  }

  /** `get`, after the pending edit of the current row has been applied
      (see `Snapshot`): one record per row, numbered from 1 in table order. */
  function GetRows(t: SiteTable): (rows: seq<SiteRecord>)
    ensures |rows| == |t.cells|
    ensures forall k :: 0 <= k < |rows| ==> rows[k].seqNo == k + 1 && CleanRecord(rows[k])
  {
    var rows := seq(|t.cells|, k requires 0 <= k < |t.cells| => RecordOf(t.cells[k], ConfigAt(t, k), k + 1));
    assert forall k :: 0 <= k < |rows| ==> CleanRecord(rows[k]) by {
      forall k | 0 <= k < |rows| ensures CleanRecord(rows[k]) {
        var c := t.cells[k];
        StripIdempotent(c.jibun);
        StripIdempotent(c.name);
        StripIdempotent(c.jobNo);
        StripIdempotent(c.dirCount);
        StripIdempotent(c.state);
      }
    }
    rows
  }

  /** `set`: the table is rebuilt from the records; the stored 순번 is
      ignored, and the configuration keeps only groups and counters. */
  function SetRows(rows: seq<SiteRecord>): (t: SiteTable)
    ensures |t.cells| == |rows|
    ensures forall r: nat :: r in t.data <==> r < |rows|
    ensures forall r :: r in t.data ==> t.data[r].groupProjects == None
  {
    SiteTable(seq(|rows|, k requires 0 <= k < |rows| =>
                    SiteCells(rows[k].jibun, rows[k].name, rows[k].jobNo, rows[k].dirCount, rows[k].state)),
              map r: nat | r < |rows| :: SiteConfig(rows[r].groups, rows[r].counters, None))
  }

  /** What a `set` followed by a `get` yields: each record stripped and
      renumbered by its position. */
  function Normal(rows: seq<SiteRecord>): seq<SiteRecord>
  {
    seq(|rows|, k requires 0 <= k < |rows| =>
      SiteRecord(k + 1, Strip(rows[k].jibun), Strip(rows[k].name), Strip(rows[k].jobNo),
                 Strip(rows[k].dirCount), Strip(rows[k].state), rows[k].groups, rows[k].counters))
  }

  lemma {:induction false} GetSetRows(rows: seq<SiteRecord>)
    ensures GetRows(SetRows(rows)) == Normal(rows)
  {
  }

  /** On clean records `Normal` only rewrites 순번. */
  lemma {:induction false} NormalClean(rows: seq<SiteRecord>)
    requires forall k :: 0 <= k < |rows| ==> CleanRecord(rows[k])
    ensures |Normal(rows)| == |rows|
    ensures forall k :: 0 <= k < |rows| ==> Normal(rows)[k] == rows[k].(seqNo := k + 1)
  {
  }

  /** A `get`/`set` cycle changes nothing a later `get` can see. */
  lemma {:induction false} GetSetStable(t: SiteTable)
    ensures GetRows(SetRows(GetRows(t))) == GetRows(t)
  {
    var rows := GetRows(t);
    GetSetRows(rows);
    NormalClean(rows);
    var n := Normal(rows);
    forall k | 0 <= k < |rows| ensures n[k] == rows[k] {
      assert rows[k].seqNo == k + 1;
      assert rows[k].(seqNo := k + 1) == rows[k];
    }
    assert n == rows;
  }

  /** A `get`/`set` cycle forgets every row's `group_projects`. */
  lemma {:induction false} GroupProjectsLost(t: SiteTable, r: nat)
    requires r < |t.cells|
    ensures ConfigAt(SetRows(GetRows(t)), r).groupProjects == None
    ensures ConfigAt(SetRows(GetRows(t)), r).groups == ConfigAt(t, r).groups
  {
  }

  // ---------------------------------------------------------------------
  // Applying the editor to the current row.

  /** `_apply_to_current_row`: the editor's groups and counters replace the
      row's configuration, a stored `group_projects` is kept, and 방향수 is
      recomputed from the groups. Without a current row nothing happens. */
  function ApplyToRow(t: SiteTable, r: int, e: Editor): (u: SiteTable)
    ensures |u.cells| == |t.cells|
    ensures 0 <= r < |t.cells| ==>
              && ConfigAt(u, r) == SiteConfig(e.groups, e.counters, ConfigAt(t, r).groupProjects)
              && PyInt(u.cells[r].dirCount) == Some(DirectionCount(e.groups, e.spin))
              && u.cells[r].jibun == t.cells[r].jibun && u.cells[r].name == t.cells[r].name
              && u.cells[r].jobNo == t.cells[r].jobNo && u.cells[r].state == t.cells[r].state
    ensures forall k: nat :: k < |t.cells| && k != r ==> u.cells[k] == t.cells[k] && ConfigAt(u, k) == ConfigAt(t, k)
    ensures !(0 <= r < |t.cells|) ==> u == t
  {
    if r < 0 || r >= |t.cells| then t
    else
      var n := DirectionCount(e.groups, e.spin);
      PyIntOfNatToString(n);
      SiteTable(t.cells[r := t.cells[r].(dirCount := NatToString(n))],
                t.data[r := SiteConfig(e.groups, e.counters, ConfigAt(t, r).groupProjects)])
  }

  /** Applying the same editor twice is applying it once; `get` re-applies
      the current row, so this is why that re-application is harmless. */
  lemma {:induction false} ApplyToRowTwice(t: SiteTable, r: int, e: Editor)
    ensures ApplyToRow(ApplyToRow(t, r, e), r, e) == ApplyToRow(t, r, e)
  {
  }

  /** What the widget's `get()` returns while row `cur` is current. */
  function Snapshot(t: SiteTable, cur: int, e: Editor): seq<SiteRecord>
  {
    GetRows(ApplyToRow(t, cur, e))
  }

  // ---------------------------------------------------------------------
  // Adding a site.

  /** `add_site`: a new last row with empty 지번 and 지점명, the given job
      number, the spin value as 방향수, the survey state (대기 when there is
      none) and an empty configuration. */
  function AddSite(t: SiteTable, jobNo: string, spin: nat, state: string): (u: SiteTable)
    ensures GetRows(u) == GetRows(t) + [SiteRecord(|t.cells| + 1, "", "", Strip(jobNo), NatToString(spin),
                                                   Strip(if state == "" then "대기" else state), [], [])]
  {
    var c := SiteCells("", "", jobNo, NatToString(spin), if state == "" then "대기" else state);
    AppendRowReads(t, c);
    StripNoSpace("");
    NatToStringClean(spin);
    AppendRow(t, c)
  }

  /** A row appended with an empty configuration reads back as one more
      record after the existing ones. */
  lemma AppendRowReads(t: SiteTable, c: SiteCells)
    ensures GetRows(AppendRow(t, c)) == GetRows(t) + [RecordOf(c, EmptyConfig, |t.cells| + 1)]
  {
    var r := |t.cells|;
    var u := AppendRow(t, c);
    var rows, want := GetRows(u), GetRows(t) + [RecordOf(c, EmptyConfig, r + 1)];
    forall k | 0 <= k < |rows| ensures rows[k] == want[k] {
      if k < r { AppendRowOld(t, c, k); } else { AppendRowNew(t, c); }
    }
    assert rows == want;
  }

  /** The table with one more row, `c`, whose configuration is empty. */
  function AppendRow(t: SiteTable, c: SiteCells): SiteTable
  {
    SiteTable(t.cells + [c], t.data[|t.cells| := EmptyConfig])
  }

  lemma AppendRowOld(t: SiteTable, c: SiteCells, k: nat)
    requires k < |t.cells|
    ensures GetRows(AppendRow(t, c))[k] == GetRows(t)[k]
  {
    var u := AppendRow(t, c);
    GetRowAt(u, k);
    GetRowAt(t, k);
    assert u.cells[k] == t.cells[k] && ConfigAt(u, k) == ConfigAt(t, k);
  }

  lemma AppendRowNew(t: SiteTable, c: SiteCells)
    ensures GetRows(AppendRow(t, c))[|t.cells|] == RecordOf(c, EmptyConfig, |t.cells| + 1)
  {
    var u := AppendRow(t, c);
    GetRowAt(u, |t.cells|);
    assert ConfigAt(u, |t.cells|) == EmptyConfig;
  }

  /** Row `k` of `get` is the stripped cells and the configuration of row `k`. */
  lemma GetRowAt(t: SiteTable, k: nat)
    requires k < |t.cells|
    ensures GetRows(t)[k] == RecordOf(t.cells[k], ConfigAt(t, k), k + 1)
  {
  }

  /** A decimal numeral has no surrounding whitespace. */
  lemma {:induction false} NatToStringClean(n: nat)
    ensures Strip(NatToString(n)) == NatToString(n)
  {
    StripNoSpace(NatToString(n));
  }

  // ---------------------------------------------------------------------
  // Moving sites.

  /** The list with the entries at `i` and `j` exchanged. */
  function Swap<T>(s: seq<T>, i: nat, j: nat): (r: seq<T>)
    requires i < |s| && j < |s|
    ensures |r| == |s|
    ensures r[i] == s[j] && r[j] == s[i]
    ensures forall k :: 0 <= k < |s| && k != i && k != j ==> r[k] == s[k]
  {
    s[i := s[j]][j := s[i]]
  }

  /** `move_site(direction)`: when the target position exists, the current
      row's edit is applied, the two records are exchanged and every row is
      written back. */
  function MoveSite(t: SiteTable, r: int, direction: int, e: Editor): (u: SiteTable)
    requires -1 <= r < |t.cells|
  {
    if r < 0 then t
    else
      var target := r + direction;
      if !(0 <= target < |t.cells|) then t
      else
        var t1 := ApplyToRow(t, r, e);
        SetRows(Swap(Snapshot(t1, r, e), r, target))
  }

  /** After a move the rows read back as the snapshot with the two records
      exchanged, each carrying its new position as 순번; no other row moves. */
  lemma {:induction false} MoveSiteEffect(t: SiteTable, r: int, direction: int, e: Editor)
    requires 0 <= r < |t.cells| && 0 <= r + direction < |t.cells|
    ensures var snap := Snapshot(t, r, e);
            var rows := GetRows(MoveSite(t, r, direction, e));
            && |rows| == |snap|
            && rows[r + direction] == snap[r].(seqNo := r + direction + 1)
            && rows[r] == snap[r + direction].(seqNo := r + 1)
            && forall k :: 0 <= k < |snap| && k != r && k != r + direction ==> rows[k] == snap[k]
  {
    MoveSiteIsSwap(t, r, direction, e);
    var snap := Snapshot(t, r, e);
    var sw := Swap(snap, r, r + direction);
    SetCleanRows(sw);
    var rows := GetRows(SetRows(sw));
    assert rows[r + direction] == sw[r + direction].(seqNo := r + direction + 1);
    assert rows[r] == sw[r].(seqNo := r + 1);
    forall k | 0 <= k < |snap| && k != r && k != r + direction ensures rows[k] == snap[k] {
      assert sw[k] == snap[k];
      assert snap[k].(seqNo := k + 1) == snap[k];
    }
  }

  /** A move in range writes back the snapshot with the two records exchanged. */
  lemma MoveSiteIsSwap(t: SiteTable, r: int, direction: int, e: Editor)
    requires 0 <= r < |t.cells| && 0 <= r + direction < |t.cells|
    ensures MoveSite(t, r, direction, e) == SetRows(Swap(Snapshot(t, r, e), r, r + direction))
  {
    ApplyToRowTwice(t, r, e);
  }

  /** Clean records written by `set` read back with 순번 as the only change. */
  lemma SetCleanRows(rows: seq<SiteRecord>)
    requires forall k :: 0 <= k < |rows| ==> CleanRecord(rows[k])
    ensures |GetRows(SetRows(rows))| == |rows|
    ensures forall k :: 0 <= k < |rows| ==> GetRows(SetRows(rows))[k] == rows[k].(seqNo := k + 1)
  {
    GetSetRows(rows);
    NormalClean(rows);
  }

  /** A move out of range, or without a current row, changes nothing. */
  lemma {:induction false} MoveSiteOutOfRange(t: SiteTable, r: int, direction: int, e: Editor)
    requires -1 <= r < |t.cells|
    requires r < 0 || !(0 <= r + direction < |t.cells|)
    ensures MoveSite(t, r, direction, e) == t
  {
  }

  /** `move_site_top`: the current row (not already the first) becomes the
      first; the rows above it shift down by one. */
  function MoveSiteTop(t: SiteTable, r: int, e: Editor): (u: SiteTable)
    requires -1 <= r < |t.cells|
  {
    if r <= 0 then t
    else
      var t1 := ApplyToRow(t, r, e);
      var rows := Snapshot(t1, r, e);
      SetRows(ToFront(rows, r))
  }

  lemma {:induction false} MoveSiteTopEffect(t: SiteTable, r: int, e: Editor)
    requires 0 < r < |t.cells|
    ensures var snap := Snapshot(t, r, e);
            var rows := GetRows(MoveSiteTop(t, r, e));
            && |rows| == |snap|
            && rows[0] == snap[r].(seqNo := 1)
            && (forall k :: 0 <= k < r ==> rows[k + 1] == snap[k].(seqNo := k + 2))
            && forall k :: r < k < |snap| ==> rows[k] == snap[k]
  {
    ApplyToRowTwice(t, r, e);
    var snap := Snapshot(t, r, e);
    var moved := ToFront(snap, r);
    forall k | 0 <= k < |moved| ensures CleanRecord(moved[k]) {
      if k == 0 { } else if k <= r { assert moved[k] == snap[k - 1]; } else { assert moved[k] == snap[k]; }
    }
    SetCleanRows(moved);
    assert MoveSiteTop(t, r, e) == SetRows(moved);
    var rows := GetRows(SetRows(moved));
    assert |snap| == |GetRows(ApplyToRow(t, r, e))|;
    forall k | 0 <= k < r ensures rows[k + 1] == snap[k].(seqNo := k + 2) {
      assert moved[k + 1] == snap[k];
    }
    forall k | r < k < |snap| ensures rows[k] == snap[k] {
      assert moved[k] == snap[k];
      assert snap[k].seqNo == k + 1;
      assert snap[k].(seqNo := k + 1) == snap[k];
    }
  }

  /** `rows.insert(0, rows.pop(r))`. */
  function ToFront<T>(s: seq<T>, r: nat): (m: seq<T>)
    requires r < |s|
    ensures |m| == |s| && m[0] == s[r]
    ensures forall k :: 0 <= k < r ==> m[k + 1] == s[k]
    ensures forall k :: r < k < |s| ==> m[k] == s[k]
  {
    [s[r]] + s[..r] + s[r + 1..]
  }

  // ---------------------------------------------------------------------
  // Deleting sites.

  /** The selection `del_site` acts on: the selected rows, or the current row
      when nothing is selected. */
  function Selection(selected: set<nat>, cur: int): set<nat>
  {
    if selected == {} && cur >= 0 then {cur as nat} else selected
  }

  /** `del_site`: the selected rows disappear and every remaining row is
      written back. With no rows, or nothing selected and no current row,
      nothing changes. */
  function DelSites(t: SiteTable, selected: set<nat>, cur: int, e: Editor): (u: SiteTable)
  {
    var rows := Snapshot(t, cur, e);
    var sel := Selection(selected, cur);
    if rows == [] || sel == {} then t
    else SetRows(RemoveAt(rows, sel))
  }

  /** After a deletion the rows read back as the snapshot's unselected rows,
      in their old order (`Positions` lists exactly those, ascending), each
      renumbered by its new position. */
  lemma {:induction false} DelSitesEffect(t: SiteTable, selected: set<nat>, cur: int, e: Editor)
    requires |t.cells| > 0 && Selection(selected, cur) != {}
    ensures var snap := Snapshot(t, cur, e);
            var ps := Positions(|snap|, Selection(selected, cur), false);
            var rows := GetRows(DelSites(t, selected, cur, e));
            && |rows| == |ps|
            && forall k :: 0 <= k < |rows| ==> rows[k] == snap[ps[k]].(seqNo := k + 1)
  {
    var snap := Snapshot(t, cur, e);
    var sel := Selection(selected, cur);
    var kept := RemoveAt(snap, sel);
    assert DelSites(t, selected, cur, e) == SetRows(kept);
    KeptClean(snap, sel);
    GetSetRows(kept);
    NormalClean(kept);
  }

  /** What a deletion keeps of clean records is clean. */
  lemma {:induction false} KeptClean(snap: seq<SiteRecord>, sel: set<nat>)
    requires forall k :: 0 <= k < |snap| ==> CleanRecord(snap[k])
    ensures forall k :: 0 <= k < |RemoveAt(snap, sel)| ==> CleanRecord(RemoveAt(snap, sel)[k])
  {
    var ps := Positions(|snap|, sel, false);
    var kept := RemoveAt(snap, sel);
    forall k | 0 <= k < |kept| ensures CleanRecord(kept[k]) {
      assert kept[k] == snap[ps[k]];
    }
  }

  /** The numbers a list holds. */
  function Elems(s: seq<nat>): set<nat>
  {
    set x | x in s
  }

  /** The loop of `del_site`: the selected positions, ascending, are deleted
      from the back so that earlier positions stay valid; a position beyond
      the current end is skipped. The result is the list without the
      selected entries. */
  method DeleteBackToFront<T>(rows: seq<T>, sel: seq<nat>) returns (r: seq<T>)
    requires StrictlyAscending(sel)
    ensures r == RemoveAt(rows, Elems(sel))
  {
    r := rows;
    var j := |sel|;
    assert Elems(sel[j..]) == {};
    RemoveAtNone(rows);
    while j > 0
      invariant 0 <= j <= |sel|
      invariant r == RemoveAt(rows, Elems(sel[j..]))
    {
      var i := sel[j - 1];
      var later := Elems(sel[j..]);
      ElemsStep(sel, j);
      if i < |r| {
        DropBelow(rows, later, i);
        r := r[..i] + r[i + 1..];
      } else {
        SkipBeyond(rows, later, i);
      }
      j := j - 1;
    }
    assert sel[0..] == sel;
  }

  /** One step further back along an ascending list adds a number below all
      those already passed. */
  lemma {:induction false} ElemsStep(sel: seq<nat>, j: nat)
    requires StrictlyAscending(sel) && 0 < j <= |sel|
    ensures forall x :: x in Elems(sel[j..]) ==> x > sel[j - 1]
    ensures Elems(sel[j - 1..]) == Elems(sel[j..]) + {sel[j - 1]}
  {
    assert sel[j - 1..] == [sel[j - 1]] + sel[j..];
    forall x | x in Elems(sel[j..]) ensures x > sel[j - 1] {
      var m :| 0 <= m < |sel[j..]| && sel[j..][m] == x;
      assert sel[j + m] == x;
    }
  }

  lemma {:induction false} RemoveAtNone<T>(s: seq<T>)
    ensures RemoveAt(s, {}) == s
  {
    var ps := Positions(|s|, {}, false);
    PrefixIdentity(ps, |s|);
    if |ps| > |s| {
      AtLeastIndex(ps, |ps| - 1);
    }
  }

  /** In a strictly ascending list of naturals each entry is at least its
      position. */
  lemma {:induction false} AtLeastIndex(ps: seq<nat>, k: nat)
    requires StrictlyAscending(ps) && k < |ps|
    ensures ps[k] >= k
  {
    if k > 0 {
      AtLeastIndex(ps, k - 1);
    }
  }

  /** Deleting position `i` from what is left after deleting only positions
      above `i` is deleting `i` along with them. */
  lemma {:induction false} DropBelow<T>(rows: seq<T>, later: set<nat>, i: nat)
    requires forall x :: x in later ==> x > i
    requires i < |RemoveAt(rows, later)|
    ensures RemoveAt(rows, later + {i}) == RemoveAt(rows, later)[..i] + RemoveAt(rows, later)[i + 1..]
  {
    var ps := Positions(|rows|, later, false);
    PositionsDrop(|rows|, later, i);
    AtDrop(rows, ps, i);
  }

  /** The unselected positions once `i` joins a selection lying above it:
      the old list with its entry `i` (which is `i` itself) left out. */
  lemma {:induction false} PositionsDrop(n: nat, later: set<nat>, i: nat)
    requires forall x :: x in later ==> x > i
    requires i < |Positions(n, later, false)|
    ensures var ps := Positions(n, later, false);
            Positions(n, later + {i}, false) == ps[..i] + ps[i + 1..]
  {
    var ps := Positions(n, later, false);
    AtLeastIndex(ps, i);
    PrefixIdentity(ps, i + 1);
    var qs := Positions(n, later + {i}, false);
    var rs := ps[..i] + ps[i + 1..];
    LeaveOut(ps, i);
    assert forall x :: x in qs <==> x in ps && x != i;
    StrictlyAscendingUnique(qs, rs);
  }

  /** An ascending list with the entry `i`, which equals `i`, left out:
      still ascending, and holding every other number of the list. */
  lemma {:induction false} LeaveOut(ps: seq<nat>, i: nat)
    requires StrictlyAscending(ps) && i < |ps| && ps[i] == i
    ensures StrictlyAscending(ps[..i] + ps[i + 1..])
    ensures forall x :: x in ps[..i] + ps[i + 1..] <==> x in ps && x != i
  {
    var rs := ps[..i] + ps[i + 1..];
    assert forall a :: 0 <= a < |rs| ==> rs[a] == if a < i then ps[a] else ps[a + 1];
    forall x | x in ps && x != i ensures x in rs {
      var m :| 0 <= m < |ps| && ps[m] == x;
      if m < i { assert rs[m] == x; } else { assert rs[m - 1] == x; }
    }
  }

  /** Picking from a list of positions with one position left out. */
  lemma {:induction false} AtDrop<T>(rows: seq<T>, ps: seq<nat>, i: nat)
    requires forall k :: 0 <= k < |ps| ==> ps[k] < |rows|
    requires i < |ps|
    ensures At(rows, ps[..i] + ps[i + 1..]) == At(rows, ps)[..i] + At(rows, ps)[i + 1..]
  {
    var rs := ps[..i] + ps[i + 1..];
    var whole := At(rows, ps);
    var lhs := At(rows, rs);
    var rhs := whole[..i] + whole[i + 1..];
    assert |lhs| == |rhs|;
    forall a | 0 <= a < |lhs| ensures lhs[a] == rhs[a] {
      if a < i {
        assert rs[a] == ps[a];
      } else {
        assert rs[a] == ps[a + 1];
      }
    }
  }

  /** Deleting a position past the end of what is left changes nothing. */
  lemma {:induction false} SkipBeyond<T>(rows: seq<T>, later: set<nat>, i: nat)
    requires forall x :: x in later ==> x > i
    requires i >= |RemoveAt(rows, later)|
    ensures RemoveAt(rows, later + {i}) == RemoveAt(rows, later)
  {
    var ps := Positions(|rows|, later, false);
    if i < |rows| {
      PrefixIdentity(ps, i + 1);
    }
    var qs := Positions(|rows|, later + {i}, false);
    StrictlyAscendingUnique(qs, ps);
  }

  /** An ascending list of naturals that contains every number below `n`
      starts with exactly those numbers. */
  lemma {:induction false} PrefixIdentity(ps: seq<nat>, n: nat)
    requires StrictlyAscending(ps)
    requires forall k :: 0 <= k < n ==> k in ps
    ensures n <= |ps|
    ensures forall k :: 0 <= k < n ==> ps[k] == k
  {
    if n > 0 {
      PrefixIdentity(ps, n - 1);
      assert n - 1 in ps;
      var m :| 0 <= m < |ps| && ps[m] == n - 1;
      assert m >= n - 1;
      AtLeastIndex(ps, n - 1);
    }
  }
}

=== FILE: timeseg.dfy ===
/** The survey-time tab: cutting a start..end span of the day into back-to-back
    slots of a fixed number of minutes, appending those slots to the time
    table, the (unwired) range list with its duplicate check, and row
    deletion with renumbering. Times are minutes since midnight. */
module TimeSegmenter {
  import opened Common
  import opened Digits

  /** A time of day as an `HH:mm` time editor holds it. */
  type TimeOfDay = m: nat | m < 1440

  /** The interval spin box: 1 to 60 minutes. */
  type Step = s: nat | 1 <= s <= 60 witness 1

  /** `strftime("%H:%M")` / `toString("HH:mm")`. */
  function Hhmm(t: TimeOfDay): string
  {
    PadNat(t / 60, 2) + ":" + PadNat(t % 60, 2)
  }

  /** Reads an `HH:MM` text back into minutes since midnight. */
  function ParseHhmm(s: string): Option<nat>
  {
    if |s| == 5 && s[2] == ':' && AllDigits(s[..2]) && AllDigits(s[3..]) then
      Some(ParseDigits(s[..2]) * 60 + ParseDigits(s[3..]))
    else None
  }

  /** `Hhmm` is a five-character text that reads back as the same time, so
      two times print alike exactly when they are equal. */
  lemma HhmmRoundTrip(t: TimeOfDay)
    ensures |Hhmm(t)| == 5
    ensures ParseHhmm(Hhmm(t)) == Some(t)
  {
    assert Pow10(2) == 100 by { assert Pow10(1) == 10; }
    PadNatExact(t / 60, 2);
    PadNatExact(t % 60, 2);
    var h, m := PadNat(t / 60, 2), PadNat(t % 60, 2);
    var s := h + ":" + m;
    assert s[..2] == h;
    assert s[3..] == m;
  }

  lemma HhmmInjective(t: TimeOfDay, u: TimeOfDay)
    ensures Hhmm(t) == Hhmm(u) <==> t == u
  {
    HhmmRoundTrip(t);
    HhmmRoundTrip(u);
  }

  /** The slots `_segment` produces from `a` up to `b`: each exactly `step`
      minutes long, starting where the previous one ended; a final slot that
      would run past `b` is dropped. */
  function Segments(a: nat, b: nat, step: Step): (segs: seq<(nat, nat)>)
    ensures forall k :: 0 <= k < |segs| ==> a <= segs[k].0 && segs[k].0 + step == segs[k].1 <= b
    decreases b - a
  {
    if a >= b || a + step > b then [] else [(a, a + step)] + Segments(a + step, b, step)
  }

  /** The closed form: for a < b there are exactly (b - a) div step slots and
      slot k runs from a + k*step to a + (k+1)*step; for a >= b there are none. */
  lemma SegmentsShape(a: nat, b: nat, step: Step)
    ensures a >= b ==> Segments(a, b, step) == []
    ensures a < b ==> |Segments(a, b, step)| == (b - a) / step
    ensures forall k :: 0 <= k < |Segments(a, b, step)| ==>
      Segments(a, b, step)[k] == (a + k * step, a + (k + 1) * step)
  {
    SegmentsLength(a, b, step);
    SegmentsAt(a, b, step);
  }

  lemma {:induction false} SegmentsLength(a: nat, b: nat, step: Step)
    ensures a < b ==> |Segments(a, b, step)| == (b - a) / step
    decreases b - a
  {
    if a < b && a + step <= b {
      SegmentsLength(a + step, b, step);
      assert |Segments(a, b, step)| == 1 + |Segments(a + step, b, step)|;
      if a + step == b {
        DivSmall(0, step);
      }
      DivStep(b - a, step);
    } else if a < b {
      DivSmall(b - a, step);
    }
  }

  lemma {:induction false} SegmentsAt(a: nat, b: nat, step: Step)
    ensures forall k :: 0 <= k < |Segments(a, b, step)| ==>
      Segments(a, b, step)[k] == (a + k * step, a + (k + 1) * step)
    decreases b - a
  {
    var segs := Segments(a, b, step);
    if a < b && a + step <= b {
      var rest := Segments(a + step, b, step);
      SegmentsAt(a + step, b, step);
      assert segs == [(a, a + step)] + rest;
      forall k | 0 <= k < |segs|
        ensures segs[k] == (a + k * step, a + (k + 1) * step)
      {
        if k > 0 {
          assert segs[k] == rest[k - 1];
          MulStep(a, k, step);
        }
      }
    }
  }

  lemma MulStep(a: nat, k: nat, step: nat)
    requires k >= 1
    ensures (a + step) + (k - 1) * step == a + k * step
    ensures (a + step) + (k - 1 + 1) * step == a + (k + 1) * step
  {
    assert (k - 1) * step + step == k * step;
    assert k * step + step == (k + 1) * step;
  }

  lemma DivSmall(n: nat, d: nat)
    requires 0 <= n < d
    ensures n / d == 0
  {
    DivUnique(n, d, 0, n);
  }

  /** Euclidean division has one quotient. */
  lemma DivUnique(n: int, d: int, q: int, r: int)
    requires d > 0 && n == q * d + r && 0 <= r < d
    ensures n / d == q
  {
    var q', r' := n / d, n % d;
    assert n == q' * d + r' && 0 <= r' < d;
    var x := q - q';
    assert x * d == r' - r by {
      assert q * d - q' * d == (q - q') * d;
    }
    MulBounds(x, d);
  }

  lemma MulBounds(x: int, d: int)
    requires d > 0
    ensures x >= 1 ==> x * d >= d
    ensures x <= -1 ==> x * d <= -d
  {
    if x >= 1 {
      assert x * d == (x - 1) * d + d;
      assert (x - 1) * d >= 0;
    } else if x <= -1 {
      assert x * d == -((-x - 1) * d) - d;
      assert (-x - 1) * d >= 0;
    }
  }

  lemma DivStep(d: nat, step: nat)
    requires 1 <= step <= d
    ensures (d - step) / step + 1 == d / step
  {
    var q, r := (d - step) / step, (d - step) % step;
    assert d - step == q * step + r;
    assert d == (q + 1) * step + r;
    DivUnique(d, step, q + 1, r);
  }

  /** `SurveyTimeTab._segment`, the loop as written. */
  method Segment(a: TimeOfDay, b: TimeOfDay, step: Step) returns (out: seq<(nat, nat)>)
    ensures out == Segments(a, b, step)
  {
    var t: nat := a;
    out := [];
    while t < b
      invariant a <= t
      invariant out + Segments(t, b, step) == Segments(a, b, step)
      decreases b - t
    {
      var t2 := t + step;
      if t2 > b {
        break;
      }
      var later := Segments(t2, b, step);
      assert Segments(t, b, step) == [(t, t2)] + later;
      assert (out + [(t, t2)]) + later == out + ([(t, t2)] + later);
      out := out + [(t, t2)];
      t := t2;
    }
    assert Segments(t, b, step) == [];
  }

  /** A row of the time table: its number and the slot's start and end text. */
  datatype TimeRow = TimeRow(no: nat, start: string, end: string)

  function SlotRows(segs: seq<(nat, nat)>, n0: nat): seq<TimeRow>
    requires forall k :: 0 <= k < |segs| ==> segs[k].0 <= segs[k].1 < 1440
  {
    seq(|segs|, k requires 0 <= k < |segs| => TimeRow(n0 + k + 1, Hhmm(segs[k].0), Hhmm(segs[k].1)))
  }

  /** `generate`: the slots of a..b are appended after the existing rows, each
      numbered one past the row count at the time it is added. Nothing is
      checked against the rows already there. */
  function Generate(rows: seq<TimeRow>, a: TimeOfDay, b: TimeOfDay, step: Step): (r: seq<TimeRow>)
    ensures |r| == |rows| + |Segments(a, b, step)|
    ensures r[..|rows|] == rows
    ensures forall i :: |rows| <= i < |r| ==>
      r[i] == TimeRow(i + 1, Hhmm(Segments(a, b, step)[i - |rows|].0), Hhmm(Segments(a, b, step)[i - |rows|].1))
  {
    var added := SlotRows(Segments(a, b, step), |rows|);
    assert (rows + added)[..|rows|] == rows;
    rows + added
  }

  /** Pressing the button twice appends the same slots twice: the second
      batch repeats the first one's times, renumbered after it. */
  lemma GenerateTwice(rows: seq<TimeRow>, a: TimeOfDay, b: TimeOfDay, step: Step)
    requires a + step <= b
    ensures var once := Generate(rows, a, b, step);
            var twice := Generate(once, a, b, step);
            var n := |once| - |rows|;
            && n >= 1 && |twice| == |rows| + 2 * n
            && (forall i :: |once| <= i < |twice| ==>
                  twice[i].start == once[i - n].start && twice[i].end == once[i - n].end
                  && twice[i].no == once[i - n].no + n)
  {
    assert |Segments(a, b, step)| >= 1 by {
      assert Segments(a, b, step) == [(a, a + step)] + Segments(a + step, b, step);
    }
  }

  /** A configured range: start, end and step, as the range list keeps them. */
  datatype Range = Range(start: TimeOfDay, end: TimeOfDay, step: Step)

  /** The key the duplicate check compares: both times as `HH:mm`, and the step. */
  function RangeKey(x: Range): (string, string, nat)
  {
    (Hhmm(x.start), Hhmm(x.end), x.step)
  }

  predicate HasKey(ranges: seq<Range>, key: (string, string, nat))
  {
    exists i :: 0 <= i < |ranges| && RangeKey(ranges[i]) == key
  }

  datatype AddOutcome = Ignored | Duplicate | Added(ranges: seq<Range>)

  /** `add_range`: an empty or reversed span is ignored silently; a range whose
      key is already listed is refused with a notice; otherwise it is appended. */
  function AddRange(ranges: seq<Range>, a: TimeOfDay, b: TimeOfDay, step: Step): (r: AddOutcome)
    ensures r == Ignored <==> a >= b
    ensures r == Duplicate <==> a < b && exists i :: 0 <= i < |ranges| && ranges[i] == Range(a, b, step)
    ensures r.Added? ==> r.ranges == ranges + [Range(a, b, step)]
  {
    if a >= b then Ignored
    else if HasKey(ranges, RangeKey(Range(a, b, step))) then
      (RangeKeyMatch(ranges, Range(a, b, step)); Duplicate)
    else
      (RangeKeyMatch(ranges, Range(a, b, step)); Added(ranges + [Range(a, b, step)]))
  }

  /** Two ranges share a key exactly when they are the same range. */
  lemma RangeKeyMatch(ranges: seq<Range>, x: Range)
    ensures HasKey(ranges, RangeKey(x)) <==> exists i :: 0 <= i < |ranges| && ranges[i] == x
  {
    forall i | 0 <= i < |ranges|
      ensures RangeKey(ranges[i]) == RangeKey(x) <==> ranges[i] == x
    {
      HhmmInjective(ranges[i].start, x.start);
      HhmmInjective(ranges[i].end, x.end);
    }
  }

  predicate DistinctRanges(ranges: seq<Range>)
  {
    forall i, j :: 0 <= i < j < |ranges| ==> ranges[i] != ranges[j]
  }

  /** The range list never holds the same range twice, and a second identical
      add is refused. */
  lemma AddRangeKeepsDistinct(ranges: seq<Range>, a: TimeOfDay, b: TimeOfDay, step: Step)
    requires DistinctRanges(ranges)
    ensures AddRange(ranges, a, b, step).Added? ==> DistinctRanges(AddRange(ranges, a, b, step).ranges)
    ensures AddRange(ranges, a, b, step).Added? ==>
      AddRange(AddRange(ranges, a, b, step).ranges, a, b, step) == Duplicate
  {
    var r := AddRange(ranges, a, b, step);
    if r.Added? {
      var rs := r.ranges;
      assert rs[|ranges|] == Range(a, b, step);
    }
  }

  /** `_refresh_ranges`: the table shows range i as row i+1 with its two times. */
  function RangeRows(ranges: seq<Range>): (rows: seq<TimeRow>)
    ensures |rows| == |ranges|
    ensures forall i :: 0 <= i < |rows| ==>
      rows[i].no == i + 1 && ParseHhmm(rows[i].start) == Some(ranges[i].start as nat)
      && ParseHhmm(rows[i].end) == Some(ranges[i].end as nat)
  {
    var rows := seq(|ranges|, i requires 0 <= i < |ranges| => TimeRow(i + 1, Hhmm(ranges[i].start), Hhmm(ranges[i].end)));
    assert forall i :: 0 <= i < |rows| ==>
      ParseHhmm(rows[i].start) == Some(ranges[i].start as nat) && ParseHhmm(rows[i].end) == Some(ranges[i].end as nat) by {
      forall i | 0 <= i < |rows|
        ensures ParseHhmm(rows[i].start) == Some(ranges[i].start as nat)
        ensures ParseHhmm(rows[i].end) == Some(ranges[i].end as nat)
      {
        HhmmRoundTrip(ranges[i].start);
        HhmmRoundTrip(ranges[i].end);
      }
    }
    rows
  }

  /** `del_row`: the selected rows go, the rest keep their order and times and
      are renumbered 1..n. */
  function DelRows(rows: seq<TimeRow>, sel: set<nat>): (r: seq<TimeRow>)
    ensures var kept := RemoveAt(rows, sel);
      && |r| == |kept|
      && (forall i :: 0 <= i < |r| ==> r[i] == TimeRow(i + 1, kept[i].start, kept[i].end))
  {
    var kept := RemoveAt(rows, sel);
    seq(|kept|, i requires 0 <= i < |kept| => TimeRow(i + 1, kept[i].start, kept[i].end))
  }

  /** Which rows survive a delete: exactly the unselected ones, in table order. */
  lemma DelRowsKeeps(rows: seq<TimeRow>, sel: set<nat>)
    ensures var ps := Positions(|rows|, sel, false);
      && |DelRows(rows, sel)| == |ps|
      && (forall i :: 0 <= i < |ps| ==>
            DelRows(rows, sel)[i].start == rows[ps[i]].start && DelRows(rows, sel)[i].end == rows[ps[i]].end)
    ensures forall p :: 0 <= p < |rows| && p !in sel ==>
      exists i :: 0 <= i < |DelRows(rows, sel)| && DelRows(rows, sel)[i].start == rows[p].start
                  && DelRows(rows, sel)[i].end == rows[p].end
  {
    var ps := Positions(|rows|, sel, false);
    var r := DelRows(rows, sel);
    var kept := RemoveAt(rows, sel);
    assert kept == At(rows, ps);
    assert |r| == |ps|;
    forall i | 0 <= i < |ps|
      ensures r[i].start == rows[ps[i]].start && r[i].end == rows[ps[i]].end
    {
      assert r[i] == TimeRow(i + 1, kept[i].start, kept[i].end);
      assert kept[i] == rows[ps[i]];
    }
    forall p | 0 <= p < |rows| && p !in sel
      ensures exists i :: 0 <= i < |r| && r[i].start == rows[p].start && r[i].end == rows[p].end
    {
      assert p in ps;
      var i :| 0 <= i < |ps| && ps[i] == p;
      assert r[i].start == rows[p].start;
    }
  }
}
